=== FILE: README.md ===
# videorganizer, modelled in Dafny

videorganizer is a small video library: a Go server (`main.go`) exposes a
directory tree as JSON (`/api/tree`), streams files with HTTP byte ranges
(`/api/stream`) and renames files (`/api/rename`); a browser UI renders the
tree, plays the selected file, seeks with a hover preview, moves between
files of the same folder and renames the current file. The UI exists twice:
as ES modules under `static/js/` and as the single-file draft `static/app.js`.

This project models:

- **the server** — `paths.dfy` (module `SafePath`: Go's lexical `filepath.Clean`,
  `Join` and `Dir` on segment lists; `safeJoin`; `apiRename`; the request
  checks of `apiStream`) and `range.dfy` (module `ByteRange`: `strconv.ParseInt`
  with 64-bit overflow and wrap-around, `parseRange`, the 206/416 decision and
  headers, and the 32 KiB copy loop over a file and a response writer, as
  classes);
- **the library tree** — `tree.dfy` (module `Tree`: the JSON tree, its rendering
  into rows in sorted order, `makeId`, `humanSize`, the ordered file paths,
  sibling navigation and the folder ids `expandToPath` opens) and
  `treeview.dfy` (module `TreeView`: the rendered panel as state, the
  selection mark, `expandToPath`);
- **the player and its controls** — `media.dfy` (the `<video>` element),
  `player.dfy` (module `Player`: `setCurrent`, rotation, the throttled hover
  preview, click-to-seek), `controls.dfy` (module `Controls`: play/pause,
  forward/backward, the progress bar, the prev/next buttons, the keyboard
  table);
- **the location fragment** — `uri.dfy` (module `Uri`: `encodeURIComponent` and
  `decodeURIComponent` over UTF-8) and `fragment.dfy` (the lenient and the
  strict ways the fragment is read back);
- **renaming in the UI** — `rename.dfy` (module `RenameFlow`: rename-flow.js
  as an ordered log of effects);
- **the draft UI** — `draft.dfy` (module `Draft`: app.js's module-level state as
  the class `App`, its keyboard table, its sibling walk and its rename flow).

Inputs the code reads from the environment are parameters: the file system
(`existing`, `files`, the file content of `ChunkSource`), the HTTP response
of a rename (`RenameFlow.Response`), the failures of `os.Rename` that the
paths alone do not decide, element geometry and `performance.now()`. `null` in the UI is the empty string; a thrown
exception is an explicit value (`Fragment.Throws`, `ok == false`).

## Model

| member | source | states |
|---|---|---|
| SafePath.Clean | main.go:49 | the cleaned absolute path is non-empty and starts with '/' |
| SafePath.SplitRender | main.go:49 | resolving the fields of a rendered clean path gives the segments back |
| SafePath.CleanRender | main.go:49 | Clean is the identity on rendered clean paths |
| SafePath.ResolveClean | main.go:49 | resolution keeps a segment list clean (no "", ".", "..") |
| SafePath.ResolveAppend | main.go:49 | resolving `f + g` is resolving `f`, then `g` |
| SafePath.ResolveSegments | main.go:49 | plain names are appended unchanged |
| SafePath.JoinResolves | main.go:49 | `filepath.Join(root, rel)` is the rendering of `rel`'s fields resolved from `root`, and stays clean |
| SafePath.DirOfRender | main.go:356 | `filepath.Dir` of a clean path is the rendering of its parent |
| SafePath.WithinIsPrefix | main.go:371 | a clean path is the root or below root+"/" exactly when the root's segments are a prefix of its segments |
| SafePath.ReplaceBackslash | main.go:47 | every backslash becomes '/', length kept |
| SafePath.JoinedPath | main.go:47-49 | the joined segments are clean |
| SafePath.SafeJoin | main.go:46-63 | accepted exactly when the joined path starts with the root as a string; the result is the joined path |
| SafePath.SafeJoinWithin | main.go:46-63 | corrected safeJoin: accepted exactly when the root's segments are a prefix of the joined segments |
| SafePath.WithinAlsoSafe | main.go:46-63 | whatever the corrected check accepts, the written one accepts with the same result |
| SafePath.JoinedPlain | main.go:47-49 | a relative path without backslashes or a leading slash joins as its fields resolved from the root |
| SafePath.PlainPathAccepted | main.go:46-63 | a path of plain names is accepted and lands at root + names |
| SafePath.SafeJoinSiblingEscape | main.go:58 | with root `/v`, `../v2/x` passes safeJoin and lands in `/v2/x`, outside the root |
| SafePath.SafeJoinWithinRefusesSibling | main.go:58 | the corrected check refuses `../v2/x` under `/v` |
| SafePath.RenameTarget | main.go:356-357 | for a new name that is a segment the target is the old path's directory plus that name; for `..` it is the old path's grandparent |
| SafePath.ApiRename | main.go:323-385 | a rename that succeeds passed the request checks and safeJoin, the old file exists, the target is Join(Dir(old), new_name), lies at or below root+"/", os.Rename did not fail (the target is no ancestor of the old path and no other directory holding entries), and `new_path` is the target without the root prefix; a request refused by the checks gets that refusal |
| SafePath.RenameAccepted | main.go:323-385 | a request passing every check is renamed with the reply built from the old and new paths |
| SafePath.RenameTargetIsJoin | main.go:356-357 | the segment target is `filepath.Join(filepath.Dir(old), new_name)` and is clean |
| SafePath.RenameTargetWithinRoot | main.go:359-374 | every target a successful rename writes has the root's segments as a prefix |
| SafePath.RenameFromSibling | main.go:345-379 | root `/v`, path `../v2`, new_name `v`: the sibling `/v2` passes every check of the handler and os.Rename is asked to move it onto the root; that fails with 500 "rename failed" while the root holds entries, and replaces an empty root |
| SafePath.RenameDotDot | main.go:339-379 | path `a/b`, new_name `..`: the name check lets `..` through and the target, the root itself, passes the root test; only os.Rename refuses, so the reply is 500 "rename failed" instead of a 400 |
| SafePath.ApiRenameChecked | main.go:323-385 | the corrected handler renames only what the written one renames, with the same reply, and only for an old path strictly below the root and a new name other than `.` and `..` |
| SafePath.CheckedRefusesEscapes | main.go:339-350 | the corrected handler refuses both requests above with a 400 before touching the file system |
| SafePath.RenameCheckedStaysInDirectory | main.go:323-385 | with the corrected checks, a successful rename moves a file strictly below the root to a sibling in the same directory, and `new_path` is its relative path |
| SafePath.CheckedRenameReply | main.go:323-385 | what a successful corrected rename has passed, and the reply it gets |
| SafePath.SiblingTarget | main.go:356-382 | the target of a path below the root is its directory plus the new name; its relative path replaces the last segment |
| SafePath.TrimRoot | main.go:382 | stripping root+"/" from a path below the root gives its relative path |
| SafePath.ApiStream | main.go:240-295 | as written: a streamed file is an existing, readable file whose path starts with the root's text, with its size and the range reply for it; the request is refused exactly when the path is empty, safeJoin refuses it, it names no file or the file cannot be opened; the last, and only it, answers 500 "cannot open file" |
| SafePath.ApiStreamChecked | main.go:240-295 | with the corrected safeJoin: a streamed file lies within the root and is readable; refused exactly when the path is empty, leaves the root, names no file or the file cannot be opened, and only the last answers 500 "cannot open file" |
| SafePath.StreamCheckedAgrees | main.go:247 | whatever the corrected handler streams, the written one streams identically |
| SafePath.StreamSiblingEscape | main.go:247 | root `/v`, path `../v2/x`: the written handler streams the readable file `/v2/x` of the sibling directory; the corrected one refuses with 400 |
| ByteRange.Wrap64 | main.go:222 | int64 subtraction wraps into [-2^63, 2^63) and is the identity inside it |
| ByteRange.ParseInt64 | main.go:215 | ParseInt's result is within int64 |
| ByteRange.ParseDecimal | main.go:224 | the decimal text of any n ≤ 2^63-1 parses back to n |
| ByteRange.ParseRejectsOther | main.go:224 | a character other than a digit or sign makes ParseInt fail |
| ByteRange.SplitDash | main.go:209 | `SplitN(s, "-", 2)`: fails exactly without a '-', otherwise splits at the first one |
| ByteRange.ParseRange | main.go:200-237 | a blank header fails as empty; a parsed range came from a trimmed header starting with `bytes=`, and both ends are int64 |
| ByteRange.ParseSpec | main.go:208-236 | a spec that parses contains '-' and gives int64 ends |
| ByteRange.SuffixSpec | main.go:213-223 | `-n` parses to the last min(n, size) bytes |
| ByteRange.OpenEndedSpec | main.go:228-231 | `s-` parses to (s, size-1) |
| ByteRange.ClosedSpec | main.go:232-236 | `s-e` parses to (s, e) |
| ByteRange.SpecWithCommaFails | main.go:209-236 | a spec containing ',' anywhere fails to parse |
| ByteRange.ParsedEndsInDigit | main.go:215-224 | text ParseInt accepts ends in a digit |
| ByteRange.RangeResponse | main.go:273-295 | no header serves the whole file; a 206 exactly when the header parses to a satisfiable range, with length end-start+1 in 1..size and `Content-Range: bytes s-e/size`; a 416 carries `bytes */size` |
| ByteRange.SuffixRange | main.go:213-222 | `bytes=-n` is the last min(n, size) bytes |
| ByteRange.OpenEndedRange | main.go:228-231 | `bytes=s-` runs to size-1 |
| ByteRange.ClosedRange | main.go:232-236 | `bytes=s-e` parses to (s, e) |
| ByteRange.TrimmedBytes | main.go:201-208 | trailing white space is removed before the spec is parsed |
| ByteRange.CanonicalHeader | main.go:201-208 | a header without surrounding space parses as its spec |
| ByteRange.ParsedResponse | main.go:281-295 | a parsed range is served as 206 with its headers when satisfiable and refused with 416 otherwise |
| ByteRange.ClosedRangeServed | main.go:281-295 | `bytes=s-e` with s ≤ e < size is served as exactly that range |
| ByteRange.EndPastSizeRejected | main.go:282 | an end at or past the size is refused with 416 (no clamping) |
| ByteRange.BlankHeaderRejected | main.go:201-282 | a header of white space only is refused with 416, not served whole |
| ByteRange.MultiRangeRejected | main.go:209-236 | a multi-range header (with ',') never parses |
| ByteRange.NegativeSuffixRejected | main.go:213-222 | `bytes=--n` parses (ParseInt accepts the sign) but the wrapped start is never satisfiable |
| ByteRange.NegativeSuffixParse | main.go:213-222 | `bytes=-<negative>` parses to (wrap(size - v), size-1) |
| ByteRange.WrappedStartOutside | main.go:222-282 | size - v for negative v is either past the file or wraps negative |
| ByteRange.ChunkSource.Read | main.go:305 | a read returns at most the requested bytes, the file's next bytes, and advances the offset by them |
| ByteRange.ResponseBody.Write | main.go:307 | a write appends a prefix of the chunk, all of it when it succeeds |
| ByteRange.CopyChunk | main.go:297-319 | the client receives the file's bytes from the seek position, never more than chunkSize, every read at most 32 KiB, exactly chunkSize when the loop completes |
| Tree.CodeUnits | static/js/tree.js:79 | names compare by UTF-16 code units (at least one unit per character) |
| Tree.LexLessIrreflexive | static/js/tree.js:79 | the sort order is strict |
| Tree.Sanitize | static/js/tree.js:22 | every code unit becomes itself if ASCII alphanumeric, else '-' |
| Tree.MakeId | static/js/tree.js:20-23 | the id is `id-` followed by one alphanumeric or '-' per code unit of base/name |
| Tree.MakeIdCollides | static/js/tree.js:20-23 | distinct names (`a b`, `a-b`) can share an id |
| Tree.SanitizeAlnum | static/js/tree.js:22 | alphanumeric text is kept as is |
| Tree.UnitIndex | static/js/tree.js:158-164 | the unit is the largest power of 1024 not above the size, capped at TB |
| Tree.UnitIndexUnique | static/js/tree.js:158-164 | the unit index is the only i with 1024^i ≤ n < 1024^(i+1) (below TB) |
| Tree.FilePaths | static/js/tree.js:167-170 | the listed paths are non-empty |
| Tree.FilePathsFromRows | static/js/tree.js:167-170 | every listed path is the `data-path` of some file row |
| Tree.Render | static/js/tree.js:76-123 | renderFolder gives one row for every key anywhere below the folder |
| Tree.RenderEntries | static/js/tree.js:79-121 | the same for a list of entries |
| Tree.RenderEntry | static/js/tree.js:82-120 | one row for the key itself, first: a section for a folder, a file row with its path and size label for a file, then the folder's contents |
| Tree.RenderRoot | static/js/tree.js:42-64 | with one top-level key, a row for every key below it and none for the key; otherwise a row for every key, top-level ones included |
| Tree.RenderSections | static/js/tree.js:45-63 | one section per top-level key, then its contents: a row for every key |
| Tree.RenderPaths | static/js/tree.js:76-123 | the file rows of a rendered folder are its leaves' paths below the base, in key order |
| Tree.RenderEntriesPaths | static/js/tree.js:79-121 | the same for a list of entries |
| Tree.RenderEntryPaths | static/js/tree.js:82-120 | the same for one entry |
| Tree.SingleRootPaths | static/js/tree.js:43-44 | with one top-level key, paths start below it (its name is dropped) |
| Tree.SectionsPaths | static/js/tree.js:45-63 | with several top-level keys, each key is the first segment of its files' paths |
| Tree.SectionRootPaths | static/js/tree.js:42-64 | the same through loadTree's root handling, and every path starts with a top-level key |
| Tree.LeafNamesArePaths | main.go:87-121 | every leaf of a well-formed tree is a path of names |
| Tree.LeafNamesSorted | main.go:98 | the leaves of a tree with sorted keys come in sorted path order |
| Tree.EntriesLeafNamesSorted | static/js/tree.js:79 | the same for a sorted list of entries |
| Tree.SectionLeafNamesSorted | static/js/tree.js:42 | the same across the sorted top-level keys |
| Tree.SortedDistinct | static/js/tree.js:79 | sorted leaves are distinct |
| Tree.RenderedPathsDistinct | static/js/tree.js:167-170 | the rendered file paths of a well-formed library are distinct |
| Tree.PathsDistinct | static/js/tree.js:101 | distinct name paths join to distinct strings |
| Tree.SameDir | static/js/tree.js:174 | the filter keeps at most as many paths as it is given |
| Tree.SiblingPaths | static/js/tree.js:171-175 | nothing for an empty path; every sibling is a non-empty rendered path in p's directory |
| Tree.SameDirMembers | static/js/tree.js:174 | the filter keeps exactly the paths whose directory is the given one |
| Tree.SameDirDistinct | static/js/tree.js:174 | filtering keeps paths distinct |
| Tree.SiblingPathsMembers | static/js/tree.js:171-175 | a path is a sibling of p exactly when p is non-empty and the path is listed in p's directory |
| Tree.IndexOf | static/js/tree.js:178 | `indexOf`: -1 exactly when absent, otherwise the first position holding x |
| Tree.IndexOfDistinct | static/js/tree.js:178 | in a list without repeats, indexOf finds each element at its own position |
| Tree.NextSibling | static/js/tree.js:176-187 | a move stores the encoded selected path in the fragment |
| Tree.PrevSibling | static/js/tree.js:188-198 | the same for the previous sibling |
| Tree.SiblingMovesStayInFolder | static/js/tree.js:171-198 | both moves go from a listed file to a listed file of the same directory |
| Tree.SameSiblings | static/js/tree.js:171-175 | paths in the same directory have the same siblings |
| Tree.SiblingAt | static/js/tree.js:181 | each sibling is non-empty and shares p's directory |
| Tree.NextThenPrev | static/js/tree.js:176-198 | with distinct paths, next then previous returns to p |
| Tree.PrevThenNext | static/js/tree.js:176-198 | with distinct paths, previous then next returns to p |
| Tree.NextStaysOnlyAtEnd | static/js/tree.js:176-187 | next stays put exactly when p is not listed or is the last of its folder |
| Tree.PrevStaysOnlyAtStart | static/js/tree.js:188-198 | previous stays put exactly when p is not listed or is the first of its folder |
| Tree.ExpandIds | static/js/tree.js:125-139 | one folder id per directory level of the path |
| Tree.ExpandVisitsPrefixes | static/js/tree.js:129-131 | the i-th id is `id-` + sanitized first i+1 segments |
| Tree.ExpandIdIsMakeId | static/js/tree.js:131 | expandToPath's ids are the ids renderFolder gave the folders |
| Tree.ExpandIdsRendered | static/js/tree.js:125-139 | for every rendered file, each folder id expandToPath looks up is a rendered folder |
| Tree.RenderedFileLeaf | static/js/tree.js:42-123 | every rendered file path joins the names of a leaf of the tree |
| Tree.HumanSize | static/js/tree.js:158-164 | below 1024 the label is the byte count and "B"; from 1024 on it has one decimal and the unit whose power of 1024 the size reaches |
| Tree.ToFixed | static/js/tree.js:163 | with no decimals the digits read as the value rounded half up; with one, the point stands before the last digit and the digits read as ten times the value rounded half up |
| Tree.HumanSizeLoop | static/js/tree.js:158-164 | the divide loop yields the label HumanSize defines: the unit index and toFixed(0 or 1) of the scaled size |
| Tree.LoopExit | static/js/tree.js:162-163 | when the loop stops, the label is HumanSize's |
| Tree.FixedOfQuotient | static/js/tree.js:163 | toFixed(1) of n / 1024^i is its half-up rounded tenths |
| Tree.TenthsRounding | static/js/tree.js:163 | the shown tenths are within 0.05 of the exact quotient |
| Tree.HumanSizeBytes | static/js/tree.js:158-164 | 0 is `0 B`, 1023 is `1023 B` |
| Tree.HumanSizeKilobytes | static/js/tree.js:158-164 | 1536 is `1.5 KB` |
| Tree.HumanSizeThreshold | static/js/tree.js:158-164 | 1048575 rounds to `1024.0 KB`; 1048576 is `1.0 MB` |
| TreeView.FirstMarked | static/js/tree.js:151 | `querySelector` finds the first marked row, or none when no row is marked |
| TreeView.FindRow | static/js/tree.js:141 | finds the first file row with the path, or none when there is none |
| TreeView.Unmark | static/js/tree.js:151-154 | exactly the given row loses its mark; every other mark is kept |
| TreeView.UnmarkFirstClears | static/js/tree.js:151-154 | with at most one mark, removing the first leaves none |
| TreeView.FolderIds | static/js/tree.js:127-131 | the id loop computes ExpandIds |
| TreeView.Panel.Load | static/js/tree.js:25-73 | for a tree with sorted keys at every level, the rows are its rendering, no two file rows carry the same path and no row is marked; loadTree completes exactly when the fragment is absent or decodes |
| TreeView.Panel.SwitchSelected | static/js/tree.js:150-156 | the old mark is removed; the target gains it, and is then the only marked row; a missing target throws after the unmarking |
| TreeView.Panel.ExpandToPath | static/js/tree.js:125-148 | ids as ExpandIds; an empty path changes nothing; otherwise the path's row becomes the only marked one, or the call throws when there is none |
| Uri.Utf8 | static/js/tree.js:110 | one to four bytes per character |
| Uri.EscapeAll | static/js/tree.js:110 | three characters per escaped byte |
| Uri.Continuations | static/js/tree.js:69 | a decoded run has the requested count of continuation bytes |
| Uri.DecodeEncode | static/js/tree.js:69 | decodeURIComponent(encodeURIComponent(s)) == s for every string |
| Uri.EncodeCharThenDecode | static/js/tree.js:69 | decoding an encoded character followed by t yields the character followed by t's decoding |
| Uri.EscapedCharThenDecode | static/js/tree.js:69 | the same for percent-escaped characters |
| Uri.EncodeCharset | static/js/tree.js:110 | the encoding uses only unreserved characters, '%' and hex digits |
| Uri.NoEqualsInEncoding | static/app.js:72 | an encoding contains neither '=' nor '/' |
| Uri.EncodeChar | static/js/tree.js:110 | a character becomes one to twelve characters: itself, or one to four escapes |
| Uri.Encode | static/js/tree.js:110 | the encoding is at least as long as the string and at most twelve times as long, so it is empty exactly for the empty string |
| Uri.Decode | static/js/tree.js:69 | a successful decoding is never longer than its input; its partner `Uri.DecodeEncode` proves it inverts `Uri.Encode` on every string of scalar values |
| Fragment.SetHashPath | static/app.js:67-73 | the fragment is empty exactly for the empty path and holds no '=' or '/' |
| Fragment.GetHashPath | static/app.js:75-84 | no path exactly without a fragment; its partners `Fragment.HashRoundTrip` (it reads back what `SetHashPath` stored) and `Fragment.StrictRoundTrip` (tree.js's strict read agrees) carry the round trip |
| Fragment.StrictRead | static/js/tree.js:69 | the strict read: no fragment, the decoded path, or a throw exactly when a non-empty fragment does not decode |
| Fragment.HashRoundTrip | static/app.js:67-84 | getHashPath reads back what setHashPath stored; an empty path leaves none |
| Fragment.StrictRoundTrip | static/js/tree.js:69-110 | the strict read recovers every stored non-empty path |
| Fragment.EncodedNotLegacy | static/app.js:78 | a stored fragment never starts with `path=` |
| Fragment.LegacyFragment | static/app.js:78 | `path=` + encoding reads as the path leniently and keeps the prefix strictly |
| Fragment.PrefixDroppedOnce | static/app.js:78 | only one `path=` is dropped |
| Fragment.MalformedFragment | static/app.js:79-83 | `100%` is returned as typed by getHashPath and makes the strict read throw |
| Player.StreamUrl | static/js/main.js:10 | the URL is `/api/stream?path=` + a query value that decodes to the path and holds no '&', '#' or '+' |
| Player.EncodingIsQuerySafe | static/js/main.js:10 | the encoded path holds no '&', '#' or '+', so the query value is not split or altered |
| Player.RenameDefault | static/js/player.js:28 | the field's default holds no '/', and is empty for no path |
| Player.RenameDefaultKeepsPath | static/js/player.js:28 | directory + '/' + default gives the path back |
| Player.NextRotation | static/js/player.js:47 | the angle stays below 360 and a quarter turn stays a quarter turn |
| Player.FourTurns | static/js/player.js:47 | four rotations return to the start (mod 360) |
| Player.TurnFlipsSideways | static/js/player.js:66 | each rotation switches between upright and sideways |
| Player.CursorFraction | static/js/player.js:92-93 | the cursor's fraction of the overlay is in [0, 1], 0 left of it, 1 right of it, proportional inside |
| Player.SeekTime | static/js/player.js:92-93 | the seek time is in [0, duration], 0 at the left edge and the duration at the right |
| Player.ClampPreview | static/js/player.js:98-100 | the preview is at least 6 px in, at most 6 px from the far side when it fits, and unmoved when already inside |
| Player.SeekInstants | static/js/player.js:105-108 | every seek happens at one of the move instants, never more seeks than moves |
| Player.SeeksSpaced | static/js/player.js:105-108 | consecutive seeks are at least 60 ms apart, and the first is at least 60 ms after the last one |
| Player.BurstSeeksOnce | static/js/player.js:105-108 | a burst within 60 ms of its first move seeks once |
| Player.QuietRun | static/js/player.js:105-108 | moves within 60 ms of the last seek make none |
| Player.Player.SetCurrent | static/js/player.js:24-44 | sets the path, labels and field default and leaves the rotation, sizes, preview box and hover throttle alone; no path removes both sources and leaves each video's position, duration, paused flag and readyState as they were; a path loads the stream URL into both videos, and the load resets each one's position to 0, duration, paused flag and readyState (to HAVE_NOTHING), so with autoplay the play always waits for `loadedmetadata`, never starts at once |
| Media.Video.Load | static/js/player.js:35-38 | setting `src` and calling `load()` leaves the video at position 0, paused, with no duration and readyState HAVE_NOTHING |
| Media.Video.RemoveSource | static/js/player.js:30-31 | removing `src` clears the source and leaves the playback state as it was |
| Player.Player.Rotate | static/js/player.js:46-83 | rotation advances by 90°; sideways swaps the size limits and sizes automatically, upright fills |
| Player.Player.OnHoverSeek | static/js/player.js:86-114 | without a duration nothing happens; otherwise the preview is placed and clamped, and it seeks to the cursor's time exactly when 60 ms have passed since the last seek |
| Player.Player.OnLeaveSeek | static/js/player.js:115 | hides the preview; the path, rotation and last seek time are kept |
| Player.Player.OnClickSeek | static/js/player.js:116-122 | without a duration nothing changes; otherwise the main video seeks to the cursor's time, within the duration |
| Controls.Dispatch | static/js/controls.js:74-94 | in a text field no action runs, and Enter in the rename field only prevents the default; on the page modifiers disable every shortcut, and an action runs (with the default prevented) exactly for the listed keys, and for any unmodified event it is the table's entry for the lower-cased key, whatever the `code` |
| Controls.KeyAction | static/js/controls.js:86-93 | the shortcut table: an action exactly for space, c, v, r, e, l, z and x |
| Controls.KeyTable | static/js/controls.js:84-93 | space, c/C, v, r, e, l, z, x map to their actions |
| Controls.ModifiersAndFocus | static/js/controls.js:76-85 | Shift+Space does nothing; Enter in the rename field only prevents the default; c in another field does nothing |
| Controls.ForwardTime | static/js/controls.js:23-25 | the new time is current+secs capped at `duration \|\| 0` |
| Controls.ForwardWithoutDuration | static/js/controls.js:24 | without metadata, forward jumps to 0 |
| Controls.BackwardTime | static/js/controls.js:27-29 | the new time is current-3, floored at 0, whatever the argument |
| Controls.TogglePlay | static/js/controls.js:18-21 | flips paused, nothing else |
| Controls.Forward | static/js/controls.js:23-25 | sets the time to ForwardTime |
| Controls.Backward | static/js/controls.js:27-29 | sets the time to BackwardTime |
| Controls.ProgressFraction | static/js/controls.js:56 | the click fraction is in [0, 1] |
| Controls.ProgressMatchesOverlay | static/js/controls.js:56 | the progress bar's fraction equals the seek overlay's |
| Controls.ProgressClick | static/js/controls.js:53-58 | without a duration nothing changes; otherwise the time is fraction × duration, within the duration |
| Controls.Fill | static/js/controls.js:47-51 | a width is set exactly when the duration is positive; it is within [0, 100] % for times within the duration and 100 % at the end |
| Controls.ButtonPath | static/js/controls.js:38 | the buttons decode the fragment whenever there is one; without one, a player path yields "" and no player path yields null |
| Controls.NextButton | static/js/controls.js:41-44 | the next button moves only from a decoded path, as goToNextSibling |
| Controls.PrevButton | static/js/controls.js:37-40 | the previous button likewise |
| Controls.ButtonsFollowFragment | static/js/controls.js:37-44 | the player's path never matters: with a fragment the buttons follow it, without one they do nothing |
| Controls.EmptyPathStays | static/js/tree.js:172 | from the empty path neither move goes anywhere |
| Controls.NextButtonFromSelection | static/js/controls.js:41-44 | after a selection stored its fragment, the buttons move from the selected file |
| Controls.IntendedNextButton | static/js/controls.js:41-44 | with the intended grouping, a move happens only from a current path that reads as a path |
| Controls.IntendedPrevButton | static/js/controls.js:37-40 | the same for the previous button |
| Controls.IntendedButtonsFollowPlayer | static/js/rename-flow.js:7 | with the intended grouping the buttons move from the player's file, and read the fragment as written when it has none |
| RenameFlow.CurrentPath | static/js/rename-flow.js:7 | the player's path wins; without one, the strict read of the fragment |
| RenameFlow.Effects | static/js/rename-flow.js:6-33 | a run has no effect exactly when reading the fragment throws; otherwise it ends with a message |
| RenameFlow.ValidationStopsEarly | static/js/rename-flow.js:8-10 | no file or a blank name gives only the matching message: no move, no request |
| RenameFlow.AdvanceBeforeRequest | static/js/rename-flow.js:11-21 | a request is sent once, right after the move from the same path, with the trimmed non-empty name |
| RenameFlow.FinalMessage | static/js/rename-flow.js:22-32 | the last message names the old path and the new name, the server's refusal, or the failure |
| RenameFlow.CurrentPathSources | static/js/rename-flow.js:7 | without a player path the fragment a selection stored names the same file |
| RenameFlow.AdvanceLeavesRenamedFile | static/js/rename-flow.js:14 | in a well-formed library the move leaves the file being renamed |
| RenameFlow.RenameUi.Run | static/js/rename-flow.js:6-33 | the log grows by the run's effects; the message line shows the last message; the fragment is the one the move stored |
| RenameFlow.RenameUi.Apply | static/js/rename-flow.js:8-32 | the same once the current path and trimmed name are read |
| RenameFlow.ResultMessages | static/js/rename-flow.js:22-32 | every effect is a message; a failure sets "rename failed" twice, any other response one message |
| RenameFlow.Sent | static/js/rename-flow.js:11-32 | the move comes first, then the request for the path and name, then the messages, the last one a message |
| RenameFlow.RenameUi.Show | static/js/rename-flow.js:8-10 | a validation message is appended to the log and shown; the fragment is kept |
| RenameFlow.RenameUi.Send | static/js/rename-flow.js:14-32 | move, request, then the response's message(s) |
| Draft.Dispatch | static/app.js:506-582 | Escape closes the modals even in a field; in a field only Enter in the rename field acts (RunRename, default prevented); modifiers cancel every key but space and the arrows; seeking keys never prevent the default |
| Draft.PlainKeysAgree | static/app.js:542-581 | for plain letter keys the draft and the module tables pick the same action, the default differing only for x and z |
| Draft.TablesDiffer | static/app.js:506-540 | Shift+Space, the right arrow, Escape in a field and Enter in the rename field act in the draft and not in the modules |
| Draft.BackTime | static/app.js:537-559 | back by secs, floored at 0 |
| Draft.BackThreeIsBackward | static/app.js:557-559 | z goes back as the modules' backward does |
| Draft.CollectSiblings | static/app.js:286-298 | the forEach walk collects exactly the module's sibling list |
| Draft.SettledMessage | static/app.js:348-357 | success names only the new name; refusal shows the body; failure shows one message |
| Draft.SuccessMessagesDiffer | static/app.js:353 | the draft's success message differs from the module's |
| Draft.Request | static/app.js:332-336 | a request is built exactly with a current file and a non-blank trimmed name, and carries both |
| Draft.FieldAfterMove | static/app.js:95-308 | after a move the field holds the new file's base name, in the same folder |
| Draft.App.SetHashPath | static/app.js:67-73 | stores the fragment; reloading reads the same path back |
| Draft.App.GoToNextSibling | static/app.js:300-313 | moves exactly as the module's goToNextSibling from the current path: fragment, current path, labels and field follow the move and both videos load the new file's stream; without a move the player and both videos are unchanged; the message, requests, rotation, sizes and hover throttle never change |
| Draft.App.GoToPrevSibling | static/app.js:315-328 | the same for the previous sibling |
| Draft.NextTarget | static/app.js:301-306 | the file goToNextSibling moves to is the next sibling of the module's NextSibling, and there is one exactly when that moves |
| Draft.PrevTarget | static/app.js:316-321 | the same for the previous sibling |
| Draft.App.StartRename | static/app.js:331-347 | the synchronous part: the validation message, or the request for the path and name read before the move, then the move |
| Draft.App.Submit | static/app.js:336-347 | move on, then send |
| Draft.App.Settle | static/app.js:348-357 | the message the response selects |
| Draft.App.RunRename | static/app.js:331-358 | one whole run: exactly one request when valid, then its message; otherwise the validation message |
| Draft.App.EnterInRenameField | static/app.js:516-591 | one Enter runs renameFlow twice: after the first request, the second renames the next file to its own base name and moves again, or repeats the first request at the end of the folder |
| Draft.App.EnterOnce | static/app.js:585-591 | one request for the selected file and one move |
| Draft.App.Rotate | static/app.js:498-503 | rotation and transform only; the size limits and sizing are untouched |
| Draft.App.SeekBack | static/app.js:537-539 | the time goes back by secs, floored at 0 |
| Draft.App.MoveTo | static/app.js:307-308 | the fragment stores the target encoded, the target becomes the player's current file and label with its base name in the field, both videos load its stream, and the message, requests, rotation, sizes and hover throttle are untouched |
| Draft.ExpandToPath | static/app.js:263-283 | opens the same sections as the module's expandToPath; scrolls to the first row showing the file, or to none when no row does; sets no mark and never fails |
| Draft.App.LoadTreeSelection | static/app.js:177-186 | a fragment naming a non-empty path makes it the player's current file and label, with its base name in the field, both videos loading its stream and autoplay waiting for metadata; the rotation, sizes, preview box and hover throttle never change; otherwise the player and both videos are unchanged and nothing plays |
| Draft.App.ReloadRestoresSelection | static/app.js:66-84 | setHashPath followed by the end of loadTree on the next page load selects the same file: current path, label, field, both videos loading its stream and autoplay on metadata, with the message, requests and view untouched |
| Text.DecimalString | main.go:293 | `%d` text is non-empty digits |
| Text.DecimalRoundTrip | main.go:293 | the digits read back as the number |
| Text.Split | static/js/tree.js:127 | at least one field, none containing '/' |
| Text.SplitJoin | static/js/tree.js:127 | splitting a join of slash-free segments gives them back |
| Text.JoinInjective | static/js/tree.js:101 | joining names with '/' is injective |
| Text.LastSlash | static/js/tree.js:173 | `lastIndexOf("/")`: -1 or the position of the last '/' |
| Text.BaseOf | static/js/player.js:28 | `split("/").pop()` holds no '/' |
| Text.DirOfJoin | static/js/tree.js:173 | the directory and base of a joined path are its leading segments and last segment |
| Text.TrimStart | main.go:201 | removes exactly the leading white space |
| Text.TrimEnd | main.go:201 | removes exactly the trailing white space |
| Text.Lower | static/js/controls.js:84 | lower-casing keeps the length |

## Left out

- Rendering to the DOM, Bootstrap's collapse and modal widgets, scrolling, the canvas drawing of the preview frame, volume and fullscreen are not modelled.
- The modals module and the file-list modal (`populateFullFileList`) are not part of this model.
- `expandToPath`'s use of the row's path inside a CSS selector is modelled as an exact path match; a path containing `"` or `]` would break the selector.
- fetch, JSON parsing and the order in which asynchronous rename requests settle are not modelled: each request settles with a given response, in the order shown.
- app.js's `hashchange` listener and main.js's event wiring (`file-selected`, `hashchange`, the initial selection) are not modelled; the extra `setCurrent` a `hashchange` triggers after every fragment write is left out.
- app.js's `makeId`, `humanSize`, `onLeaveSeek` and `setCurrent` behave as the modules' versions and are modelled once, in `Tree` and `Player`. Its `onHoverSeek` measures the preview wrapper's parent instead of the overlay's `.player-wrap` ancestor; `Player.Player.OnHoverSeek` takes that box as its `wrap` input, so the same method covers both. Its `onClickSeek` also returns when the overlay is missing, which cannot happen because the listener is only attached to an existing overlay (static/app.js:624-627). Its `expandToPath` differs and is modelled separately as `Draft.ExpandToPath`.
- `Draft.App.MoveTo`: the `expandToPath` call after the move only opens sections and scrolls; `Draft.ExpandToPath` gives what it does, and the move does not record it.
- `Draft.App.LoadTreeSelection`: the `expandToPath(hashPath)` call after `setCurrent` (static/app.js:181) is not recorded, for the same reason; `Draft.ExpandToPath` gives what it does.
- `Draft.App.ReloadRestoresSelection`: inherits that omission from `Draft.App.LoadTreeSelection`.
- loadTree's search query, the auto-click of the first row (a click on the row, while the handler sits on its inner label, reaches no handler) and its failure branch are left out.
- Video durations are finite reals; `Infinity` (live streams) and NaN arithmetic are not modelled.
- `buildTree`'s file-system reads, unreadable entries and `stableSort` (a no-op) are left out; the tree is a value with sorted keys.
- `apiStream`'s whole-file branch (`http.ServeContent`), the content type, the seek failure and the header writes are not modelled.
- `SafePath.ApiRename`: whether an entry is a file or a directory is not modelled; os.Rename of a file onto an empty directory (EISDIR) and every failure the two paths do not decide are the `renameFails` input.
- `filepath.Abs` is modelled for an absolute, clean root; a relative root and the working directory are left out.
- `apiRename` under the root `/`: the check compares with `"//"`, so every rename there is refused; lemmas about the root assume it has at least one segment.
- `encodeURIComponent` of lone surrogates (which throws) is not modelled; characters are Unicode scalar values.
- `SafePath.JoinedPath`: models the string join through segment lists and states only cleanliness; `JoinResolves` carries the link to Go's Join.
- `Tree.NextSibling` and `Tree.PrevSibling`: their own contracts state only the fragment encoding; the navigation properties are the lemmas beside them.
- `Text.Lower`: folds ASCII letters only; full Unicode lower-casing is not modelled.
- `Controls.Dispatch`: `ev.key` is never null here, so `(ev.key || "")` is the key itself.
- `Draft.App.SeekBack`: stated for the main video only; the right arrow and x use `Controls.Forward`.

## Findings

| source | as written | input that shows it | evidently intended | confidence | as-written member | corrected member |
|---|---|---|---|---|---|---|
| main.go:58-59 | safeJoin accepts any path whose absolute form starts with the root as a string | root `/v`, path `../v2/x` resolves to `/v2/x` and is accepted | the root followed by a separator, as apiRename checks at line 371 | high; not executed | SafePath.SafeJoinSiblingEscape | SafePath.SafeJoinWithin |
| main.go:339-374 | the new name is only checked for slashes, and the new path may equal the root | path `a/b` with new_name `..` targets the root `/v` and passes every check; os.Rename then refuses, so the client sees 500 "rename failed" rather than a 400; path `../v2` with new_name `v` likewise reaches os.Rename with the root as target, which fails while the root holds entries | a `new_name` of `.` or `..` refused with a 400; that the target must lie strictly below the root is inferred, since the comment at line 370 allows an exact root match on purpose | high for the checks passing; the observable outcome is a 500 whenever the root is not empty; not executed | SafePath.RenameDotDot | SafePath.RenameCheckedStaysInDirectory |
| main.go:247 | apiStream resolves the path with safeJoin, so it inherits the prefix test of line 58 | root `/v`, path `../v2/x` with a file `/v2/x`: the file outside the root is streamed | only files within the root are streamed | high; not executed | SafePath.StreamSiblingEscape | SafePath.ApiStreamChecked |
| static/js/controls.js:37-44 | `a \|\| b ? c : null` groups as `(a \|\| b) ? c : null`, so the player's path is never used | the player shows `a/x` and the URL has no fragment: prev/next do nothing | `a \|\| (b ? c : null)`, as rename-flow.js line 7 writes | high; not executed | Controls.ButtonsFollowFragment | Controls.IntendedButtonsFollowPlayer |
| static/app.js:516-591 | both the rename field's listener and the document keydown handler run renameFlow for one Enter | Enter with the field on `d/a.mp4` followed by `d/b.mp4`: requests rename `d/a.mp4` and then `d/b.mp4` to `b.mp4`, and the selection moves twice | one run per Enter, as controls.js line 78 avoids | high; not executed | Draft.App.EnterInRenameField | Draft.App.EnterOnce |

=== FILE: controls.dfy ===
/** The playback controls of static/js/controls.js: the keyboard dispatch,
    the seek buttons, the prev/next buttons' idea of the current file and the
    progress bar. */
module Controls {
  import opened Text
  import opened Media
  import Fragment
  import Tree
  import Player
  import RenameFlow

  // ---------------------------------------------------------------
  // Keyboard dispatch
  // ---------------------------------------------------------------

  /** What `document.activeElement` is when the key goes down. */
  datatype Focus = Page | RenameField | OtherField

  /** The fields of a `keydown` event the handlers read; a missing `key` is "". */
  datatype KeyEvent = KeyEvent(key: string, code: string, ctrl: bool, meta: bool, alt: bool, shift: bool)
  {
    predicate Modified()
    {
      ctrl || meta || alt || shift
    }
  }

  /** The shortcut a key triggers. `Ahead`/`Back` carry the seconds the
      handler passes along; `CloseModals` and `RunRename` only occur in the
      static/app.js table. */
  datatype Action =
    | NoAction | PlayPause | ClickNext | ClickPrev | Rotate | OpenRename | OpenFileList
    | Ahead(secs: nat) | Back(secs: nat) | CloseModals | RunRename

  /** Whether the default action is prevented, and what the handler does. */
  datatype Reaction = Reaction(preventDefault: bool, action: Action)

  predicate IsShortcutKey(k: string)
  {
    k == " " || k == "c" || k == "v" || k == "r" || k == "e" || k == "l" || k == "z" || k == "x"
  }

  /** The shortcut table of controls.js, by lower-cased key. */
  function KeyAction(k: string): (a: Action)
    ensures a != NoAction <==> IsShortcutKey(k)
  {
    match k
    case " " => PlayPause
    case "c" => ClickNext
    case "v" => ClickPrev
    case "r" => Rotate
    case "e" => OpenRename
    case "l" => OpenFileList
    case "z" => Back(3)
    case "x" => Ahead(3)
    case _ => NoAction
  }

  /** The keydown handler of controls.js. */
  function Dispatch(ev: KeyEvent, focus: Focus): (r: Reaction)
    ensures focus != Page ==> r.action == NoAction
    ensures focus != Page ==> (r.preventDefault <==> focus == RenameField && ev.key == "Enter")
    ensures focus == Page && ev.Modified() ==> r == Reaction(false, NoAction)
    ensures focus == Page ==> (r.action != NoAction <==> !ev.Modified() && IsShortcutKey(Lower(ev.key)))
    ensures focus == Page ==> (r.preventDefault <==> r.action != NoAction)
    ensures focus == Page && !ev.Modified() ==> r.action == KeyAction(Lower(ev.key))
  {
    if focus != Page then Reaction(focus == RenameField && ev.key == "Enter", NoAction)
    else
      var k := Lower(ev.key);
      if ev.Modified() then Reaction(false, NoAction)
      else if k == " " then Reaction(true, PlayPause)
      else if k == "c" then Reaction(true, ClickNext)
      else if k == "v" then Reaction(true, ClickPrev)
      else if k == "r" then Reaction(true, Rotate)
      else if k == "e" then Reaction(true, OpenRename)
      else if k == "l" then Reaction(true, OpenFileList)
      else if k == "z" then Reaction(true, Back(3))
      else if k == "x" then Reaction(true, Ahead(3))
      else Reaction(false, NoAction)
  }

  function Plain(key: string): KeyEvent
  {
    KeyEvent(key, "", false, false, false, false)
  }

  /** The key table, one entry per shortcut. Upper-case letters (Caps Lock)
      act like lower-case ones. */
  lemma {:induction false} KeyTable()
    ensures Dispatch(Plain(" "), Page).action == PlayPause
    ensures Dispatch(Plain("c"), Page).action == ClickNext
    ensures Dispatch(Plain("C"), Page).action == ClickNext
    ensures Dispatch(Plain("v"), Page).action == ClickPrev
    ensures Dispatch(Plain("r"), Page).action == Rotate
    ensures Dispatch(Plain("e"), Page).action == OpenRename
    ensures Dispatch(Plain("l"), Page).action == OpenFileList
    ensures Dispatch(Plain("z"), Page).action == Back(3)
    ensures Dispatch(Plain("x"), Page).action == Ahead(3)
  {
    assert Lower("C") == [LowerAscii('C')] == "c";
    assert Lower("c") == "c" && Lower("v") == "v" && Lower("r") == "r" && Lower(" ") == " ";
    assert Lower("e") == "e" && Lower("l") == "l" && Lower("z") == "z" && Lower("x") == "x";
  }

  /** Shift cancels the space bar too, and Enter in the rename field is only
      default-prevented: the rename module's own listener runs the rename. */
  lemma {:induction false} ModifiersAndFocus()
    ensures Dispatch(KeyEvent(" ", "Space", false, false, false, true), Page) == Reaction(false, NoAction)
    ensures Dispatch(Plain("Enter"), RenameField) == Reaction(true, NoAction)
    ensures Dispatch(Plain("c"), OtherField) == Reaction(false, NoAction)
  {
  }

  // ---------------------------------------------------------------
  // Seeking and play state
  // ---------------------------------------------------------------

  /** The position `forward(secs)` assigns: `min(duration || 0, current + secs)`. */
  function ForwardTime(current: real, duration: Duration, secs: real): (t: real)
    ensures t <= duration.OrZero() && t <= current + secs
    ensures current + secs <= duration.OrZero() ==> t == current + secs
    ensures current + secs >= duration.OrZero() ==> t == duration.OrZero()
  {
    Min(duration.OrZero(), current + secs)
  }

  /** The position `backward` assigns: three seconds back, never before the start. */
  function BackwardTime(current: real): (t: real)
    ensures t >= 0.0 && t <= Max(current, 0.0)
    ensures current >= 3.0 ==> t == current - 3.0
    ensures current <= 3.0 ==> t == 0.0
  {
    Max(0.0, current - 3.0)
  }

  /** Without metadata a forward jump goes to the start. */
  lemma {:induction false} ForwardWithoutDuration(current: real, secs: real)
    requires current + secs >= 0.0
    ensures ForwardTime(current, Unknown, secs) == 0.0
  {
  }

  method TogglePlay(v: Video)
    modifies v
    ensures v.paused == !old(v.paused)
    ensures v.currentTime == old(v.currentTime) && v.duration == old(v.duration) && v.src == old(v.src)
  {
    v.paused := !v.paused;
  }

  /** forward(secs). */
  method Forward(v: Video, secs: real)
    requires v.Valid() && secs >= 0.0
    modifies v
    ensures v.Valid()
    ensures v.currentTime == ForwardTime(old(v.currentTime), v.duration, secs)
    ensures v.duration == old(v.duration) && v.src == old(v.src) && v.paused == old(v.paused)
  {
    v.currentTime := ForwardTime(v.currentTime, v.duration, secs);
  }

  /** backward(secs): the argument is not used; the step is always three seconds. */
  method Backward(v: Video, secs: real)
    requires v.Valid()
    modifies v
    ensures v.Valid()
    ensures v.currentTime == BackwardTime(old(v.currentTime))
    ensures v.duration == old(v.duration) && v.src == old(v.src) && v.paused == old(v.paused)
  {
    v.currentTime := BackwardTime(v.currentTime);
  }

  // ---------------------------------------------------------------
  // Progress bar
  // ---------------------------------------------------------------

  /** `max(0, min(1, (clientX - left) / width))`. */
  function ProgressFraction(clientX: real, bar: Player.Rect): (x: real)
    requires bar.width > 0.0
    ensures 0.0 <= x <= 1.0
  {
    Max(0.0, Min(1.0, (clientX - bar.left) / bar.width))
  }

  /** The progress bar divides before clamping, the seek overlay clamps before
      dividing; both give the same fraction. */
  lemma {:induction false} ProgressMatchesOverlay(clientX: real, bar: Player.Rect)
    requires bar.width > 0.0
    ensures ProgressFraction(clientX, bar) == Player.CursorFraction(clientX, bar)
  {
    var d := clientX - bar.left;
    QuotientBounds(d, bar.width);
    if 0.0 < d < bar.width {
      assert Min(Max(0.0, d), bar.width) == d;
    }
  }

  lemma {:induction false} QuotientBounds(d: real, w: real)
    requires w > 0.0
    ensures d <= 0.0 ==> d / w <= 0.0
    ensures d >= w ==> d / w >= 1.0
    ensures d < w ==> d / w < 1.0
  {
    var q := d / w;
    assert q * w == d;
    ProductBounds(q, w, d);
  }

  /** The same bounds for a factor q with q * w == d, free of division. */
  lemma {:induction false} ProductBounds(q: real, w: real, d: real)
    requires w > 0.0 && q * w == d
    ensures d <= 0.0 ==> q <= 0.0
    ensures d >= w ==> q >= 1.0
    ensures d < w ==> q < 1.0
  {
    if q > 0.0 {
      ScalePositive(q, w, d);
    }
    if q < 1.0 {
      ScaleBelow(q, w, d);
    } else {
      ScaleAbove(q, w, d);
    }
  }

  /** Multiplying by a positive width keeps the order against 0 and 1. */
  lemma {:induction false} ScalePositive(q: real, w: real, d: real)
    requires w > 0.0 && q > 0.0 && q * w == d
    ensures d > 0.0
  {
  }

  lemma {:induction false} ScaleBelow(q: real, w: real, d: real)
    requires w > 0.0 && q < 1.0 && q * w == d
    ensures d < w
  {
    assert w - q * w == (1.0 - q) * w;
  }

  lemma {:induction false} ScaleAbove(q: real, w: real, d: real)
    requires w > 0.0 && q >= 1.0 && q * w == d
    ensures d >= w
  {
    assert q * w - w == (q - 1.0) * w;
  }

  /** The progress-bar click handler. */
  method ProgressClick(v: Video, clientX: real, bar: Player.Rect)
    requires v.Valid() && bar.width > 0.0
    modifies v
    ensures v.Valid()
    ensures v.duration == old(v.duration) && v.src == old(v.src) && v.paused == old(v.paused)
    ensures old(v.duration).Missing() ==> v.currentTime == old(v.currentTime)
    ensures !old(v.duration).Missing() ==>
      v.currentTime == ProgressFraction(clientX, bar) * v.duration.secs
      && v.currentTime <= v.duration.secs
  {
    if v.duration.Missing() {
      return;
    }
    var x := ProgressFraction(clientX, bar);
    var t := x * v.duration.secs;
    FractionOf(x, v.duration.secs, t);
    v.currentTime := t;
  }

  /** A fraction of a length lies between 0 and the length. */
  lemma {:induction false} FractionOf(x: real, s: real, t: real)
    requires 0.0 <= x <= 1.0 && s >= 0.0 && t == x * s
    ensures 0.0 <= t <= s
  {
    assert s - t == (1.0 - x) * s;
  }

  /** The `timeupdate` handler: the fill width in percent, or None when the
      duration is unknown or zero and the fill is left as it was. */
  function Fill(current: real, duration: Duration): (w: Option<real>)
    ensures w.Some? <==> duration.OrZero() > 0.0
    ensures w.Some? && 0.0 <= current <= duration.OrZero() ==> 0.0 <= w.value <= 100.0
    ensures w.Some? && current == duration.OrZero() ==> w.value == 100.0
  {
    var d := duration.OrZero();
    if d > 0.0 then
      assert current <= d ==> current / d <= 1.0;
      assert d / d == 1.0;
      Some(current / d * 100.0)
    else None
  }

  // ---------------------------------------------------------------
  // Prev / next buttons
  // ---------------------------------------------------------------

  /** `player.getCurrentPath() || location.hash ? decode(location.hash.slice(1)) : null`:
      the conditional binds looser than `||`, so the player's path only decides
      whether the fragment is read at all. */
  function ButtonPath(playerPath: string, fragment: string): (r: Fragment.Read)
    ensures fragment != "" ==> r == Fragment.StrictRead(fragment)
    ensures fragment == "" && playerPath != "" ==> r == Fragment.Path("")
    ensures fragment == "" && playerPath == "" ==> r == Fragment.NoFragment
  {
    if playerPath == "" && fragment == "" then Fragment.NoFragment
    else if fragment == "" then Fragment.Path("")
    else Fragment.StrictRead(fragment)
  }

  /** The next button: goToNextSibling on the button's path; null, a thrown
      decode and the empty path all stay put. */
  function NextButton(rows: seq<Tree.Row>, playerPath: string, fragment: string): (nav: Tree.Nav)
    ensures nav.Go? ==>
      (ButtonPath(playerPath, fragment).Path? && nav == Tree.NextSibling(rows, ButtonPath(playerPath, fragment).path))
  {
    match ButtonPath(playerPath, fragment)
    case Path(p) => Tree.NextSibling(rows, p)
    case _ => Tree.Stay
  }

  function PrevButton(rows: seq<Tree.Row>, playerPath: string, fragment: string): (nav: Tree.Nav)
    ensures nav.Go? ==>
      (ButtonPath(playerPath, fragment).Path? && nav == Tree.PrevSibling(rows, ButtonPath(playerPath, fragment).path))
  {
    match ButtonPath(playerPath, fragment)
    case Path(p) => Tree.PrevSibling(rows, p)
    case _ => Tree.Stay
  }

  /** The buttons navigate from the fragment, never from the player's path:
      with a fragment the player's path does not matter, and without one they
      do nothing whatever the player shows. */
  lemma {:induction false} ButtonsFollowFragment(rows: seq<Tree.Row>, playerPath: string, other: string, fragment: string)
    ensures fragment != "" ==>
      NextButton(rows, playerPath, fragment) == NextButton(rows, other, fragment)
      && PrevButton(rows, playerPath, fragment) == PrevButton(rows, other, fragment)
    ensures fragment == "" ==>
      NextButton(rows, playerPath, fragment) == Tree.Stay && PrevButton(rows, playerPath, fragment) == Tree.Stay
  {
    if fragment == "" && playerPath != "" {
      EmptyPathStays(rows);
    }
  }

  lemma {:induction false} EmptyPathStays(rows: seq<Tree.Row>)
    ensures Tree.NextSibling(rows, "") == Tree.Stay && Tree.PrevSibling(rows, "") == Tree.Stay
  {
    assert "" !in Tree.FilePaths(rows);
  }

  /** When the fragment names the selected file, as it does after any
      selection, the next button goes to its next sibling. */
  lemma {:induction false} NextButtonFromSelection(rows: seq<Tree.Row>, playerPath: string, selected: string)
    requires selected != ""
    ensures NextButton(rows, playerPath, Fragment.SetHashPath(selected)) == Tree.NextSibling(rows, selected)
    ensures PrevButton(rows, playerPath, Fragment.SetHashPath(selected)) == Tree.PrevSibling(rows, selected)
  {
    Fragment.StrictRoundTrip(selected);
  }

  /** The buttons with the evidently intended grouping, the one rename-flow.js
      writes out: the player's path first, the fragment only without one. */
  function IntendedNextButton(rows: seq<Tree.Row>, playerPath: string, fragment: string): (nav: Tree.Nav)
    ensures nav.Go? ==> RenameFlow.CurrentPath(playerPath, fragment).Path?
  {
    match RenameFlow.CurrentPath(playerPath, fragment)
    case Path(p) => Tree.NextSibling(rows, p)
    case _ => Tree.Stay
  }

  function IntendedPrevButton(rows: seq<Tree.Row>, playerPath: string, fragment: string): (nav: Tree.Nav)
    ensures nav.Go? ==> RenameFlow.CurrentPath(playerPath, fragment).Path?
  {
    match RenameFlow.CurrentPath(playerPath, fragment)
    case Path(p) => Tree.PrevSibling(rows, p)
    case _ => Tree.Stay
  }

  /** The intended buttons move from the file the player shows whatever the
      fragment holds, and read the fragment exactly as the written ones do
      when the player has no file. */
  lemma {:induction false} IntendedButtonsFollowPlayer(rows: seq<Tree.Row>, playerPath: string, fragment: string)
    ensures playerPath != "" ==>
      IntendedNextButton(rows, playerPath, fragment) == Tree.NextSibling(rows, playerPath)
      && IntendedPrevButton(rows, playerPath, fragment) == Tree.PrevSibling(rows, playerPath)
    ensures playerPath == "" ==>
      IntendedNextButton(rows, playerPath, fragment) == NextButton(rows, playerPath, fragment)
      && IntendedPrevButton(rows, playerPath, fragment) == PrevButton(rows, playerPath, fragment)
  {
    if playerPath == "" && fragment == "" {
      assert RenameFlow.CurrentPath(playerPath, fragment) == Fragment.NoFragment;
      assert ButtonPath(playerPath, fragment) == Fragment.NoFragment;
    }
  }
}

=== FILE: draft.dfy ===
/** The single-file draft of the UI, static/app.js. Its module-level state is
    the player's (`currentPath`, `lastHoverTime`, `rotation`, the two videos,
    whose setCurrent, hover and click handlers behave as player.js's), the
    location fragment, the message line and the rename requests sent. What
    differs from the ES modules is modelled here: the fragment helpers, the
    sibling walk over the rendered rows, renameFlow, the keydown table, the
    rotation and the hash branch of loadTree. */
module Draft {
  import opened Text
  import opened Media
  import Fragment
  import Tree
  import Player
  import Controls
  import RenameFlow
  import Uri
  import TreeView

  // ---------------------------------------------------------------
  // expandToPath
  // ---------------------------------------------------------------

  /** What expandToPath changes on the page: the folder sections it opens and
      the row it scrolls into view. */
  datatype Expansion = Expansion(sections: seq<string>, scrolled: Option<nat>)

  /** expandToPath of app.js. Unlike the module's version it moves no selection
      mark: it opens the sections on the way to the file and scrolls the file's
      first row into view; when no row shows the file it only opens the sections. */
  function ExpandToPath(rows: seq<Tree.Row>, relPath: string): (r: Expansion)
    ensures relPath == "" ==> r.sections == [] && r.scrolled.None?
    ensures r.sections == Tree.ExpandIds(relPath) && (relPath != "" ==> |r.sections| == |Split(relPath)| - 1)
    ensures r.scrolled.Some? ==>
      r.scrolled.value < |rows| && rows[r.scrolled.value].FileRow? && rows[r.scrolled.value].path == relPath
      && forall k :: 0 <= k < r.scrolled.value ==> !(rows[k].FileRow? && rows[k].path == relPath)
    ensures relPath != "" && r.scrolled.None? ==>
      forall k :: 0 <= k < |rows| ==> !(rows[k].FileRow? && rows[k].path == relPath)
  {
    if relPath == "" then Expansion([], None)
    else Expansion(Tree.ExpandIds(relPath), TreeView.FindRow(rows, relPath))
  }

  // ---------------------------------------------------------------
  // The keydown handler
  // ---------------------------------------------------------------

  /** The keydown handler of app.js. Escape is handled before the focus, the
      space bar and the arrows before the modifiers; only c, v, e, l and r
      prevent the default. */
  function Dispatch(ev: Controls.KeyEvent, focus: Controls.Focus): (r: Controls.Reaction)
    ensures ev.key == "Escape" ==> r == Controls.Reaction(false, Controls.CloseModals)
    ensures ev.key != "Escape" && focus != Controls.Page ==>
      (r.action != Controls.NoAction <==> focus == Controls.RenameField && ev.key == "Enter")
    ensures r.action == Controls.RunRename ==> focus == Controls.RenameField && r.preventDefault
    ensures ev.key != "Escape" && focus == Controls.Page && ev.Modified() ==>
      (r.action != Controls.NoAction <==> ev.key == " " || ev.code == "Space" || ev.code == "ArrowRight" || ev.code == "ArrowLeft")
    ensures r.action.Ahead? || r.action.Back? ==> !r.preventDefault
    ensures r.action == Controls.NoAction ==> !r.preventDefault
  {
    if ev.key == "Escape" then Controls.Reaction(false, Controls.CloseModals)
    else if focus != Controls.Page then
      if focus == Controls.RenameField && ev.key == "Enter" then Controls.Reaction(true, Controls.RunRename)
      else Controls.Reaction(false, Controls.NoAction)
    else if ev.key == " " || ev.code == "Space" then Controls.Reaction(true, Controls.PlayPause)
    else if ev.code == "ArrowRight" then Controls.Reaction(false, Controls.Ahead(5))
    else if ev.code == "ArrowLeft" then Controls.Reaction(false, Controls.Back(5))
    else if ev.Modified() then Controls.Reaction(false, Controls.NoAction)
    else
      var k := Lower(ev.key);
      if k == "c" then Controls.Reaction(true, Controls.ClickNext)
      else if k == "v" then Controls.Reaction(true, Controls.ClickPrev)
      else if k == "x" then Controls.Reaction(false, Controls.Ahead(3))
      else if k == "z" then Controls.Reaction(false, Controls.Back(3))
      else if k == "e" then Controls.Reaction(true, Controls.OpenRename)
      else if k == "l" then Controls.Reaction(true, Controls.OpenFileList)
      else if k == "r" then Controls.Reaction(true, Controls.Rotate)
      else Controls.Reaction(false, Controls.NoAction)
  }

  /** Only the space character lower-cases to a space. */
  lemma {:induction false} LowerSpace(k: string)
    requires Lower(k) == " "
    ensures k == " "
  {
    assert |k| == 1;
    assert Lower(k)[0] == LowerAscii(k[0]) == ' ';
  }

  /** For an unmodified key on the page that is neither Escape, the space code
      nor an arrow, both tables pick the same action; they differ only in that
      x and z leave the default alone here. */
  lemma {:induction false} PlainKeysAgree(ev: Controls.KeyEvent)
    requires !ev.Modified() && ev.key != "Escape"
    requires ev.code != "Space" && ev.code != "ArrowRight" && ev.code != "ArrowLeft"
    ensures Dispatch(ev, Controls.Page).action == Controls.Dispatch(ev, Controls.Page).action
    ensures Dispatch(ev, Controls.Page).preventDefault <==>
      Controls.Dispatch(ev, Controls.Page).preventDefault && Lower(ev.key) != "x" && Lower(ev.key) != "z"
  {
    if Lower(ev.key) == " " {
      LowerSpace(ev.key);
    }
    if ev.key == " " {
      assert Lower(ev.key) == [LowerAscii(' ')] == " ";
    }
  }

  /** Where the two tables part: modifiers do not cancel the space bar, the
      arrows seek by five seconds, Escape closes the modals even while typing,
      and Enter in the rename field runs the rename from the document handler. */
  lemma {:induction false} TablesDiffer()
    ensures var shiftSpace := Controls.KeyEvent(" ", "Space", false, false, false, true);
      Dispatch(shiftSpace, Controls.Page).action == Controls.PlayPause
      && Controls.Dispatch(shiftSpace, Controls.Page).action == Controls.NoAction
    ensures var right := Controls.KeyEvent("ArrowRight", "ArrowRight", false, false, false, false);
      Dispatch(right, Controls.Page).action == Controls.Ahead(5)
      && Controls.Dispatch(right, Controls.Page).action == Controls.NoAction
    ensures Dispatch(Controls.Plain("Escape"), Controls.RenameField).action == Controls.CloseModals
      && Controls.Dispatch(Controls.Plain("Escape"), Controls.RenameField).action == Controls.NoAction
    ensures Dispatch(Controls.Plain("Enter"), Controls.RenameField) == Controls.Reaction(true, Controls.RunRename)
      && Controls.Dispatch(Controls.Plain("Enter"), Controls.RenameField) == Controls.Reaction(true, Controls.NoAction)
  {
    assert Lower("ArrowRight")[0] == 'a';
  }

  /** The position the left arrow and z assign: `max(0, currentTime - secs)`. */
  function BackTime(current: real, secs: real): (t: real)
    requires secs >= 0.0
    ensures t >= 0.0 && t <= Max(current, 0.0)
    ensures current >= secs ==> t == current - secs
    ensures current <= secs ==> t == 0.0
  {
    Max(0.0, current - secs)
  }

  /** z moves back exactly as the module's backward does. */
  lemma {:induction false} BackThreeIsBackward(current: real)
    ensures BackTime(current, 3.0) == Controls.BackwardTime(current)
  {
  }

  // ---------------------------------------------------------------
  // getSiblingPaths
  // ---------------------------------------------------------------

  lemma {:induction false} SameDirAppend(a: seq<string>, b: seq<string>, dir: string)
    ensures Tree.SameDir(a + b, dir) == Tree.SameDir(a, dir) + Tree.SameDir(b, dir)
    decreases |a|
  {
    if a == [] {
      assert a + b == b;
    } else {
      var head := if DirOf(a[0]) == dir then [a[0]] else [];
      assert (a + b)[0] == a[0] && (a + b)[1..] == a[1..] + b;
      assert Tree.SameDir(a + b, dir) == head + Tree.SameDir(a[1..] + b, dir);
      SameDirAppend(a[1..], b, dir);
      assert Tree.SameDir(a, dir) == head + Tree.SameDir(a[1..], dir);
    }
  }

  /** One row's contribution to the walk. */
  lemma {:induction false} WalkStep(rows: seq<Tree.Row>, i: nat, dir: string)
    requires i < |rows|
    ensures Tree.SameDir(Tree.FilePaths(rows[..i + 1]), dir) == Tree.SameDir(Tree.FilePaths(rows[..i]), dir)
      + (if rows[i].FileRow? && rows[i].path != "" && DirOf(rows[i].path) == dir then [rows[i].path] else [])
  {
    assert rows[..i + 1] == rows[..i] + [rows[i]];
    Tree.FilePathsAppend(rows[..i], [rows[i]]);
    assert [rows[i]][1..] == [];
    SameDirAppend(Tree.FilePaths(rows[..i]), Tree.FilePaths([rows[i]]), dir);
  }

  /** getSiblingPaths of app.js walks the `.file-item` rows with forEach and
      collects the paths in the directory of `path`: the same list as the
      module's filter over getOrderedFilePaths. */
  method CollectSiblings(rows: seq<Tree.Row>, path: string) returns (out: seq<string>)
    ensures out == Tree.SiblingPaths(rows, path)
  {
    if path == "" {
      return [];
    }
    var dir := DirOf(path);
    out := [];
    var i := 0;
    while i < |rows|
      invariant i <= |rows|
      invariant out == Tree.SameDir(Tree.FilePaths(rows[..i]), dir)
    {
      WalkStep(rows, i, dir);
      var r := rows[i];
      if r.FileRow? && r.path != "" && DirOf(r.path) == dir {
        out := out + [r.path];
      }
      i := i + 1;
    }
    assert rows[..|rows|] == rows;
  }

  // ---------------------------------------------------------------
  // The page state
  // ---------------------------------------------------------------

  /** The JSON body of one `POST /api/rename`. */
  datatype Payload = Payload(path: string, newName: string)

  /** The success message of app.js names only the new name. */
  function SettledMessage(newName: string, response: RenameFlow.Response): (m: string)
    ensures response.Ok? ==> m == "renamed:" + newName
    ensures response.Refused? ==> m == "rename error: " + response.body
    ensures response.Error? ==> m == RenameFlow.Failed
  {
    match response
    case Ok => "renamed:" + newName
    case Refused(body) => "rename error: " + body
    case Error => RenameFlow.Failed
  }

  /** The two success messages differ: the module's names the old path as well. */
  lemma {:induction false} SuccessMessagesDiffer(path: string, newName: string)
    ensures SettledMessage(newName, RenameFlow.Ok) != "renamed:" + path + " to " + newName
  {
    assert |"renamed:" + path + " to " + newName| == |SettledMessage(newName, RenameFlow.Ok)| + |path| + 4;
  }

  /** Where a sibling move leaves the selection, the fragment and the field. */
  function Landing(nav: Tree.Nav, from: string): string
  {
    if nav.Go? then nav.selected else from
  }

  function FragmentAfter(nav: Tree.Nav, before: string): string
  {
    if nav.Go? then nav.fragment else before
  }

  function FieldAfter(nav: Tree.Nav, before: string): string
  {
    if nav.Go? then Player.RenameDefault(nav.selected) else before
  }

  /** The request a run of renameFlow sends from a selection and a field value. */
  function Request(path: string, fieldValue: string): (r: Option<Payload>)
    ensures r.Some? <==> path != "" && JsTrim(fieldValue) != ""
    ensures r.Some? ==> r.value.path == path && r.value.newName != "" && r.value.newName == JsTrim(fieldValue)
  {
    if path == "" || JsTrim(fieldValue) == "" then None else Some(Payload(path, JsTrim(fieldValue)))
  }

  /** After a move to a file, the field holds its base name. */
  lemma {:induction false} FieldAfterMove(rows: seq<Tree.Row>, p: string)
    requires Tree.NextSibling(rows, p).Go?
    ensures var q := Tree.NextSibling(rows, p).selected;
      q != "" && DirOf(q) == DirOf(p) && FieldAfter(Tree.NextSibling(rows, p), "") == BaseOf(q)
  {
    Tree.SiblingMovesStayInFolder(rows, p);
    var fp := Tree.FilePaths(rows);
    var i :| 0 <= i < |fp| && fp[i] == Tree.NextSibling(rows, p).selected;
  }

  /** The file goToNextSibling of app.js moves to: nothing without a current
      path, then the entry after it in the sibling list the rows give. */
  method NextTarget(rows: seq<Tree.Row>, current: string) returns (target: Option<string>)
    ensures target.Some? <==> Tree.NextSibling(rows, current).Go?
    ensures target.Some? ==>
      target.value != "" && Tree.NextSibling(rows, current) == Tree.Go(Uri.Encode(target.value), target.value)
  {
    if current == "" {
      Controls.EmptyPathStays(rows);
      return None;
    }
    var siblings := CollectSiblings(rows, current);
    var idx := Tree.IndexOf(siblings, current);
    if idx == -1 || idx >= |siblings| - 1 {
      NextStaysFromList(rows, current, siblings, idx);
      return None;
    }
    NextGoesFromList(rows, current, siblings, idx);
    return Some(siblings[idx + 1]);
  }

  lemma {:induction false} NextStaysFromList(rows: seq<Tree.Row>, current: string, siblings: seq<string>, idx: int)
    requires siblings == Tree.SiblingPaths(rows, current) && idx == Tree.IndexOf(siblings, current)
    requires idx == -1 || idx >= |siblings| - 1
    ensures Tree.NextSibling(rows, current) == Tree.Stay
  {
  }

  lemma {:induction false} NextGoesFromList(rows: seq<Tree.Row>, current: string, siblings: seq<string>, idx: int)
    requires siblings == Tree.SiblingPaths(rows, current) && idx == Tree.IndexOf(siblings, current)
    requires 0 <= idx < |siblings| - 1
    ensures siblings[idx + 1] != ""
    ensures Tree.NextSibling(rows, current) == Tree.Go(Uri.Encode(siblings[idx + 1]), siblings[idx + 1])
  {
    Tree.SiblingAt(rows, current, idx + 1);
  }

  /** The file goToPrevSibling of app.js moves to: the entry before the
      current path in its sibling list. */
  method PrevTarget(rows: seq<Tree.Row>, current: string) returns (target: Option<string>)
    ensures target.Some? <==> Tree.PrevSibling(rows, current).Go?
    ensures target.Some? ==>
      target.value != "" && Tree.PrevSibling(rows, current) == Tree.Go(Uri.Encode(target.value), target.value)
  {
    if current == "" {
      Controls.EmptyPathStays(rows);
      return None;
    }
    var siblings := CollectSiblings(rows, current);
    var idx := Tree.IndexOf(siblings, current);
    if idx <= 0 {
      PrevStaysFromList(rows, current, siblings, idx);
      return None;
    }
    PrevGoesFromList(rows, current, siblings, idx);
    return Some(siblings[idx - 1]);
  }

  lemma {:induction false} PrevStaysFromList(rows: seq<Tree.Row>, current: string, siblings: seq<string>, idx: int)
    requires siblings == Tree.SiblingPaths(rows, current) && idx == Tree.IndexOf(siblings, current)
    requires idx <= 0
    ensures Tree.PrevSibling(rows, current) == Tree.Stay
  {
  }

  lemma {:induction false} PrevGoesFromList(rows: seq<Tree.Row>, current: string, siblings: seq<string>, idx: int)
    requires siblings == Tree.SiblingPaths(rows, current) && idx == Tree.IndexOf(siblings, current)
    requires idx > 0
    ensures siblings[idx - 1] != ""
    ensures Tree.PrevSibling(rows, current) == Tree.Go(Uri.Encode(siblings[idx - 1]), siblings[idx - 1])
  {
    Tree.SiblingAt(rows, current, idx - 1);
  }

  class App {
    const player: Player.Player
    /** `location.hash` without the '#'. */
    var fragment: string
    /** The text of `#msg`. */
    var message: string
    /** The rename requests sent, in order. */
    var sent: seq<Payload>

    ghost predicate Valid()
      reads this, player, player.main, player.preview
    {
      player.Valid()
    }

    constructor (p: Player.Player, initialFragment: string)
      requires p.Valid()
      ensures Valid() && player == p
      ensures fragment == initialFragment && message == "" && sent == []
    {
      player := p;
      fragment := initialFragment;
      message := "";
      sent := [];
    }

    /** setHashPath: an empty path removes the fragment, any other is stored
        encoded; loading the page again reads the same path back. */
    method SetHashPath(path: string)
      modifies this
      ensures fragment == Fragment.SetHashPath(path)
      ensures Fragment.GetHashPath(fragment) == if path == "" then None else Some(path)
      ensures message == old(message) && sent == old(sent)
    {
      fragment := Fragment.SetHashPath(path);
      Fragment.HashRoundTrip(path);
    }

    /** goToNextSibling of app.js: the same move as the module's, from the
        module-level currentPath, followed by setCurrent with autoplay. */
    method GoToNextSibling(rows: seq<Tree.Row>) returns (moved: bool)
      requires Valid()
      modifies this, player, player.main, player.preview
      ensures Valid()
      ensures var nav := Tree.NextSibling(rows, old(player.currentPath));
        && moved == nav.Go?
        && fragment == FragmentAfter(nav, old(fragment))
        && player.currentPath == Landing(nav, old(player.currentPath))
        && player.newNameValue == FieldAfter(nav, old(player.newNameValue))
      ensures moved ==>
        player.shownPath == player.currentPath
        && player.main.LoadedWith(Player.StreamUrl(player.currentPath))
        && player.preview.LoadedWith(Player.StreamUrl(player.currentPath))
      ensures !moved ==> unchanged(player) && unchanged(player.main) && unchanged(player.preview)
      ensures message == old(message) && sent == old(sent) && player.ViewKept()
    {
      var target := NextTarget(rows, player.currentPath);
      if target.None? {
        return false;
      }
      MoveTo(target.value);
      return true;
    }

    /** goToPrevSibling of app.js. */
    method GoToPrevSibling(rows: seq<Tree.Row>) returns (moved: bool)
      requires Valid()
      modifies this, player, player.main, player.preview
      ensures Valid()
      ensures var nav := Tree.PrevSibling(rows, old(player.currentPath));
        && moved == nav.Go?
        && fragment == FragmentAfter(nav, old(fragment))
        && player.currentPath == Landing(nav, old(player.currentPath))
        && player.newNameValue == FieldAfter(nav, old(player.newNameValue))
      ensures moved ==>
        player.shownPath == player.currentPath
        && player.main.LoadedWith(Player.StreamUrl(player.currentPath))
        && player.preview.LoadedWith(Player.StreamUrl(player.currentPath))
      ensures !moved ==> unchanged(player) && unchanged(player.main) && unchanged(player.preview)
      ensures message == old(message) && sent == old(sent) && player.ViewKept()
    {
      var target := PrevTarget(rows, player.currentPath);
      if target.None? {
        return false;
      }
      MoveTo(target.value);
      return true;
    }

    /** The two steps of a move in app.js: setHashPath, then setCurrent with autoplay. */
    method MoveTo(target: string)
      requires Valid() && target != ""
      modifies this, player, player.main, player.preview
      ensures Valid()
      ensures fragment == Uri.Encode(target)
      ensures player.currentPath == target && player.newNameValue == Player.RenameDefault(target)
      ensures player.shownPath == target
      ensures player.main.LoadedWith(Player.StreamUrl(target)) && player.preview.LoadedWith(Player.StreamUrl(target))
      ensures message == old(message) && sent == old(sent) && player.ViewKept()
    {
      fragment := Fragment.SetHashPath(target);
      var play := player.SetCurrent(target, true);
    }

    /** The synchronous part of renameFlow, up to the request: the checks, the
        move to the next sibling and the request for the path and name read
        before the move. The message is set later, when the request settles. */
    method StartRename(rows: seq<Tree.Row>) returns (payload: Option<Payload>)
      requires Valid()
      modifies this, player, player.main, player.preview
      ensures Valid()
      ensures payload == Request(old(player.currentPath), old(player.newNameValue))
      ensures old(player.currentPath) == "" ==> message == RenameFlow.NoSelection
      ensures old(player.currentPath) != "" && payload.None? ==> message == RenameFlow.NoName
      ensures payload.Some? ==> message == old(message)
      ensures var nav := if payload.Some? then Tree.NextSibling(rows, old(player.currentPath)) else Tree.Stay;
        && sent == old(sent) + (if payload.Some? then [payload.value] else [])
        && fragment == FragmentAfter(nav, old(fragment))
        && player.currentPath == Landing(nav, old(player.currentPath))
        && player.newNameValue == FieldAfter(nav, old(player.newNameValue))
      ensures player.rotation == old(player.rotation)
    {
      payload := Request(player.currentPath, player.newNameValue);
      if player.currentPath == "" {
        message := RenameFlow.NoSelection;
      } else if payload.None? {
        message := RenameFlow.NoName;
      } else {
        Submit(rows, payload.value);
      }
    }

    /** Past validation: move on, then send. */
    method Submit(rows: seq<Tree.Row>, body: Payload)
      requires Valid() && body.path == player.currentPath
      modifies this, player, player.main, player.preview
      ensures Valid()
      ensures var nav := Tree.NextSibling(rows, body.path);
        && sent == old(sent) + [body] && message == old(message)
        && fragment == FragmentAfter(nav, old(fragment))
        && player.currentPath == Landing(nav, body.path)
        && player.newNameValue == FieldAfter(nav, old(player.newNameValue))
      ensures player.rotation == old(player.rotation)
    {
      var moved := GoToNextSibling(rows);
      sent := sent + [body];
    }

    /** The end of renameFlow: the message the response selects. */
    method Settle(newName: string, response: RenameFlow.Response)
      modifies this
      ensures message == SettledMessage(newName, response)
      ensures fragment == old(fragment) && sent == old(sent)
    {
      match response {
        case Ok =>
          message := "renamed:" + newName;
        case Refused(body) =>
          message := "rename error: " + body;
        case Error =>
          message := RenameFlow.Failed;
      }
    }

    /** One whole run of renameFlow whose request settles with `response`. */
    method RunRename(rows: seq<Tree.Row>, response: RenameFlow.Response)
      returns (payload: Option<Payload>)
      requires Valid()
      modifies this, player, player.main, player.preview
      ensures Valid()
      ensures payload == Request(old(player.currentPath), old(player.newNameValue))
      ensures payload.Some? ==> (sent == old(sent) + [payload.value]
        && message == SettledMessage(payload.value.newName, response))
      ensures payload.None? ==> (sent == old(sent)
        && message == if old(player.currentPath) == "" then RenameFlow.NoSelection else RenameFlow.NoName)
    {
      payload := StartRename(rows);
      if payload.Some? {
        Settle(payload.value.newName, response);
      }
    }

    /** Enter in the rename field as written: the field's own listener runs
        renameFlow at the target, then the document handler runs it again while
        the event bubbles. The first run has already moved to the next sibling
        and reset the field to that file's name, so the second run asks to
        rename the next file to its own name and moves on once more; at the
        end of the folder it repeats the first request. */
    method EnterInRenameField(rows: seq<Tree.Row>)
      returns (first: Option<Payload>, second: Option<Payload>)
      requires Valid()
      modifies this, player, player.main, player.preview
      ensures Valid()
      ensures first == Request(old(player.currentPath), old(player.newNameValue))
      ensures first.None? ==> second == None && sent == old(sent)
      ensures first.Some? && Tree.NextSibling(rows, old(player.currentPath)).Stay? ==>
        (second == first && sent == old(sent) + [first.value, first.value])
      ensures first.Some? && Tree.NextSibling(rows, old(player.currentPath)).Go? ==>
        (var q := Tree.NextSibling(rows, old(player.currentPath)).selected;
         && DirOf(q) == DirOf(old(player.currentPath))
         && second == Request(q, BaseOf(q))
         && sent == old(sent) + [first.value] + (if second.Some? then [second.value] else [])
         && player.currentPath == if second.Some? then Landing(Tree.NextSibling(rows, q), q) else q)
    {
      var p := player.currentPath;
      ghost var n0 := player.newNameValue;
      ghost var s0 := sent;
      first := StartRename(rows);
      second := SecondRun(rows, p, n0, s0, first);
    }

    /** The second run of an Enter in the rename field, from the state the
        first run left: the request it sends and where it leaves the selection. */
    method SecondRun(rows: seq<Tree.Row>, p: string, ghost n0: string,
                     ghost s0: seq<Payload>, first: Option<Payload>)
      returns (second: Option<Payload>)
      requires Valid() && first == Request(p, n0)
      requires first.None? ==> sent == s0 && player.currentPath == p && player.newNameValue == n0
      requires first.Some? ==> (sent == s0 + [first.value]
        && player.currentPath == Landing(Tree.NextSibling(rows, p), p)
        && player.newNameValue == FieldAfter(Tree.NextSibling(rows, p), n0))
      modifies this, player, player.main, player.preview
      ensures Valid()
      ensures first.None? ==> second == None && sent == s0
      ensures first.Some? && Tree.NextSibling(rows, p).Stay? ==>
        (second == first && sent == s0 + [first.value, first.value])
      ensures first.Some? && Tree.NextSibling(rows, p).Go? ==>
        (var q := Tree.NextSibling(rows, p).selected;
         && DirOf(q) == DirOf(p)
         && second == Request(q, BaseOf(q))
         && sent == s0 + [first.value] + (if second.Some? then [second.value] else [])
         && player.currentPath == if second.Some? then Landing(Tree.NextSibling(rows, q), q) else q)
    {
      if first.None? {
        second := StartRename(rows);
      } else if Tree.NextSibling(rows, p).Stay? {
        second := RepeatAtEnd(rows, first);
        AppendTwice(s0, first.value);
      } else {
        FieldAfterMove(rows, p);
        second := RunOnNext(rows, s0 + [first.value], BaseOf(Tree.NextSibling(rows, p).selected));
      }
    }

    lemma AppendTwice(s: seq<Payload>, x: Payload)
      ensures s + [x] + [x] == s + [x, x]
    {
      assert (s + [x] + [x])[|s| + 1] == x;
    }

    /** The second run when the first could not move: the same request again. */
    method RepeatAtEnd(rows: seq<Tree.Row>, first: Option<Payload>)
      returns (second: Option<Payload>)
      requires Valid() && first.Some? && first == Request(player.currentPath, player.newNameValue)
      requires Tree.NextSibling(rows, player.currentPath).Stay?
      modifies this, player, player.main, player.preview
      ensures Valid()
      ensures second == first && sent == old(sent) + [first.value]
    {
      second := StartRename(rows);
    }

    /** The second run after the first moved to q: the field holds q's base
        name, so q is renamed to its own name and the selection moves on. */
    method RunOnNext(rows: seq<Tree.Row>, ghost s1: seq<Payload>, ghost n: string)
      returns (second: Option<Payload>)
      requires Valid() && sent == s1 && player.newNameValue == n
      modifies this, player, player.main, player.preview
      ensures Valid()
      ensures second == Request(old(player.currentPath), n)
      ensures sent == s1 + (if second.Some? then [second.value] else [])
      ensures second.Some? ==>
        player.currentPath == Landing(Tree.NextSibling(rows, old(player.currentPath)), old(player.currentPath))
      ensures second.None? ==> player.currentPath == old(player.currentPath)
    {
      second := StartRename(rows);
    }

    /** Enter in the rename field with one listener, as the ES modules wire it:
        one request for the file selected when the key went down, and one move. */
    method EnterOnce(rows: seq<Tree.Row>) returns (payload: Option<Payload>)
      requires Valid()
      modifies this, player, player.main, player.preview
      ensures Valid()
      ensures payload == Request(old(player.currentPath), old(player.newNameValue))
      ensures sent == old(sent) + (if payload.Some? then [payload.value] else [])
      ensures payload.Some? ==> player.currentPath == Landing(Tree.NextSibling(rows, old(player.currentPath)), old(player.currentPath))
      ensures payload.None? ==> player.currentPath == old(player.currentPath)
    {
      payload := StartRename(rows);
    }

    /** rotateVideoClockwise of app.js: the counter and the transform only; the
        size limits the module version also sets are left alone. */
    method Rotate()
      requires Valid()
      modifies player
      ensures Valid()
      ensures player.rotation == Player.NextRotation(old(player.rotation))
      ensures player.transform == "rotate(" + DecimalString(player.rotation) + "deg)"
      ensures player.maxWidth == old(player.maxWidth) && player.maxHeight == old(player.maxHeight)
      ensures player.sizing == old(player.sizing)
      ensures player.currentPath == old(player.currentPath) && player.lastHoverTime == old(player.lastHoverTime)
    {
      player.rotation := Player.NextRotation(player.rotation);
      player.transform := "rotate(" + DecimalString(player.rotation) + "deg)";
    }

    /** The left arrow (5 s) and z (3 s). */
    method SeekBack(secs: real)
      requires Valid() && secs >= 0.0
      modifies player.main
      ensures Valid()
      ensures player.main.currentTime == BackTime(old(player.main.currentTime), secs)
      ensures player.main.duration == old(player.main.duration) && player.main.src == old(player.main.src)
    {
      player.main.currentTime := BackTime(player.main.currentTime, secs);
    }

    /** The end of loadTree: a fragment naming a path selects and plays it;
        otherwise the first row is clicked, which reaches no handler because
        the click listener sits on the row's inner label. */
    method LoadTreeSelection() returns (selected: bool, play: Player.PlayStart)
      requires Valid()
      modifies player, player.main, player.preview
      ensures Valid()
      ensures var h := Fragment.GetHashPath(fragment);
        selected <==> h.Some? && h.value != ""
      ensures selected ==> player.currentPath == Fragment.GetHashPath(fragment).value
      ensures selected ==>
        player.shownPath == player.currentPath
        && player.newNameValue == Player.RenameDefault(player.currentPath)
        && player.main.LoadedWith(Player.StreamUrl(player.currentPath))
        && player.preview.LoadedWith(Player.StreamUrl(player.currentPath))
      ensures play == (if selected then Player.PlayOnMetadata else Player.NoPlay)
      ensures player.ViewKept()
      ensures !selected ==> unchanged(player) && unchanged(player.main) && unchanged(player.preview)
    {
      play := Player.NoPlay;
      var h := Fragment.GetHashPath(fragment);
      if h.Some? && h.value != "" {
        play := player.SetCurrent(h.value, true);
        return true, play;
      }
      return false, play;
    }

    /** Selecting a file stores it in the fragment with setHashPath; the
        loadTree of the next page load reads it back and plays that file. */
    method ReloadRestoresSelection(path: string) returns (selected: bool, play: Player.PlayStart)
      requires Valid() && path != ""
      modifies this, player, player.main, player.preview
      ensures Valid() && selected && play == Player.PlayOnMetadata
      ensures fragment == Fragment.SetHashPath(path)
      ensures player.currentPath == path && player.shownPath == path
      ensures player.newNameValue == Player.RenameDefault(path)
      ensures player.main.LoadedWith(Player.StreamUrl(path)) && player.preview.LoadedWith(Player.StreamUrl(path))
      ensures message == old(message) && sent == old(sent) && player.ViewKept()
    {
      SetHashPath(path);
      selected, play := LoadTreeSelection();
    }
  }
}

=== FILE: fragment.dfy ===
/** The location fragment that carries the selected file. `fragment` below is
    the text after '#', "" when the URL has none (`location.hash` is then "").
    static/app.js writes it with setHashPath and reads it leniently with
    getHashPath; the ES modules write the encoded path and read it strictly. */
module Fragment {
  import opened Text
  import Uri

  const LegacyPrefix: string := "path="

  /** setHashPath: an empty path removes the fragment (`replaceState` keeps only
      the path and query); any other path is stored percent-encoded. The
      encoding holds no character the browser escapes again in a fragment. */
  function SetHashPath(path: string): (fragment: string)
    ensures fragment == "" <==> path == ""
    ensures '=' !in fragment && '/' !in fragment
  {
    Uri.NoEqualsInEncoding(path);
    if path == "" then "" else Uri.Encode(path)
  }

  /** getHashPath: null without a fragment; otherwise one leading `path=` is
      dropped and the rest decoded, falling back to the raw text when decoding
      throws. */
  function GetHashPath(fragment: string): (r: Option<string>)
    ensures r.None? <==> fragment == ""
  {
    if fragment == "" then None
    else
      var h := if StartsWith(fragment, LegacyPrefix) then fragment[|LegacyPrefix|..] else fragment;
      match Uri.Decode(h)
      case Some(p) => Some(p)
      case None => Some(h)
  }

  /** `location.hash ? decodeURIComponent(location.hash.slice(1)) : null`, the
      read used by main.js, tree.js, controls.js and rename-flow.js: no
      `path=` handling and no fallback, so a malformed fragment throws. */
  datatype Read = NoFragment | Path(path: string) | Throws

  function StrictRead(fragment: string): (r: Read)
    ensures r.NoFragment? <==> fragment == ""
    ensures r.Path? ==> Uri.Decode(fragment) == Some(r.path)
    ensures r.Throws? <==> fragment != "" && Uri.Decode(fragment).None?
  {
    if fragment == "" then NoFragment
    else
      match Uri.Decode(fragment)
      case Some(p) => Path(p)
      case None => Throws
  }

  /** Decoding a literal run without '%' copies it unchanged. */
  lemma {:induction false} DecodeLiteral(a: string, t: string)
    requires '%' !in a && Uri.Decode(t).Some?
    ensures Uri.Decode(a + t) == Some(a + Uri.Decode(t).value)
  {
    if a != [] {
      var rest := Uri.Decode(t).value;
      var tail := a[1..] + t;
      DecodeLiteral(a[1..], t);
      assert a[0] in a;
      ConsAppend(a, t);
      Uri.DecodeCopies(a[0], tail);
      assert Uri.Decode(tail) == Some(a[1..] + rest);
      assert [a[0]] + (a[1..] + rest) == a + rest;
    } else {
      assert a + t == t;
      assert a + Uri.Decode(t).value == Uri.Decode(t).value;
    }
  }

  lemma ConsAppend(a: string, t: string)
    requires a != []
    ensures a + t == [a[0]] + (a[1..] + t)
  {
    assert a == [a[0]] + a[1..];
  }

  /** An encoded path never starts with `path=`, because '=' is escaped. */
  lemma {:induction false} EncodedNotLegacy(path: string)
    ensures !StartsWith(Uri.Encode(path), LegacyPrefix)
  {
    Uri.NoEqualsInEncoding(path);
    var e := Uri.Encode(path);
    assert |e| >= 5 ==> e[4] != '=';
    assert LegacyPrefix[4] == '=';
  }

  /** What setHashPath stores, getHashPath gives back; an empty path leaves no fragment. */
  lemma {:induction false} HashRoundTrip(path: string)
    ensures GetHashPath(SetHashPath(path)) == if path == "" then None else Some(path)
  {
    if path != "" {
      EncodedNotLegacy(path);
      Uri.DecodeEncode(path);
    }
  }

  /** The strict read also recovers every path setHashPath or goToNextSibling stores. */
  lemma {:induction false} StrictRoundTrip(path: string)
    requires path != ""
    ensures StrictRead(SetHashPath(path)) == Path(path)
  {
    Uri.DecodeEncode(path);
  }

  /** A legacy `path=` fragment: getHashPath drops the prefix, the strict read keeps it. */
  lemma {:induction false} LegacyFragment(path: string)
    ensures GetHashPath(LegacyPrefix + Uri.Encode(path)) == Some(path)
    ensures StrictRead(LegacyPrefix + Uri.Encode(path)) == Path(LegacyPrefix + path)
  {
    var f := LegacyPrefix + Uri.Encode(path);
    assert f[|LegacyPrefix|..] == Uri.Encode(path);
    Uri.DecodeEncode(path);
    DecodeLiteral(LegacyPrefix, Uri.Encode(path));
  }

  /** Only one prefix is dropped: a doubled prefix leaves one in the path. */
  lemma {:induction false} PrefixDroppedOnce(path: string)
    ensures GetHashPath(LegacyPrefix + LegacyPrefix + Uri.Encode(path)) == Some(LegacyPrefix + path)
  {
    var e := Uri.Encode(path);
    var h := LegacyPrefix + e;
    var f := LegacyPrefix + h;
    assert f[..|LegacyPrefix|] == LegacyPrefix;
    assert f[|LegacyPrefix|..] == h;
    Uri.DecodeEncode(path);
    DecodeLiteral(LegacyPrefix, e);
    assert Uri.Decode(h) == Some(LegacyPrefix + path);
    assert f == LegacyPrefix + LegacyPrefix + e;
  }

  /** A fragment that does not decode is returned as typed by getHashPath and
      makes the strict read throw. */
  lemma {:induction false} MalformedFragment()
    ensures GetHashPath("100%") == Some("100%")
    ensures StrictRead("100%") == Throws
  {
    assert Uri.Decode("%") == None;
    assert Uri.Decode("100%") == None by {
      assert "100%"[1..] == "00%";
      assert "00%"[1..] == "0%";
      assert "0%"[1..] == "%";
    }
  }
}

=== FILE: media.dfy ===
/** The parts of an HTML `<video>` element the UI reads and writes. Loading,
    decoding and the play promise are the browser's and are not modelled. */
module Media {
  import opened Text

  /** `duration`: NaN until metadata has loaded, then a length in seconds. */
  datatype Duration = Unknown | Seconds(secs: real)
  {
    /** JavaScript's `!video.duration`: NaN and 0 are falsy. */
    predicate Missing()
    {
      this.Unknown? || this.secs == 0.0
    }

    /** `video.duration || 0`. */
    function OrZero(): real
    {
      if this.Unknown? then 0.0 else this.secs
    }
  }

  predicate ValidDuration(d: Duration)
  {
    d.Seconds? ==> d.secs >= 0.0
  }

  function Min(a: real, b: real): (r: real)
    ensures r <= a && r <= b && (r == a || r == b)
  {
    if a <= b then a else b
  }

  function Max(a: real, b: real): (r: real)
    ensures r >= a && r >= b && (r == a || r == b)
  {
    if a >= b then a else b
  }

  class Video {
    /** The `src` attribute; None once it has been removed. */
    var src: Option<string>
    var currentTime: real
    var duration: Duration
    var paused: bool
    /** `readyState`: 0 is HAVE_NOTHING, 1 HAVE_METADATA and so on. */
    var readyState: nat

    ghost predicate Valid()
      reads this
    {
      ValidDuration(duration) && currentTime >= 0.0
    }

    /** What the media load algorithm leaves after `src` is set to `s` and
        `load()` runs: back at the start, paused, with nothing loaded. */
    ghost predicate LoadedWith(s: string)
      reads this
    {
      src == Some(s) && currentTime == 0.0 && duration == Unknown && paused && readyState == 0
    }

    /** Playback state left as it was. */
    twostate predicate PlaybackKept()
      reads this
    {
      currentTime == old(currentTime) && duration == old(duration)
      && paused == old(paused) && readyState == old(readyState)
    }

    /** `src = s` followed by `load()`. */
    method Load(s: string)
      modifies this
      ensures Valid() && LoadedWith(s)
    {
      src := Some(s);
      currentTime, duration, paused, readyState := 0.0, Unknown, true, 0;
    }

    /** `removeAttribute("src")`: no load runs, so playback state stays. */
    method RemoveSource()
      requires Valid()
      modifies this
      ensures Valid() && src == None && PlaybackKept()
    {
      src := None;
    }

    constructor ()
      ensures Valid() && src == None && currentTime == 0.0 && duration == Unknown && paused
      ensures readyState == 0
    {
      src := None;
      currentTime := 0.0;
      duration := Unknown;
      paused := true;
      readyState := 0;
    }
  }
}

=== FILE: paths.dfy ===
/** The lexical path rules of the backend (main.go): Go's filepath.Clean and Join on
    absolute Unix paths, safeJoin, and the request checks of the stream and rename
    endpoints. A clean absolute path is represented by its list of segments;
    `Render` turns that list into the text Go works with. */
module SafePath {
  import opened Text
  import ByteRange

  // ---------------------------------------------------------------
  // Clean absolute paths
  // ---------------------------------------------------------------

  /** A segment that Clean leaves in place. */
  predicate IsSegment(s: string)
  {
    IsName(s) && s != "." && s != ".."
  }

  predicate CleanSegs(segs: seq<string>)
  {
    forall i :: 0 <= i < |segs| ==> IsSegment(segs[i])
  }

  /** The absolute path of a list of segments: "/" for the empty list. */
  function Render(segs: seq<string>): (p: string)
    ensures |p| >= 1 && p[0] == '/'
  {
    "/" + Join(segs)
  }

  /** One field of the lexical walk filepath.Clean performs on a rooted path: empty
      fields and "." vanish, ".." drops the last segment (and stays at the root). */
  function Step(stack: seq<string>, field: string): seq<string>
  {
    if field == "" || field == "." then stack
    else if field == ".." then (if stack == [] then [] else stack[..|stack| - 1])
    else stack + [field]
  }

  function Resolve(stack: seq<string>, fields: seq<string>): seq<string>
    decreases |fields|
  {
    if fields == [] then stack else Resolve(Step(stack, fields[0]), fields[1..])
  }

  /** filepath.Clean of a rooted path. */
  function Clean(p: string): (c: string)
    ensures |c| >= 1 && c[0] == '/'
  {
    Render(Resolve([], Split(p)))
  }

  /** filepath.Join(a, b) with an absolute a: empty elements are skipped, the rest
      are joined with '/' and cleaned. */
  function GoJoin(a: string, b: string): string
  {
    if b == "" then Clean(a) else Clean(a + "/" + b)
  }

  /** filepath.Dir: the text up to the last separator, cleaned. */
  function GoDir(p: string): string
  {
    Clean(p[..LastSlash(p) + 1])
  }

  /** The parent of a clean path (the root is its own parent). */
  function Parent(segs: seq<string>): seq<string>
  {
    if segs == [] then [] else segs[..|segs| - 1]
  }

  lemma {:induction false} ResolveClean(stack: seq<string>, fields: seq<string>)
    requires CleanSegs(stack) && forall i :: 0 <= i < |fields| ==> '/' !in fields[i]
    ensures CleanSegs(Resolve(stack, fields))
    decreases |fields|
  {
    if fields != [] {
      ResolveClean(Step(stack, fields[0]), fields[1..]);
    }
  }

  lemma {:induction false} ResolveAppend(stack: seq<string>, f: seq<string>, g: seq<string>)
    ensures Resolve(stack, f + g) == Resolve(Resolve(stack, f), g)
    decreases |f|
  {
    if f == [] {
      assert f + g == g;
    } else {
      assert f + g != [] && (f + g)[0] == f[0] && (f + g)[1..] == f[1..] + g;
      ResolveAppend(Step(stack, f[0]), f[1..], g);
    }
  }

  /** Ordinary segments are simply pushed. */
  lemma {:induction false} ResolveSegments(stack: seq<string>, names: seq<string>)
    requires CleanSegs(names)
    ensures Resolve(stack, names) == stack + names
    decreases |names|
  {
    if names != [] {
      ResolveSegments(stack + [names[0]], names[1..]);
      assert stack + [names[0]] + names[1..] == stack + names;
    }
  }

  lemma {:induction false} SplitRender(segs: seq<string>)
    requires CleanSegs(segs)
    ensures Resolve([], Split(Render(segs))) == segs
  {
    assert Render(segs) == "" + "/" + Join(segs);
    SplitAround("", Join(segs));
    if segs == [] {
      assert Split(Render(segs)) == ["", ""];
      assert Resolve([], ["", ""]) == Resolve([], [""]) == Resolve([], []);
    } else {
      SplitJoin(segs);
      ResolveSegments([], segs);
    }
  }

  /** A clean path is its own Clean: filepath.Abs leaves it unchanged. */
  lemma {:induction false} CleanRender(segs: seq<string>)
    requires CleanSegs(segs)
    ensures Clean(Render(segs)) == Render(segs)
  {
    SplitRender(segs);
  }

  /** Joining onto a clean absolute path walks the fields of the relative part. */
  lemma {:induction false} JoinResolves(base: seq<string>, rel: string)
    requires CleanSegs(base)
    ensures GoJoin(Render(base), rel) == Render(Resolve(base, Split(rel)))
    ensures CleanSegs(Resolve(base, Split(rel)))
  {
    ResolveClean(base, Split(rel));
    SplitRender(base);
    if rel == "" {
      CleanRender(base);
    } else {
      SplitAround(Render(base), rel);
      ResolveAppend([], Split(Render(base)), Split(rel));
    }
  }

  /** filepath.Dir of a clean path is its parent. */
  lemma {:induction false} DirOfRender(segs: seq<string>)
    requires CleanSegs(segs)
    ensures GoDir(Render(segs)) == Render(Parent(segs))
  {
    var p := Render(segs);
    if segs == [] {
      assert LastSlash(p) == 0;
      assert p[..1] == Render([]);
      CleanRender([]);
    } else {
      var n := |segs|;
      var front := Render(segs[..n - 1]);
      if n == 1 {
        assert p == "" + "/" + segs[0];
        LastSlashAround("", segs[0]);
        assert p[..1] == Render([]);
        CleanRender([]);
      } else {
        assert Join(segs) == Join(segs[..n - 1]) + "/" + segs[n - 1];
        assert p == front + "/" + segs[n - 1];
        LastSlashAround(front, segs[n - 1]);
        assert p[..|front| + 1] == front + "/" + "";
        SplitAround(front, "");
        SplitRender(segs[..n - 1]);
        ResolveAppend([], Split(front), [""]);
      }
    }
  }

  // ---------------------------------------------------------------
  // Containment
  // ---------------------------------------------------------------

  predicate IsPrefix(a: seq<string>, b: seq<string>)
  {
    |a| <= |b| && b[..|a|] == a
  }

  /** `p` is `root` or lies below it: a textual prefix that ends at a separator. */
  predicate Within(p: string, root: string)
  {
    |root| >= 1 && StartsWith(p, root) && (|p| == |root| || root[|root| - 1] == '/' || p[|root|] == '/')
  }

  lemma {:induction false} JoinAppend(a: seq<string>, b: seq<string>)
    requires |a| >= 1 && |b| >= 1
    ensures Join(a + b) == Join(a) + "/" + Join(b)
  {
    var n := |b|;
    if n == 1 {
      assert (a + b)[..|a + b| - 1] == a;
    } else {
      JoinAppend(a, b[..n - 1]);
      assert (a + b)[..|a + b| - 1] == a + b[..n - 1];
      assert (a + b)[|a + b| - 1] == b[n - 1];
    }
  }

  lemma {:induction false} PrefixIsWithin(root: seq<string>, segs: seq<string>)
    requires CleanSegs(root) && CleanSegs(segs) && IsPrefix(root, segs)
    ensures Within(Render(segs), Render(root))
  {
    var p, r := Render(segs), Render(root);
    if root == [] {
      assert r == "/" && p[..1] == "/";
    } else if |segs| == |root| {
      assert segs == root;
    } else {
      var more := segs[|root|..];
      assert segs == root + more;
      JoinAppend(root, more);
      assert p == r + "/" + Join(more);
      assert p[..|r|] == r;
    }
  }

  lemma {:induction false} WithinIsPrefixOf(root: seq<string>, segs: seq<string>)
    requires CleanSegs(root) && CleanSegs(segs) && root != [] && Within(Render(segs), Render(root))
    ensures IsPrefix(root, segs)
  {
    var p, r := Render(segs), Render(root);
    JoinNonEmpty(root);
    assert segs != [] by {
      assert |p| >= |r| >= 2;
    }
    if |p| == |r| {
      assert p == r;
      assert Join(segs) == p[1..] == r[1..] == Join(root);
      JoinInjective(root, segs);
    } else {
      assert r[|r| - 1] != '/';
      var x := p[|r| + 1..];
      assert p == r + "/" + x;
      assert Join(segs) == p[1..] == Join(root) + "/" + x;
      SplitAround(Join(root), x);
      SplitJoin(root);
      SplitJoin(segs);
      assert segs == root + Split(x);
      assert segs[..|root|] == root;
    }
  }

  /** For clean paths, the textual test with a separator boundary is exactly the
      segment-prefix relation. */
  lemma {:induction false} WithinIsPrefix(root: seq<string>, segs: seq<string>)
    requires CleanSegs(root) && CleanSegs(segs)
    ensures Within(Render(segs), Render(root)) <==> IsPrefix(root, segs)
  {
    if IsPrefix(root, segs) {
      PrefixIsWithin(root, segs);
    }
    if Within(Render(segs), Render(root)) {
      if root == [] {
        assert IsPrefix(root, segs);
      } else {
        WithinIsPrefixOf(root, segs);
      }
    }
  }

  // ---------------------------------------------------------------
  // safeJoin
  // ---------------------------------------------------------------

  function ReplaceBackslash(s: string): (r: string)
    ensures |r| == |s| && '\\' !in r
  {
    seq(|s|, i requires 0 <= i < |s| => if s[i] == '\\' then '/' else s[i])
  }

  function TrimLeftSlash(s: string): string
  {
    if |s| > 0 && s[0] == '/' then TrimLeftSlash(s[1..]) else s
  }

  /** The path safeJoin resolves: `filepath.Join(root, rel)` once backslashes are made
      separators and leading separators dropped (JoinResolves shows the two agree, and
      CleanRender that filepath.Abs leaves the result unchanged). */
  function JoinedPath(root: seq<string>, rel: string): (segs: seq<string>)
    requires CleanSegs(root)
    ensures CleanSegs(segs)
  {
    ResolveClean(root, Split(TrimLeftSlash(ReplaceBackslash(rel))));
    Resolve(root, Split(TrimLeftSlash(ReplaceBackslash(rel))))
  }

  /** safeJoin (main.go:45-63) as written: the joined, cleaned path, accepted when its
      text merely starts with the root's text. The result is given as segments; its
      text is Render of them. */
  function SafeJoin(root: seq<string>, rel: string): (r: Option<seq<string>>)
    requires CleanSegs(root)
    ensures r.Some? ==> r.value == JoinedPath(root, rel) && StartsWith(Render(r.value), Render(root))
    ensures r.None? ==> !StartsWith(Render(JoinedPath(root, rel)), Render(root))
  {
    var joined := JoinedPath(root, rel);
    if StartsWith(Render(joined), Render(root)) then Some(joined) else None
  }

  /** safeJoin with the prefix test ending at a separator: the result is the root or
      lies below it. */
  function SafeJoinWithin(root: seq<string>, rel: string): (r: Option<seq<string>>)
    requires CleanSegs(root)
    ensures r.Some? ==> r.value == JoinedPath(root, rel) && IsPrefix(root, r.value)
    ensures r.None? ==> !IsPrefix(root, JoinedPath(root, rel))
  {
    var joined := JoinedPath(root, rel);
    WithinIsPrefix(root, joined);
    if Within(Render(joined), Render(root)) then Some(joined) else None
  }

  /** Whatever the corrected check accepts, the written one accepts too, with the same
      path: the two differ only on paths that merely share the root's text. */
  lemma {:induction false} WithinAlsoSafe(root: seq<string>, rel: string)
    requires CleanSegs(root) && SafeJoinWithin(root, rel).Some?
    ensures SafeJoin(root, rel) == SafeJoinWithin(root, rel)
  {
    var joined := JoinedPath(root, rel);
    WithinIsPrefix(root, joined);
  }

  /** With no backslash and no leading '/', the relative path is split as it stands. */
  lemma {:induction false} JoinedPlain(root: seq<string>, rel: string)
    requires CleanSegs(root) && '\\' !in rel && (rel == "" || rel[0] != '/')
    ensures JoinedPath(root, rel) == Resolve(root, Split(rel))
  {
    assert ReplaceBackslash(rel) == rel;
    assert TrimLeftSlash(rel) == rel;
  }

  lemma {:induction false} SplitThree(a: string, b: string, c: string)
    requires IsName(a) && IsName(b) && IsName(c)
    ensures Split(a + "/" + b + "/" + c) == [a, b, c]
    ensures Join([a, b, c]) == a + "/" + b + "/" + c
  {
    assert [a, b, c][..2] == [a, b] && [a, b][..1] == [a];
    assert Join([a]) == a;
    assert Join([a, b]) == a + "/" + b;
    assert Join([a, b, c]) == a + "/" + b + "/" + c;
    SplitJoin([a, b, c]);
  }

  lemma {:induction false} SiblingJoined()
    ensures JoinedPath(["v"], "../v2/x") == ["v2", "x"]
  {
    SiblingFields();
    JoinedPlain(["v"], "../v2/x");
    SiblingResolved();
  }

  lemma {:induction false} SiblingFields()
    ensures Split("../v2/x") == ["..", "v2", "x"]
    ensures '\\' !in "../v2/x" && "../v2/x"[0] != '/'
  {
    assert "../v2/x" == ".." + "/" + "v2" + "/" + "x";
    SplitThree("..", "v2", "x");
  }

  lemma {:induction false} SiblingResolved()
    ensures Resolve(["v"], ["..", "v2", "x"]) == ["v2", "x"]
  {
    var fields := ["..", "v2", "x"];
    assert Step(["v"], fields[0]) == [] && fields[1..] == ["v2", "x"];
    ResolveSegments([], ["v2", "x"]);
  }

  /** As written, a sibling directory whose name extends the root's passes the check:
      with root /v, `../v2/x` resolves to /v2/x. */
  lemma {:induction false} SafeJoinSiblingEscape()
    ensures SafeJoin(["v"], "../v2/x") == Some(["v2", "x"])
    ensures !IsPrefix(["v"], ["v2", "x"])
  {
    SiblingJoined();
    SplitTwo("v2", "x");
    assert Join(["v"]) == "v";
    assert StartsWith("/v2/x", "/v");
  }

  /** The corrected check refuses that path. */
  lemma {:induction false} SafeJoinWithinRefusesSibling()
    ensures SafeJoinWithin(["v"], "../v2/x") == None
  {
    SiblingJoined();
  }

  /** An ordinary relative path (names, no "..", no backslash) is never refused: it
      lands at root + names. */
  lemma {:induction false} PlainPathAccepted(root: seq<string>, names: seq<string>)
    requires CleanSegs(root) && CleanSegs(names) && |names| >= 1
    requires forall i :: 0 <= i < |names| ==> '\\' !in names[i]
    ensures SafeJoinWithin(root, Join(names)) == Some(root + names)
  {
    var rel := Join(names);
    assert ReplaceBackslash(rel) == rel by {
      NoBackslashInJoin(names);
    }
    JoinStartsWithName(names);
    assert TrimLeftSlash(rel) == rel;
    SplitJoin(names);
    ResolveSegments(root, names);
    assert IsPrefix(root, root + names);
    WithinIsPrefix(root, root + names);
  }

  lemma {:induction false} NoBackslashInJoin(names: seq<string>)
    requires forall i :: 0 <= i < |names| ==> '\\' !in names[i]
    ensures '\\' !in Join(names)
  {
    if |names| > 1 {
      NoBackslashInJoin(names[..|names| - 1]);
    }
  }

  lemma {:induction false} JoinStartsWithName(names: seq<string>)
    requires |names| >= 1 && AllNames(names)
    ensures |Join(names)| >= 1 && Join(names)[0] == names[0][0]
  {
    if |names| > 1 {
      JoinStartsWithName(names[..|names| - 1]);
    }
  }

  // ---------------------------------------------------------------
  // apiRename
  // ---------------------------------------------------------------

  /** The decoded JSON body of a rename request. */
  datatype RenameRequest = Malformed | Request(path: string, newName: string)

  datatype RenameReply =
    | Refused(status: int, message: string)
    | Renamed(from: string, to: string, newPath: string)

  function TrimPrefix(s: string, prefix: string): string
  {
    if StartsWith(s, prefix) then s[|prefix|..] else s
  }

  /** The request checks of apiRename, in the order the handler applies them. */
  function RenameChecks(req: RenameRequest): Option<RenameReply>
  {
    match req
    case Malformed => Some(Refused(400, "invalid json"))
    case Request(path, newName) =>
      if path == "" || newName == "" then Some(Refused(400, "path and new_name required"))
      else if '/' in newName || '\\' in newName then Some(Refused(400, "new_name must be filename only"))
      else None
  }

  /** filepath.Join(filepath.Dir(oldPath), newName), as segments (RenameTargetIsJoin). */
  function RenameTarget(oldSegs: seq<string>, newName: string): (t: seq<string>)
    ensures IsSegment(newName) ==> t == Parent(oldSegs) + [newName]
    ensures newName == ".." ==> t == Parent(Parent(oldSegs))
  {
    if IsSegment(newName) then
      assert CleanSegs([newName]);
      ResolveSegments(Parent(oldSegs), [newName]);
      Resolve(Parent(oldSegs), [newName])
    else
      assert [newName][1..] == [];
      assert Resolve(Parent(oldSegs), [newName]) == Resolve(Step(Parent(oldSegs), newName), []);
      Resolve(Parent(oldSegs), [newName])
  }

  /** `dir` holds at least one existing entry. */
  predicate HasEntries(dir: string, existing: set<string>)
  {
    exists e :: e in existing && StartsWith(e, dir + "/")
  }

  /** The failures of os.Rename that follow from the two paths alone: a directory
      cannot take the place of one of its own descendants (EINVAL, EISDIR), and a
      directory holding entries cannot be replaced (ENOTEMPTY, EEXIST, EISDIR).
      Renaming an entry onto itself succeeds and changes nothing. */
  predicate OsRefuses(from: seq<string>, to: seq<string>, existing: set<string>)
  {
    (IsPrefix(to, from) && |to| < |from|) || (to != from && HasEntries(Render(to), existing))
  }

  /** apiRename (main.go:323-385) as written. `existing` stands for os.Stat succeeding;
      os.Rename fails when OsRefuses says so or, for any other reason, when
      `renameFails` holds. The new path must be the root or start with the root and a
      separator; the old path only passes safeJoin. */
  function ApiRename(root: seq<string>, req: RenameRequest, existing: set<string>, renameFails: bool): (r: RenameReply)
    requires CleanSegs(root)
    ensures r.Renamed? ==> RenameChecks(req).None? && SafeJoin(root, req.path).Some?
    ensures r.Renamed? ==> r.from == Render(JoinedPath(root, req.path)) && r.from in existing
    ensures r.Renamed? ==> r.to == Render(RenameTarget(JoinedPath(root, req.path), req.newName))
    ensures r.Renamed? ==> (r.to == Render(root) || StartsWith(r.to, Render(root) + "/"))
    ensures r.Renamed? ==> r.newPath == TrimPrefix(r.to, Render(root) + "/")
    ensures r.Renamed? ==>
      !renameFails && !OsRefuses(JoinedPath(root, req.path), RenameTarget(JoinedPath(root, req.path), req.newName), existing)
    ensures RenameChecks(req).Some? ==> r == RenameChecks(req).value
  {
    match RenameChecks(req)
    case Some(refusal) => refusal
    case None =>
      match SafeJoin(root, req.path)
      case None => Refused(400, "invalid path")
      case Some(oldSegs) =>
        if Render(oldSegs) !in existing then Refused(404, "file not found")
        else
          var absRoot := Render(root);
          var absNew := Render(RenameTarget(oldSegs, req.newName));
          if !(absNew == absRoot || StartsWith(absNew, absRoot + "/")) then Refused(400, "invalid new name")
          else if renameFails || OsRefuses(oldSegs, RenameTarget(oldSegs, req.newName), existing) then
            Refused(500, "rename failed")
          else Renamed(Render(oldSegs), absNew, TrimPrefix(absNew, absRoot + "/"))
  }

  /** A request that passes every check of apiRename is answered with the old path,
      the new one, and the new one relative to the root. */
  lemma {:induction false} RenameAccepted(root: seq<string>, req: RenameRequest, existing: set<string>,
      oldSegs: seq<string>, target: seq<string>)
    requires CleanSegs(root) && RenameChecks(req).None?
    requires SafeJoin(root, req.path) == Some(oldSegs) && Render(oldSegs) in existing
    requires RenameTarget(oldSegs, req.newName) == target
    requires Render(target) == Render(root) || StartsWith(Render(target), Render(root) + "/")
    requires !OsRefuses(oldSegs, target, existing)
    ensures ApiRename(root, req, existing, false)
      == Renamed(Render(oldSegs), Render(target), TrimPrefix(Render(target), Render(root) + "/"))
  {
  }

  /** The target is filepath.Join(filepath.Dir(oldPath), new_name), and filepath.Abs
      leaves it unchanged. */
  lemma {:induction false} RenameTargetIsJoin(oldSegs: seq<string>, newName: string)
    requires CleanSegs(oldSegs) && IsName(newName)
    ensures GoJoin(GoDir(Render(oldSegs)), newName) == Render(RenameTarget(oldSegs, newName))
    ensures Clean(Render(RenameTarget(oldSegs, newName))) == Render(RenameTarget(oldSegs, newName))
  {
    DirOfRender(oldSegs);
    SplitNoSlash(newName);
    JoinResolves(Parent(oldSegs), newName);
    CleanRender(RenameTarget(oldSegs, newName));
  }

  /** The second check of apiRename does keep the new path inside the root (for any
      root other than "/", under which it refuses every rename). */
  lemma {:induction false} RenameTargetWithinRoot(root: seq<string>, req: RenameRequest, existing: set<string>, renameFails: bool)
    requires CleanSegs(root) && root != []
    requires ApiRename(root, req, existing, renameFails).Renamed?
    ensures IsPrefix(root, RenameTarget(JoinedPath(root, req.path), req.newName))
  {
    var r := ApiRename(root, req, existing, renameFails);
    assert RenameChecks(req).None?;
    assert '/' !in req.newName;
    TargetInsideRoot(root, JoinedPath(root, req.path), req.newName);
  }

  lemma {:induction false} TargetInsideRoot(root: seq<string>, oldSegs: seq<string>, newName: string)
    requires CleanSegs(root) && root != [] && CleanSegs(oldSegs) && '/' !in newName
    requires var to := Render(RenameTarget(oldSegs, newName));
      to == Render(root) || StartsWith(to, Render(root) + "/")
    ensures IsPrefix(root, RenameTarget(oldSegs, newName))
  {
    var t := RenameTarget(oldSegs, newName);
    ResolveClean(Parent(oldSegs), [newName]);
    SlashPrefixWithin(Render(t), Render(root));
    WithinIsPrefix(root, t);
  }

  /** The check of apiRename, `p == root || HasPrefix(p, root + "/")`, is Within. */
  lemma {:induction false} SlashPrefixWithin(p: string, root: string)
    requires |root| >= 1 && (p == root || StartsWith(p, root + "/"))
    ensures Within(p, root)
  {
    if p != root {
      assert p[..|root|] == (root + "/")[..|root|] == root;
      assert p[|root|] == (root + "/")[|root|];
    }
  }

  lemma {:induction false} SplitTwo(a: string, b: string)
    requires IsName(a) && IsName(b)
    ensures Split(a + "/" + b) == [a, b]
    ensures Join([a, b]) == a + "/" + b
  {
    assert [a, b][..1] == [a];
    assert Join([a]) == a;
    assert Join([a, b]) == a + "/" + b;
    SplitJoin([a, b]);
  }

  lemma {:induction false} SiblingJoinedShort()
    ensures JoinedPath(["v"], "../v2") == ["v2"]
  {
    TwoFields("..", "v2");
    assert ".." + "/" + "v2" == "../v2";
    JoinedPlain(["v"], "../v2");
    var fields := ["..", "v2"];
    assert Step(["v"], fields[0]) == [] && fields[1..] == ["v2"];
    ResolveSegments([], ["v2"]);
  }

  /** A relative path of two names splits into them and needs no cleaning of
      backslashes or leading slashes. */
  lemma {:induction false} TwoFields(a: string, b: string)
    requires IsName(a) && IsName(b) && '\\' !in a && '\\' !in b
    ensures Split(a + "/" + b) == [a, b]
    ensures '\\' !in a + "/" + b && (a + "/" + b)[0] != '/'
  {
    SplitTwo(a, b);
    assert (a + "/" + b)[0] == a[0];
  }

  lemma {:induction false} SiblingOfRoot()
    ensures SafeJoin(["v"], "../v2") == Some(["v2"])
    ensures RenameTarget(["v2"], "v") == ["v"]
    ensures Render(["v2"]) == "/v2" && Render(["v"]) == "/v"
  {
    SiblingJoinedShort();
    assert Join(["v2"]) == "v2" && Join(["v"]) == "v";
    assert StartsWith("/v2", "/v");
    assert Resolve([], ["v"]) == ["v"];
  }

  /** As written, the old path is only checked by safeJoin, so a sibling of the root
      (root /v, path `../v2`, new name `v`) passes every check of the handler and is
      handed to os.Rename with the root itself as the target. The OS refuses while the
      root holds entries (500 "rename failed"); an empty root is replaced. */
  lemma {:induction false} RenameFromSibling(existing: set<string>)
    requires "/v2" in existing
    ensures RenameChecks(Request("../v2", "v")).None? && SafeJoin(["v"], "../v2") == Some(["v2"])
    ensures RenameTarget(["v2"], "v") == ["v"]
    ensures HasEntries("/v", existing) ==>
      ApiRename(["v"], Request("../v2", "v"), existing, false) == Refused(500, "rename failed")
    ensures !HasEntries("/v", existing) ==>
      ApiRename(["v"], Request("../v2", "v"), existing, false) == Renamed("/v2", "/v", "/v")
  {
    SiblingOfRoot();
    assert RenameChecks(Request("../v2", "v")).None?;
    assert !IsPrefix(["v"], ["v2"]);
    if !HasEntries("/v", existing) {
      RenameAccepted(["v"], Request("../v2", "v"), existing, ["v2"], ["v"]);
      assert !StartsWith("/v", "/v/");
    }
  }

  lemma {:induction false} NestedJoined()
    ensures JoinedPath(["v"], "a/b") == ["v", "a", "b"]
  {
    TwoFields("a", "b");
    assert "a" + "/" + "b" == "a/b";
    JoinedPlain(["v"], "a/b");
    ResolveSegments(["v"], ["a", "b"]);
  }

  lemma {:induction false} NestedRendered()
    ensures Render(["v", "a", "b"]) == "/v/a/b" && Render(["v"]) == "/v"
  {
    SplitThree("v", "a", "b");
    assert "/" + ("v" + "/" + "a" + "/" + "b") == "/v/a/b";
    assert Join(["v"]) == "v";
  }

  lemma {:induction false} NestedFile()
    ensures SafeJoin(["v"], "a/b") == Some(["v", "a", "b"])
    ensures RenameTarget(["v", "a", "b"], "..") == ["v"]
    ensures Render(["v", "a", "b"]) == "/v/a/b" && Render(["v"]) == "/v"
  {
    NestedJoined();
    NestedRendered();
    assert StartsWith("/v/a/b", "/v");
    assert Parent(["v", "a", "b"]) == ["v", "a"];
    assert Resolve(["v", "a"], [".."]) == ["v"];
  }

  /** A new name of ".." passes the filename check, and the target, the old file's
      grandparent (here the root itself), passes the root test: only os.Rename,
      which cannot put an entry in place of its own ancestor, stops the request, with
      500 "rename failed" rather than a 400. */
  lemma {:induction false} RenameDotDot(existing: set<string>, renameFails: bool)
    requires "/v/a/b" in existing
    ensures RenameChecks(Request("a/b", "..")).None? && SafeJoin(["v"], "a/b") == Some(["v", "a", "b"])
    ensures RenameTarget(["v", "a", "b"], "..") == ["v"]
    ensures ApiRename(["v"], Request("a/b", ".."), existing, renameFails) == Refused(500, "rename failed")
  {
    NestedFile();
    assert RenameChecks(Request("a/b", "..")).None?;
    assert IsPrefix(["v"], ["v", "a", "b"]);
  }

  /** apiRename with both checks as intended: the old path must be an entry strictly
      inside the root, and the new name must name an entry ("." and ".." are refused
      like a slash). */
  function ApiRenameChecked(root: seq<string>, req: RenameRequest, existing: set<string>, renameFails: bool): (r: RenameReply)
    requires CleanSegs(root)
    ensures r.Renamed? ==> r == ApiRename(root, req, existing, renameFails)
    ensures r.Renamed? ==>
      req.newName != "." && req.newName != ".." && SafeJoinWithin(root, req.path).Some? && SafeJoinWithin(root, req.path) != Some(root)
    ensures RenameChecks(req).Some? ==> r == RenameChecks(req).value
  {
    if RenameChecks(req).Some? then RenameChecks(req).value
    else if req.newName == "." || req.newName == ".." then Refused(400, "new_name must be filename only")
    else if SafeJoinWithin(root, req.path) == None || SafeJoinWithin(root, req.path) == Some(root) then Refused(400, "invalid path")
    else ApiRename(root, req, existing, renameFails)
  }

  /** The corrected handler refuses both requests above before any file-system call. */
  lemma {:induction false} CheckedRefusesEscapes(existing: set<string>, renameFails: bool)
    ensures ApiRenameChecked(["v"], Request("a/b", ".."), existing, renameFails)
      == Refused(400, "new_name must be filename only")
    ensures ApiRenameChecked(["v"], Request("../v2", "v"), existing, renameFails) == Refused(400, "invalid path")
  {
    CheckedRefusesDotDot(existing, renameFails);
    CheckedRefusesSibling(existing, renameFails);
  }

  lemma {:induction false} CheckedRefusesDotDot(existing: set<string>, renameFails: bool)
    ensures ApiRenameChecked(["v"], Request("a/b", ".."), existing, renameFails)
      == Refused(400, "new_name must be filename only")
  {
    assert RenameChecks(Request("a/b", "..")).None?;
  }

  lemma {:induction false} CheckedRefusesSibling(existing: set<string>, renameFails: bool)
    ensures ApiRenameChecked(["v"], Request("../v2", "v"), existing, renameFails) == Refused(400, "invalid path")
  {
    assert RenameChecks(Request("../v2", "v")).None?;
    SiblingJoinedShort();
    assert !IsPrefix(["v"], ["v2"]);
  }

  lemma {:induction false} TrimPrefixOf(q: string, pre: string, rest: string)
    requires q == pre + rest
    ensures TrimPrefix(q, pre) == rest
  {
    assert q[..|pre|] == pre;
  }

  /** The path of root + rel relative to the root. */
  lemma {:induction false} TrimRoot(root: seq<string>, rel: seq<string>)
    requires CleanSegs(root) && CleanSegs(rel) && root != [] && rel != []
    ensures TrimPrefix(Render(root + rel), Render(root) + "/") == Join(rel)
  {
    JoinAppend(root, rel);
    TrimPrefixOf(Render(root + rel), Render(root) + "/", Join(rel));
  }

  /** A checked rename moves an entry strictly inside the root to a sibling in the same
      directory under the new name, and reports that sibling's path relative to the root. */
  lemma {:induction false} RenameCheckedStaysInDirectory(root: seq<string>, req: RenameRequest, existing: set<string>, renameFails: bool)
    requires CleanSegs(root) && root != []
    requires ApiRenameChecked(root, req, existing, renameFails).Renamed?
    ensures var r := ApiRenameChecked(root, req, existing, renameFails);
      var oldSegs := JoinedPath(root, req.path);
      && IsPrefix(root, oldSegs) && |oldSegs| > |root|
      && r.from == Render(oldSegs)
      && r.to == Render(oldSegs[..|oldSegs| - 1] + [req.newName])
      && r.newPath == Join(oldSegs[|root|..|oldSegs| - 1] + [req.newName])
  {
    var oldSegs := CheckedRenameReply(root, req, existing, renameFails);
    SiblingTarget(root, oldSegs, req.newName);
    var target := RenameTarget(oldSegs, req.newName);
    assert Render(target) == Render(oldSegs[..|oldSegs| - 1] + [req.newName]);
  }

  /** What a checked rename that succeeds has passed: a request whose old path
      resolves strictly below the root and whose new name is a segment, and the
      reply ApiRename builds from them. */
  lemma {:induction false} CheckedRenameReply(root: seq<string>, req: RenameRequest, existing: set<string>, renameFails: bool)
      returns (oldSegs: seq<string>)
    requires CleanSegs(root) && root != []
    requires ApiRenameChecked(root, req, existing, renameFails).Renamed?
    ensures req.Request? && oldSegs == JoinedPath(root, req.path)
    ensures IsPrefix(root, oldSegs) && |oldSegs| > |root| && IsSegment(req.newName)
    ensures ApiRenameChecked(root, req, existing, renameFails) == Renamed(Render(oldSegs),
      Render(RenameTarget(oldSegs, req.newName)), TrimPrefix(Render(RenameTarget(oldSegs, req.newName)), Render(root) + "/"))
  {
    oldSegs := JoinedPath(root, req.path);
    assert oldSegs != root && oldSegs[..|root|] == root;
  }

  /** Renaming the last segment of a path strictly below the root gives its sibling,
      whose path relative to the root is the old one with the last segment replaced. */
  lemma {:induction false} SiblingTarget(root: seq<string>, oldSegs: seq<string>, newName: string)
    requires CleanSegs(root) && CleanSegs(oldSegs) && root != [] && IsSegment(newName)
    requires IsPrefix(root, oldSegs) && |oldSegs| > |root|
    ensures RenameTarget(oldSegs, newName) == oldSegs[..|oldSegs| - 1] + [newName]
    ensures TrimPrefix(Render(RenameTarget(oldSegs, newName)), Render(root) + "/")
      == Join(oldSegs[|root|..|oldSegs| - 1] + [newName])
  {
    ResolveSegments(Parent(oldSegs), [newName]);
    var rel := oldSegs[|root|..|oldSegs| - 1] + [newName];
    assert oldSegs[..|root|] == root;
    assert RenameTarget(oldSegs, newName) == root + rel;
    TrimRoot(root, rel);
  }

  // ---------------------------------------------------------------
  // apiStream: request checks
  // ---------------------------------------------------------------

  datatype StreamReply =
    | StreamRefused(status: int, message: string)
    | Streamed(file: string, size: nat, reply: ByteRange.RangeReply)

  /** apiStream (main.go:240-295) up to the copy loop: the path is resolved by
      safeJoin as written. `files` maps each regular file to its size;
      `unreadable` holds the files that `os.Open` fails on after `os.Stat`
      succeeded, such as a file without read permission. */
  function ApiStream(root: seq<string>, path: string, files: map<string, nat>, unreadable: set<string>,
                     rangeHeader: string): (r: StreamReply)
    requires CleanSegs(root)
    requires forall f :: f in files ==> files[f] <= ByteRange.MaxInt64
    ensures r.Streamed? ==> r.file in files && r.size == files[r.file] && StartsWith(r.file, Render(root))
    ensures r.Streamed? ==> r.file !in unreadable && r.reply == ByteRange.RangeResponse(rangeHeader, r.size)
    ensures r.StreamRefused? <==> (path == "" || SafeJoin(root, path).None?
      || Render(SafeJoin(root, path).value) !in files || Render(SafeJoin(root, path).value) in unreadable)
    ensures r == StreamRefused(500, "cannot open file") <==>
      (path != "" && SafeJoin(root, path).Some? && Render(SafeJoin(root, path).value) in files
       && Render(SafeJoin(root, path).value) in unreadable)
  {
    if path == "" then StreamRefused(400, "path required")
    else match SafeJoin(root, path)
      case None => StreamRefused(400, "invalid path")
      case Some(segs) =>
        var file := Render(segs);
        if file !in files then StreamRefused(404, "file not found")
        else if file in unreadable then StreamRefused(500, "cannot open file")
        else Streamed(file, files[file], ByteRange.RangeResponse(rangeHeader, files[file]))
  }

  /** apiStream with the corrected safeJoin: only files within the root are streamed. */
  function ApiStreamChecked(root: seq<string>, path: string, files: map<string, nat>, unreadable: set<string>,
                            rangeHeader: string): (r: StreamReply)
    requires CleanSegs(root)
    requires forall f :: f in files ==> files[f] <= ByteRange.MaxInt64
    ensures r.Streamed? ==> r.file in files && r.size == files[r.file] && Within(r.file, Render(root))
    ensures r.Streamed? ==> r.file !in unreadable
    ensures r.StreamRefused? <==> (path == "" || SafeJoinWithin(root, path).None?
      || Render(SafeJoinWithin(root, path).value) !in files || Render(SafeJoinWithin(root, path).value) in unreadable)
    ensures r == StreamRefused(500, "cannot open file") <==>
      (path != "" && SafeJoinWithin(root, path).Some? && Render(SafeJoinWithin(root, path).value) in files
       && Render(SafeJoinWithin(root, path).value) in unreadable)
  {
    if path == "" then StreamRefused(400, "path required")
    else match SafeJoinWithin(root, path)
      case None => StreamRefused(400, "invalid path")
      case Some(segs) =>
        var file := Render(segs);
        if file !in files then StreamRefused(404, "file not found")
        else if file in unreadable then StreamRefused(500, "cannot open file")
        else
          WithinIsPrefix(root, segs);
          Streamed(file, files[file], ByteRange.RangeResponse(rangeHeader, files[file]))
  }

  /** Whatever the corrected handler streams, the handler as written streams alike. */
  lemma {:induction false} StreamCheckedAgrees(root: seq<string>, path: string, files: map<string, nat>,
                                               unreadable: set<string>, rangeHeader: string)
    requires CleanSegs(root)
    requires forall f :: f in files ==> files[f] <= ByteRange.MaxInt64
    requires ApiStreamChecked(root, path, files, unreadable, rangeHeader).Streamed?
    ensures ApiStream(root, path, files, unreadable, rangeHeader) == ApiStreamChecked(root, path, files, unreadable, rangeHeader)
  {
    WithinAlsoSafe(root, path);
  }

  /** As written, with root /v the readable file /v2/x of a sibling directory
      is streamed; the corrected handler refuses the request with 400. */
  lemma {:induction false} StreamSiblingEscape(size: nat, unreadable: set<string>, rangeHeader: string)
    requires size <= ByteRange.MaxInt64 && "/v2/x" !in unreadable
    ensures ApiStream(["v"], "../v2/x", map["/v2/x" := size], unreadable, rangeHeader)
      == Streamed("/v2/x", size, ByteRange.RangeResponse(rangeHeader, size))
    ensures ApiStreamChecked(["v"], "../v2/x", map["/v2/x" := size], unreadable, rangeHeader) == StreamRefused(400, "invalid path")
  {
    SiblingStreamed(size, unreadable, rangeHeader);
    SafeJoinWithinRefusesSibling();
  }

  lemma {:induction false} SiblingStreamed(size: nat, unreadable: set<string>, rangeHeader: string)
    requires size <= ByteRange.MaxInt64 && "/v2/x" !in unreadable
    ensures ApiStream(["v"], "../v2/x", map["/v2/x" := size], unreadable, rangeHeader)
      == Streamed("/v2/x", size, ByteRange.RangeResponse(rangeHeader, size))
  {
    SafeJoinSiblingEscape();
    RenderSibling();
  }

  lemma {:induction false} RenderSibling()
    ensures Render(["v2", "x"]) == "/v2/x"
  {
    SplitTwo("v2", "x");
  }
}

=== FILE: player.dfy ===
/** The player of static/js/player.js: the closure state `currentPath`,
    `lastHoverTime` and `rotation`, the style and text fields its functions
    assign, and the main and hidden preview `<video>` elements. */
module Player {
  import opened Text
  import opened Media
  import Uri

  const StreamPrefix: string := "/api/stream?path="
  /** Distance kept between the hover preview and the player's edges, in pixels. */
  const Margin: real := 6.0
  /** Minimum interval between two preview seeks, in milliseconds. */
  const ThrottleMs: real := 60.0

  // ---------------------------------------------------------------
  // setCurrent
  // ---------------------------------------------------------------

  /** `api.stream(path)`: the query value is the percent-encoded path, which the
      backend's query parser decodes back: it holds no '&', '#' or '+'. */
  function StreamUrl(path: string): (url: string)
    ensures StartsWith(url, StreamPrefix)
    ensures Uri.Decode(url[|StreamPrefix|..]) == Some(path)
    ensures var q := url[|StreamPrefix|..]; '&' !in q && '#' !in q && '+' !in q
  {
    Uri.DecodeEncode(path);
    EncodingIsQuerySafe(path);
    var url := StreamPrefix + Uri.Encode(path);
    assert url[..|StreamPrefix|] == StreamPrefix;
    assert url[|StreamPrefix|..] == Uri.Encode(path);
    url
  }

  /** The characters that end or alter a query value are all escaped. */
  lemma {:induction false} EncodingIsQuerySafe(path: string)
    ensures '&' !in Uri.Encode(path) && '#' !in Uri.Encode(path) && '+' !in Uri.Encode(path)
  {
    Uri.EncodeCharset(path);
  }

  /** `path ? path.split("/").pop() : ""`: the value the rename field is reset to. */
  function RenameDefault(path: string): (name: string)
    ensures '/' !in name
    ensures path == "" ==> name == ""
  {
    if path == "" then "" else BaseOf(path)
  }

  /** Renaming to the default name keeps the path: the directory part and the
      default rebuild it. */
  lemma {:induction false} RenameDefaultKeepsPath(path: string)
    ensures LastSlash(path) >= 0 ==> DirOf(path) + "/" + RenameDefault(path) == path
    ensures LastSlash(path) < 0 ==> RenameDefault(path) == path
  {
    if LastSlash(path) >= 0 {
      assert path == path[..LastSlash(path)] + [path[LastSlash(path)]] + path[LastSlash(path) + 1..];
    } else {
      assert path[0..] == path;
    }
  }

  /** How the autoplay request of setCurrent starts playback. */
  datatype PlayStart = NoPlay | PlayNow | PlayOnMetadata

  // ---------------------------------------------------------------
  // rotateVideoClockwise
  // ---------------------------------------------------------------

  predicate QuarterTurn(r: int)
  {
    r == 0 || r == 90 || r == 180 || r == 270
  }

  /** `(rotation + 90) % 360`. The counter starts at 0 and only grows by this
      step, so it is never negative and JavaScript's `%` agrees with Dafny's. */
  function NextRotation(r: nat): (n: nat)
    ensures n < 360
    ensures QuarterTurn(r) ==> QuarterTurn(n)
  {
    (r + 90) % 360
  }

  /** Four quarter turns bring any start value back to its residue, so they
      restore every value the counter can hold. */
  lemma {:induction false} FourTurns(r: nat)
    ensures NextRotation(NextRotation(NextRotation(NextRotation(r)))) == r % 360
    ensures QuarterTurn(r) ==> NextRotation(NextRotation(NextRotation(NextRotation(r)))) == r
  {
    var m := r % 360;
    assert r == 360 * (r / 360) + m;
    var a := NextRotation(r);
    assert a == (m + 90) % 360 by {
      ShiftBy(m, 90, r / 360);
    }
    var b := NextRotation(a);
    var c := NextRotation(b);
    var d := NextRotation(c);
    if m < 270 {
      assert a == m + 90;
      if m < 180 {
        assert b == m + 180;
        if m < 90 {
          assert c == m + 270 && d == m;
        } else {
          assert c == m - 90 && d == m;
        }
      } else {
        assert b == m - 180 && c == m - 90 && d == m;
      }
    } else {
      assert a == m - 270 && b == m - 180 && c == m - 90 && d == m;
    }
  }

  /** Whole turns do not change the residue. */
  lemma {:induction false} ShiftBy(m: nat, k: nat, q: nat)
    ensures (360 * q + m + k) % 360 == (m + k) % 360
  {
    if q > 0 {
      ShiftBy(m, k, q - 1);
      assert 360 * q + m + k == 360 * (q - 1) + m + k + 360;
    }
  }

  /** A quarter turn on its side: 90 or 270 degrees. */
  predicate Sideways(r: int)
  {
    r % 180 != 0
  }

  /** Each call flips the orientation between upright and sideways. */
  lemma {:induction false} TurnFlipsSideways(r: nat)
    requires QuarterTurn(r)
    ensures Sideways(NextRotation(r)) <==> !Sideways(r)
  {
  }

  /** The sizing mode the rotation selects: `auto` on its side, `100%` upright. */
  datatype Sizing = Auto | Fill

  // ---------------------------------------------------------------
  // Seeking
  // ---------------------------------------------------------------

  /** A `getBoundingClientRect()` result. */
  datatype Rect = Rect(left: real, top: real, width: real, height: real)

  /** The cursor's position across an element, clamped to its width and taken
      as a fraction of it. */
  function CursorFraction(clientX: real, rect: Rect): (f: real)
    requires rect.width > 0.0
    ensures 0.0 <= f <= 1.0
    ensures clientX <= rect.left ==> f == 0.0
    ensures clientX >= rect.left + rect.width ==> f == 1.0
    ensures rect.left <= clientX <= rect.left + rect.width ==> f * rect.width == clientX - rect.left
  {
    var x := Min(Max(0.0, clientX - rect.left), rect.width);
    assert rect.width / rect.width == 1.0;
    assert clientX >= rect.left + rect.width ==> x == rect.width;
    x / rect.width
  }

  /** The time a hover or click at `clientX` seeks to. */
  function SeekTime(clientX: real, rect: Rect, duration: real): (t: real)
    requires rect.width > 0.0 && duration >= 0.0
    ensures 0.0 <= t <= duration
    ensures clientX <= rect.left ==> t == 0.0
    ensures clientX >= rect.left + rect.width ==> t == duration
  {
    var f := CursorFraction(clientX, rect);
    assert f * duration <= 1.0 * duration;
    f * duration
  }

  /** One coordinate of the preview: the wanted position, kept at least the
      margin away from the start and, when the preview fits, from the end. */
  function ClampPreview(pos: real, extent: real, size: real): (r: real)
    ensures r >= Margin
    ensures extent - size - Margin >= Margin ==> r <= extent - size - Margin
    ensures Margin <= pos <= extent - size - Margin ==> r == pos
    ensures pos < Margin ==> r == Margin
  {
    Max(Margin, Min(pos, extent - size - Margin))
  }

  /** The instants at which a run of hover events at times `moves` seeks the
      preview, starting from the last seek time `last`. */
  function SeekInstants(last: real, moves: seq<real>): (r: seq<real>)
    ensures |r| <= |moves|
    ensures forall i :: 0 <= i < |r| ==> r[i] in moves
    decreases |moves|
  {
    if moves == [] then []
    else if moves[0] - last < ThrottleMs then SeekInstants(last, moves[1..])
    else [moves[0]] + SeekInstants(moves[0], moves[1..])
  }

  /** Seeks are at least the throttle interval apart, and the first is at least
      that long after the previous one. */
  lemma {:induction false} SeeksSpaced(last: real, moves: seq<real>)
    ensures var r := SeekInstants(last, moves);
      (|r| > 0 ==> r[0] - last >= ThrottleMs)
      && forall i :: 0 < i < |r| ==> r[i] - r[i - 1] >= ThrottleMs
    decreases |moves|
  {
    if moves != [] {
      if moves[0] - last < ThrottleMs {
        SeeksSpaced(last, moves[1..]);
      } else {
        SeeksSpaced(moves[0], moves[1..]);
      }
    }
  }

  /** Events that arrive within the throttle interval of each other after a
      seek do not seek again. */
  lemma {:induction false} BurstSeeksOnce(last: real, moves: seq<real>)
    requires |moves| > 0 && moves[0] - last >= ThrottleMs
    requires forall i :: 0 < i < |moves| ==> moves[i] - moves[0] < ThrottleMs
    ensures SeekInstants(last, moves) == [moves[0]]
  {
    QuietRun(moves[0], moves[1..]);
  }

  lemma {:induction false} QuietRun(last: real, moves: seq<real>)
    requires forall i :: 0 <= i < |moves| ==> moves[i] - last < ThrottleMs
    ensures SeekInstants(last, moves) == []
    decreases |moves|
  {
    if moves != [] {
      QuietRun(last, moves[1..]);
    }
  }

  class Player {
    /** `currentPath`; "" stands for both null and the empty path, which every
        reader treats alike. */
    var currentPath: string
    var lastHoverTime: real
    var rotation: nat
    /** The text of `#curPath` and of `#fileLabel`. */
    var shownPath: string
    /** The value of the rename field. */
    var newNameValue: string
    var transform: string
    var maxWidth: int
    var maxHeight: int
    var sizing: Sizing
    var previewLeft: real
    var previewTop: real
    var previewShown: bool
    const main: Video
    const preview: Video

    ghost predicate Valid()
      reads this, main, preview
    {
      main != preview && QuarterTurn(rotation) && main.Valid() && preview.Valid()
    }

    /** initPlayer: the hidden preview video is created here. */
    constructor (mainVideo: Video)
      requires mainVideo.Valid()
      ensures Valid() && main == mainVideo && fresh(preview)
      ensures currentPath == "" && lastHoverTime == 0.0 && rotation == 0
    {
      main := mainVideo;
      preview := new Video();
      currentPath := "";
      lastHoverTime := 0.0;
      rotation := 0;
      shownPath := "";
      newNameValue := "";
      transform := "";
      maxWidth := 0;
      maxHeight := 0;
      sizing := Fill;
      previewLeft := 0.0;
      previewTop := 0.0;
      previewShown := false;
    }

    /** What a change of file leaves alone: the rotation and sizes, the
        preview box and the hover throttle. */
    twostate predicate ViewKept()
      reads this
    {
      rotation == old(rotation) && lastHoverTime == old(lastHoverTime)
      && transform == old(transform) && maxWidth == old(maxWidth) && maxHeight == old(maxHeight)
      && sizing == old(sizing) && previewLeft == old(previewLeft) && previewTop == old(previewTop)
      && previewShown == old(previewShown)
    }

    /** setCurrent. `load()` runs the media load algorithm, which resets the
        position, the duration, the paused flag and `readyState` (to
        HAVE_NOTHING) of each video before it returns; removing the source
        runs no load and leaves them as they were. So the `readyState >= 1`
        test right after the load always fails, and autoplay always waits for
        `loadedmetadata`. */
    method SetCurrent(path: string, autoplay: bool) returns (play: PlayStart)
      requires Valid()
      modifies this, main, preview
      ensures Valid()
      ensures currentPath == path && shownPath == path && newNameValue == RenameDefault(path)
      ensures ViewKept()
      ensures path == "" ==> main.src == None && preview.src == None && play == NoPlay
      ensures path == "" ==> main.PlaybackKept() && preview.PlaybackKept()
      ensures path != "" ==> main.LoadedWith(StreamUrl(path)) && preview.LoadedWith(StreamUrl(path))
      ensures path != "" ==> play == (if autoplay then PlayOnMetadata else NoPlay)
    {
      currentPath := path;
      shownPath := path;
      newNameValue := RenameDefault(path);
      if path == "" {
        main.RemoveSource();
        preview.RemoveSource();
        return NoPlay;
      }
      var src := StreamUrl(path);
      preview.Load(src);
      main.Load(src);
      play := if !autoplay then NoPlay else if main.readyState >= 1 then PlayNow else PlayOnMetadata;
    }

    /** rotateVideoClockwise. `frameWidth` and `frameHeight` are the parent's
        bounding box, or the video's own client size when it has no parent. */
    method Rotate(frameWidth: real, frameHeight: real)
      requires Valid()
      modifies this
      ensures Valid()
      ensures rotation == NextRotation(old(rotation))
      ensures transform == "rotate(" + DecimalString(rotation) + "deg)"
      ensures Sideways(rotation) ==>
        maxWidth == frameHeight.Floor && maxHeight == frameWidth.Floor && sizing == Auto
      ensures !Sideways(rotation) ==>
        maxWidth == frameWidth.Floor && maxHeight == frameHeight.Floor && sizing == Fill
      ensures currentPath == old(currentPath) && lastHoverTime == old(lastHoverTime)
    {
      rotation := NextRotation(rotation);
      transform := "rotate(" + DecimalString(rotation) + "deg)";
      if rotation % 180 != 0 {
        maxWidth := frameHeight.Floor;
        maxHeight := frameWidth.Floor;
        sizing := Auto;
      } else {
        maxWidth := frameWidth.Floor;
        maxHeight := frameHeight.Floor;
        sizing := Fill;
      }
    }

    /** onHoverSeek. `overlay` is the seek overlay's box, `wrap` the box the
        preview is kept inside (the overlay's `.player-wrap` ancestor in
        player.js, the preview wrapper's parent in app.js),
        `previewWidth`/`previewHeight` the preview canvas size and `now` the
        clock reading. The preview moves on every event; the seek is throttled. */
    method OnHoverSeek(clientX: real, clientY: real, overlay: Rect, wrap: Rect,
                       previewWidth: real, previewHeight: real, now: real) returns (seeked: bool)
      requires Valid() && overlay.width > 0.0
      modifies this, preview
      ensures Valid()
      ensures preview.duration == old(preview.duration) && preview.src == old(preview.src)
      ensures old(preview.duration).Missing() ==> !seeked && unchanged(this) && unchanged(preview)
      ensures !old(preview.duration).Missing() ==>
        previewShown
        && previewLeft == ClampPreview(clientX - wrap.left - previewWidth, wrap.width, previewWidth)
        && previewTop == ClampPreview(clientY - wrap.top - previewHeight, wrap.height, previewHeight)
      ensures seeked <==> !old(preview.duration).Missing() && now - old(lastHoverTime) >= ThrottleMs
      ensures seeked ==>
        lastHoverTime == now && preview.currentTime == SeekTime(clientX, overlay, preview.duration.secs)
      ensures !seeked ==> lastHoverTime == old(lastHoverTime) && preview.currentTime == old(preview.currentTime)
      ensures currentPath == old(currentPath) && rotation == old(rotation)
    {
      if preview.duration.Missing() {
        return false;
      }
      var t := SeekTime(clientX, overlay, preview.duration.secs);
      previewLeft := ClampPreview(clientX - wrap.left - previewWidth, wrap.width, previewWidth);
      previewTop := ClampPreview(clientY - wrap.top - previewHeight, wrap.height, previewHeight);
      previewShown := true;
      if now - lastHoverTime < ThrottleMs {
        return false;
      }
      lastHoverTime := now;
      preview.currentTime := t;
      seeked := true;
    }

    /** onLeaveSeek. */
    method OnLeaveSeek()
      modifies this
      ensures !previewShown
      ensures currentPath == old(currentPath) && rotation == old(rotation) && lastHoverTime == old(lastHoverTime)
    {
      previewShown := false;
    }

    /** onClickSeek: a click on the overlay seeks the main video. */
    method OnClickSeek(clientX: real, overlay: Rect)
      requires Valid() && overlay.width > 0.0
      modifies main
      ensures Valid()
      ensures main.duration == old(main.duration) && main.src == old(main.src)
      ensures old(main.duration).Missing() ==> unchanged(main)
      ensures !old(main.duration).Missing() ==>
        main.currentTime == SeekTime(clientX, overlay, main.duration.secs)
        && main.currentTime <= main.duration.secs
    {
      if main.duration.Missing() {
        return;
      }
      main.currentTime := SeekTime(clientX, overlay, main.duration.secs);
    }
  }
}

=== FILE: range.dfy ===
/** The byte-range part of the stream endpoint (main.go): parsing a `Range` header
    in the `bytes=` syntax of section 2.1 of RFC 7233, deciding whether the range is
    satisfiable, and the bounded loop that copies the chosen chunk. */
module ByteRange {
  import opened Text
  import Uri

  const MinInt64: int := -0x8000_0000_0000_0000
  const MaxInt64: int := 0x7FFF_FFFF_FFFF_FFFF

  /** Two's-complement wrap-around of Go's int64 arithmetic. */
  function Wrap64(x: int): (r: int)
    ensures MinInt64 <= r <= MaxInt64
    ensures MinInt64 <= x <= MaxInt64 ==> r == x
  {
    (x - MinInt64) % 0x1_0000_0000_0000_0000 + MinInt64
  }

  /** strconv.ParseInt(s, 10, 64): an optional sign, then one or more decimal digits,
      and a value that fits in int64; None stands for its syntax and range errors. */
  function ParseInt64(s: string): (r: Option<int>)
    ensures r.Some? ==> MinInt64 <= r.value <= MaxInt64
  {
    if |s| == 0 then None
    else
      var digits := if s[0] == '+' || s[0] == '-' then s[1..] else s;
      if |digits| == 0 || !AllDigits(digits) then None
      else
        var v: int := if s[0] == '-' then -(DigitsValue(digits) as int) else DigitsValue(digits);
        if v < MinInt64 || v > MaxInt64 then None else Some(v)
  }

  /** A decimal rendering of a number that fits in int64 parses back to it. */
  lemma {:induction false} ParseDecimal(n: nat)
    requires n <= MaxInt64
    ensures ParseInt64(DecimalString(n)) == Some(n)
  {
    DecimalRoundTrip(n);
    assert IsDigit(DecimalString(n)[0]);
  }

  /** ParseInt fails on any text holding a character other than a sign or a digit. */
  lemma {:induction false} ParseRejectsOther(s: string, i: nat)
    requires i < |s| && !IsDigit(s[i]) && s[i] != '+' && s[i] != '-'
    ensures ParseInt64(s) == None
  {
    if |s| > 0 && (s[0] == '+' || s[0] == '-') {
      assert i > 0;
      assert s[1..][i - 1] == s[i];
    }
  }

  /** strings.SplitN(s, "-", 2): the text before the first '-' and the rest, or
      None when there is no '-' (SplitN then returns a single part). */
  function SplitDash(s: string): (r: Option<(string, string)>)
    ensures r.None? <==> '-' !in s
    ensures r.Some? ==> '-' !in r.value.0 && s == r.value.0 + "-" + r.value.1
  {
    if |s| == 0 then None
    else if s[0] == '-' then Some(("", s[1..]))
    else match SplitDash(s[1..])
      case None => None
      case Some((a, b)) => Some(([s[0]] + a, b))
  }

  datatype RangeError = EmptyHeader | Invalid | BadNumber

  datatype Parsed = Range(start: int, end: int) | Failed(why: RangeError)

  /** parseRange (main.go:200-237). Only a trimmed header that starts with `bytes=` and
      has a '-' after it can yield a range, and both bounds are int64 values. */
  function ParseRange(rangeHeader: string, size: int): (r: Parsed)
    requires 0 <= size <= MaxInt64
    ensures Trim(rangeHeader, GoSpace) == "" ==> r == Failed(EmptyHeader)
    ensures r.Range? ==> (StartsWith(Trim(rangeHeader, GoSpace), "bytes=")
      && '-' in Trim(rangeHeader, GoSpace)[6..])
    ensures r.Range? ==> MinInt64 <= r.start <= MaxInt64 && MinInt64 <= r.end <= MaxInt64
  {
    var h := Trim(rangeHeader, GoSpace);
    if h == "" then Failed(EmptyHeader)
    else if !StartsWith(h, "bytes=") then Failed(Invalid)
    else ParseSpec(h[6..], size)
  }

  /** The part of parseRange after `bytes=`: `-N` (the last N bytes), `S-` (from S to
      the end) or `S-E`. Go's int64 subtraction wraps, which matters only for a
      negative suffix length. */
  function ParseSpec(spec: string, size: int): (r: Parsed)
    requires 0 <= size <= MaxInt64
    ensures r.Range? ==> '-' in spec
    ensures r.Range? ==> MinInt64 <= r.start <= MaxInt64 && MinInt64 <= r.end <= MaxInt64
  {
    match SplitDash(spec)
    case None => Failed(Invalid)
    case Some((first, second)) =>
      if first == "" then
        match ParseInt64(second)
        case None => Failed(BadNumber)
        case Some(suffix) =>
          var n := if suffix > size then size else suffix;
          Range(Wrap64(size - n), size - 1)
      else
        match ParseInt64(first)
        case None => Failed(BadNumber)
        case Some(start) =>
          if second == "" then Range(start, size - 1)
          else match ParseInt64(second)
            case None => Failed(BadNumber)
            case Some(end) => Range(start, end)
  }

  /** What the stream endpoint answers once the file is open (main.go:273-295). */
  datatype RangeReply =
    | WholeFile
    | NotSatisfiable(contentRange: string)
    | Partial(start: nat, end: nat, length: nat, contentRange: string)

  predicate Satisfiable(start: int, end: int, size: int)
  {
    0 <= start <= end < size
  }

  /** The Range handling of apiStream: no header serves the whole file, an unparsable
      or unsatisfiable one is answered 416 with a Content-Range naming only the size,
      anything else with 206 and the chosen bounds. */
  function RangeResponse(rangeHeader: string, size: int): (r: RangeReply)
    requires 0 <= size <= MaxInt64
    ensures r.WholeFile? <==> rangeHeader == ""
    ensures r.NotSatisfiable? ==> r.contentRange == "bytes */" + DecimalString(size)
    ensures r.Partial? ==> r.end < size && r.length == r.end - r.start + 1 && 1 <= r.length <= size
    ensures r.Partial? ==> (r.contentRange == "bytes " + DecimalString(r.start) + "-"
      + DecimalString(r.end) + "/" + DecimalString(size))
    ensures r.Partial? <==> (rangeHeader != "" && ParseRange(rangeHeader, size).Range?
      && Satisfiable(ParseRange(rangeHeader, size).start, ParseRange(rangeHeader, size).end, size))
  {
    if rangeHeader == "" then WholeFile
    else match ParseRange(rangeHeader, size)
      case Failed(_) => NotSatisfiable("bytes */" + DecimalString(size))
      case Range(start, end) =>
        if start < 0 || end >= size || start > end then NotSatisfiable("bytes */" + DecimalString(size))
        else Partial(start, end, end - start + 1,
          "bytes " + DecimalString(start) + "-" + DecimalString(end) + "/" + DecimalString(size))
  }

  // ---------------------------------------------------------------
  // Properties of the parser
  // ---------------------------------------------------------------

  lemma {:induction false} SplitDashAfterNumber(d: string, rest: string)
    requires '-' !in d
    ensures SplitDash(d + "-" + rest) == Some((d, rest))
  {
    var s := d + "-" + rest;
    if |d| == 0 {
      assert s[0] == '-' && s[1..] == rest;
    } else {
      assert s[0] == d[0] && s[1..] == d[1..] + "-" + rest;
      SplitDashAfterNumber(d[1..], rest);
      assert [d[0]] + d[1..] == d;
    }
  }

  /** A successfully parsed number ends in a digit, so no white space follows it. */
  lemma {:induction false} ParsedEndsInDigit(s: string)
    requires ParseInt64(s).Some?
    ensures |s| >= 1 && IsDigit(s[|s| - 1])
  {
    var digits := if s[0] == '+' || s[0] == '-' then s[1..] else s;
    assert s[|s| - 1] == digits[|digits| - 1];
  }

  /** With `bytes=` in front, trimming only ever drops trailing white space, and the
      parse is the parse of what remains after the prefix. */
  lemma {:induction false} TrimmedBytes(h: string, size: nat)
    requires size <= MaxInt64 && StartsWith(h, "bytes=")
    ensures var t := Trim(h, GoSpace);
      && 6 <= |t| <= |h| && t == h[..|t|] && StartsWith(t, "bytes=")
      && (forall k :: |t| <= k < |h| ==> GoSpace(h[k]))
      && ParseRange(h, size) == ParseSpec(t[6..], size)
  {
    assert h[0] == 'b' && h[5] == '=';
    assert TrimStart(h, GoSpace) == h;
    var t := TrimEnd(h, GoSpace);
    assert |t| >= 6;
    assert t[..6] == h[..6];
  }

  /** A header that ends in something other than white space is parsed as it stands. */
  lemma {:induction false} CanonicalHeader(spec: string, size: nat)
    requires size <= MaxInt64 && |spec| >= 1 && !GoSpace(spec[|spec| - 1])
    ensures ParseRange("bytes=" + spec, size) == ParseSpec(spec, size)
  {
    var h := "bytes=" + spec;
    assert h[0] == 'b' && h[|h| - 1] == spec[|spec| - 1];
    assert TrimStart(h, GoSpace) == h;
    assert TrimEnd(h, GoSpace) == h;
    assert h[..6] == "bytes=" && h[6..] == spec;
  }

  lemma {:induction false} SuffixSpec(size: nat, n: nat)
    requires size <= MaxInt64 && n <= MaxInt64
    ensures ParseSpec("-" + DecimalString(n), size) == Range(size - (if n > size then size else n), size - 1)
  {
    assert "-" + DecimalString(n) == "" + "-" + DecimalString(n);
    SplitDashAfterNumber("", DecimalString(n));
    ParseDecimal(n);
  }

  /** `bytes=-N` asks for the last N bytes: start = size - min(N, size), end = size - 1. */
  lemma {:induction false} SuffixRange(size: nat, n: nat)
    requires size <= MaxInt64 && n <= MaxInt64
    ensures ParseRange("bytes=" + ("-" + DecimalString(n)), size)
      == Range(size - (if n > size then size else n), size - 1)
  {
    var d := DecimalString(n);
    var spec := "-" + d;
    assert IsDigit(d[|d| - 1]) && spec[|spec| - 1] == d[|d| - 1];
    CanonicalHeader(spec, size);
    SuffixSpec(size, n);
  }

  lemma {:induction false} OpenEndedSpec(size: nat, s: nat)
    requires size <= MaxInt64 && s <= MaxInt64
    ensures ParseSpec(DecimalString(s) + "-", size) == Range(s, size - 1)
  {
    DecimalHasNoSlash(s);
    assert DecimalString(s) + "-" == DecimalString(s) + "-" + "";
    SplitDashAfterNumber(DecimalString(s), "");
    ParseDecimal(s);
  }

  /** `bytes=S-` runs to the last byte. */
  lemma {:induction false} OpenEndedRange(size: nat, s: nat)
    requires size <= MaxInt64 && s <= MaxInt64
    ensures ParseRange("bytes=" + (DecimalString(s) + "-"), size) == Range(s, size - 1)
  {
    CanonicalHeader(DecimalString(s) + "-", size);
    OpenEndedSpec(size, s);
  }

  lemma {:induction false} ClosedSpec(size: nat, s: nat, e: nat)
    requires size <= MaxInt64 && s <= MaxInt64 && e <= MaxInt64
    ensures ParseSpec(DecimalString(s) + "-" + DecimalString(e), size) == Range(s, e)
  {
    DecimalHasNoSlash(s);
    SplitDashAfterNumber(DecimalString(s), DecimalString(e));
    ParseDecimal(s);
    ParseDecimal(e);
  }

  /** `bytes=S-E` is returned as written: parseRange itself checks no bounds. */
  lemma {:induction false} ClosedRange(size: nat, s: nat, e: nat)
    requires size <= MaxInt64 && s <= MaxInt64 && e <= MaxInt64
    ensures ParseRange("bytes=" + (DecimalString(s) + "-" + DecimalString(e)), size) == Range(s, e)
  {
    var d := DecimalString(e);
    var spec := DecimalString(s) + "-" + d;
    assert IsDigit(d[|d| - 1]) && spec[|spec| - 1] == d[|d| - 1];
    CanonicalHeader(spec, size);
    ClosedSpec(size, s, e);
  }

  /** The reply for a header that parses to given bounds. */
  lemma {:induction false} ParsedResponse(h: string, size: nat, start: int, end: int)
    requires size <= MaxInt64 && h != "" && ParseRange(h, size) == Range(start, end)
    ensures Satisfiable(start, end, size) ==>
      RangeResponse(h, size) == Partial(start, end, end - start + 1, "bytes " + DecimalString(start) + "-" + DecimalString(end) + "/" + DecimalString(size))
    ensures !Satisfiable(start, end, size) ==> RangeResponse(h, size).NotSatisfiable?
  {
  }

  /** A satisfiable `bytes=S-E` is served exactly: bytes S through E, E - S + 1 of them. */
  lemma {:induction false} ClosedRangeServed(size: nat, s: nat, e: nat)
    requires s <= e < size <= MaxInt64
    ensures RangeResponse("bytes=" + (DecimalString(s) + "-" + DecimalString(e)), size)
      == Partial(s, e, e - s + 1, "bytes " + DecimalString(s) + "-" + DecimalString(e) + "/" + DecimalString(size))
  {
    ClosedRange(size, s, e);
    ParsedResponse("bytes=" + (DecimalString(s) + "-" + DecimalString(e)), size, s, e);
  }

  /** An end beyond the file is refused with 416, not clamped to the last byte as
      RFC 7233 allows. */
  lemma {:induction false} EndPastSizeRejected(size: nat, s: nat, e: nat)
    requires size <= MaxInt64 && e <= MaxInt64 && s < size <= e
    ensures RangeResponse("bytes=" + (DecimalString(s) + "-" + DecimalString(e)), size).NotSatisfiable?
  {
    ClosedRange(size, s, e);
    ParsedResponse("bytes=" + (DecimalString(s) + "-" + DecimalString(e)), size, s, e);
  }

  /** A header that is only white space is not "no header": it is answered 416. */
  lemma {:induction false} BlankHeaderRejected(size: nat, h: string)
    requires size <= MaxInt64 && h != "" && forall i :: 0 <= i < |h| ==> GoSpace(h[i])
    ensures RangeResponse(h, size).NotSatisfiable?
  {
    var t := TrimStart(h, GoSpace);
    assert |t| == 0 by {
      assert t == h[|h| - |t|..];
    }
  }

  /** A multi-range request such as `bytes=0-1,4-5` is refused: the comma ends up
      inside one of the two numbers. */
  lemma {:induction false} MultiRangeRejected(size: nat, spec: string)
    requires size <= MaxInt64 && ',' in spec
    ensures ParseRange("bytes=" + spec, size).Failed?
  {
    var h := "bytes=" + spec;
    TrimmedBytes(h, size);
    var t := Trim(h, GoSpace);
    var k :| 0 <= k < |spec| && spec[k] == ',';
    assert h[6 + k] == ',';
    assert 6 + k < |t|;
    assert t[6..][k] == ',';
    SpecWithCommaFails(t[6..], k, size);
  }

  lemma {:induction false} SpecWithCommaFails(spec: string, k: nat, size: nat)
    requires size <= MaxInt64 && k < |spec| && spec[k] == ','
    ensures ParseSpec(spec, size).Failed?
  {
    match SplitDash(spec)
    case None =>
    case Some((first, second)) =>
      if k < |first| {
        assert first[k] == ',';
        ParseRejectsOther(first, k);
      } else {
        assert spec[|first|] == '-';
        assert second[k - |first| - 1] == ',';
        ParseRejectsOther(second, k - |first| - 1);
      }
  }

  /** The wrap-around of a result just above the int64 range. */
  lemma {:induction false} WrapAbove(x: int)
    requires MaxInt64 < x <= MaxInt64 + 0x1_0000_0000_0000_0000
    ensures Wrap64(x) == x - 0x1_0000_0000_0000_0000
  {
    var y := x - MinInt64;
    assert 0x1_0000_0000_0000_0000 <= y < 2 * 0x1_0000_0000_0000_0000;
    assert y % 0x1_0000_0000_0000_0000 == y - 0x1_0000_0000_0000_0000;
  }

  /** A negative suffix length never yields a satisfiable range, whatever the wrap-around. */
  lemma {:induction false} NegativeSuffixRejected(size: nat, rest: string)
    requires size <= MaxInt64
    requires ParseInt64(rest).Some? && ParseInt64(rest).value < 0
    ensures RangeResponse("bytes=-" + rest, size).NotSatisfiable?
  {
    var h := "bytes=-" + rest;
    var start := NegativeSuffixParse(size, rest);
    assert h[0] == 'b';
    ParsedResponse(h, size, start, size - 1);
  }

  /** `bytes=-N` with N < 0 is parsed with N itself as the suffix length, the
      clamp to the size not applying; the start it gives, size - N wrapped to
      int64, lies outside the file. */
  lemma {:induction false} NegativeSuffixParse(size: nat, rest: string) returns (start: int)
    requires size <= MaxInt64
    requires ParseInt64(rest).Some? && ParseInt64(rest).value < 0
    ensures start == Wrap64(size - ParseInt64(rest).value)
    ensures ParseRange("bytes=-" + rest, size) == Range(start, size - 1)
    ensures !Satisfiable(start, size - 1, size)
  {
    ParsedEndsInDigit(rest);
    var spec := "-" + rest;
    assert spec[|spec| - 1] == rest[|rest| - 1];
    assert "bytes=-" + rest == "bytes=" + spec;
    CanonicalHeader(spec, size);
    assert spec == "" + "-" + rest;
    SplitDashAfterNumber("", rest);
    start := Wrap64(size - ParseInt64(rest).value);
    WrappedStartOutside(size, ParseInt64(rest).value);
  }

  /** size - N for a negative N is either past the last byte or, once wrapped, negative. */
  lemma {:induction false} WrappedStartOutside(size: nat, v: int)
    requires size <= MaxInt64 && MinInt64 <= v < 0
    ensures !Satisfiable(Wrap64(size - v), size - 1, size)
  {
    if size - v > MaxInt64 {
      WrapAbove(size - v);
    }
  }

  // ---------------------------------------------------------------
  // The copy loop (main.go:297-319)
  // ---------------------------------------------------------------

  const BufferSize: nat := 32 * 1024

  datatype ReadStatus = ReadOk | AtEof | ReadError

  /** The opened file, positioned by Seek(start): `data` is its content from the
      start of the file, `pos` the read offset. */
  class ChunkSource {
    const data: seq<Uri.Byte>
    var pos: nat

    constructor (content: seq<Uri.Byte>, offset: nat)
      requires offset <= |content|
      ensures data == content && pos == offset
    {
      data := content;
      pos := offset;
    }

    ghost predicate Valid()
      reads this
    {
      pos <= |data|
    }

    /** os.File.Read: at most `max` bytes into buf, fewer whenever the file chooses;
        a zero count always comes with an error (io.EOF at the end). */
    method Read(buf: array<Uri.Byte>, max: nat) returns (n: nat, status: ReadStatus)
      requires Valid() && 0 < max <= buf.Length
      modifies this, buf
      ensures Valid() && n <= max && pos == old(pos) + n
      ensures buf[..n] == data[old(pos)..pos]
      ensures n == 0 ==> status != ReadOk
    {
      n := if |data| - pos < max then |data| - pos else max;
      forall i | 0 <= i < n {
        buf[i] := data[pos + i];
      }
      assert buf[..n] == data[pos..pos + n];
      pos := pos + n;
      status := if n == 0 then AtEof else ReadOk;
    }
  }

  /** The HTTP response body. */
  class ResponseBody {
    var sent: seq<Uri.Byte>

    constructor ()
      ensures sent == []
    {
      sent := [];
    }

    /** http.ResponseWriter.Write: on failure only part of the chunk may have gone out. */
    method Write(chunk: seq<Uri.Byte>) returns (ok: bool)
      modifies this
      ensures |old(sent)| <= |sent| <= |old(sent)| + |chunk|
      ensures sent == old(sent) + chunk[..|sent| - |old(sent)|]
      ensures ok ==> sent == old(sent) + chunk
    {
      sent := sent + chunk;
      ok := true;
    }
  }

  datatype CopyEnd = Complete | ReadStopped | WriteFailed

  lemma {:induction false} SliceSplit(s: seq<Uri.Byte>, a: nat, b: nat, c: nat)
    requires a <= b <= c <= |s|
    ensures s[a..b] + s[b..c] == s[a..c]
  {
  }

  lemma {:induction false} SlicePrefix(s: seq<Uri.Byte>, a: nat, b: nat, c: nat, k: nat)
    requires a <= b <= c <= |s| && b - a <= k <= c - a
    ensures s[a..b] + s[b..c][..k - (b - a)] == s[a..a + k]
  {
  }

  /** The bounded copy loop of apiStream: reads through a 32 KiB buffer, never asks for
      more than remains of the chunk, and stops at the first read or write error. What
      reaches the client is the file's bytes from the seek position, at most chunkSize
      of them, and exactly chunkSize when the loop completes. */
  method CopyChunk(f: ChunkSource, w: ResponseBody, chunkSize: nat)
      returns (outcome: CopyEnd, ghost readSizes: seq<nat>)
    requires f.Valid()
    modifies f, w
    ensures f.Valid()
    ensures forall i :: 0 <= i < |readSizes| ==> 0 < readSizes[i] <= BufferSize
    ensures old(f.pos) <= f.pos <= old(f.pos) + chunkSize
    ensures |old(w.sent)| <= |w.sent| <= |old(w.sent)| + (f.pos - old(f.pos))
    ensures w.sent == old(w.sent) + f.data[old(f.pos)..old(f.pos) + (|w.sent| - |old(w.sent)|)]
    ensures outcome == Complete ==> f.pos == old(f.pos) + chunkSize && |w.sent| == |old(w.sent)| + chunkSize
  {
    var buf := new Uri.Byte[BufferSize];
    var remaining: nat := chunkSize;
    ghost var pos0 := f.pos;
    ghost var sent0 := w.sent;
    readSizes := [];
    while remaining > 0
      invariant f.Valid() && buf.Length == BufferSize
      invariant remaining <= chunkSize && f.pos == pos0 + (chunkSize - remaining)
      invariant w.sent == sent0 + f.data[pos0..f.pos]
      invariant |w.sent| == |sent0| + (f.pos - pos0)
      invariant forall i :: 0 <= i < |readSizes| ==> 0 < readSizes[i] <= BufferSize
      decreases remaining
    {
      var toRead := if remaining < BufferSize then remaining else BufferSize;
      ghost var before := f.pos;
      var n, status := f.Read(buf, toRead);
      if n > 0 {
        readSizes := readSizes + [n];
        var chunk := buf[..n];
        assert chunk == f.data[before..f.pos];
        var ok := w.Write(chunk);
        if !ok {
          SlicePrefix(f.data, pos0, before, f.pos, |w.sent| - |sent0|);
          return WriteFailed, readSizes;
        }
        SliceSplit(f.data, pos0, before, f.pos);
        remaining := remaining - n;
      }
      if status != ReadOk {
        return ReadStopped, readSizes;
      }
    }
    outcome := Complete;
  }
}

=== FILE: rename.dfy ===
/** renameFlow of static/js/rename-flow.js as an ordered log of effects: the
    validation messages, the move to the next sibling that happens before the
    request is sent, the request itself and the message the response selects.
    The response of `POST /api/rename` is an input. */
module RenameFlow {
  import opened Text
  import Fragment
  import Tree

  const NoSelection: string := "select a file first"
  const NoName: string := "enter new filename"
  const Failed: string := "rename failed"

  /** What the request ends in: a 2xx status, another status with its body,
      or an exception (network failure or an unreadable body). */
  datatype Response = Ok | Refused(body: string) | Error

  /** One observable step of the flow. `Advance` is the goToNextSibling call
      made from `from`; `Message` is an assignment to the message line. */
  datatype Effect =
    | Advance(from: string, nav: Tree.Nav)
    | Request(path: string, newName: string)
    | Message(text: string)

  /** `player.getCurrentPath() || (location.hash ? decode(location.hash.slice(1)) : null)`. */
  function CurrentPath(playerPath: string, fragment: string): (r: Fragment.Read)
    ensures playerPath != "" ==> r == Fragment.Path(playerPath)
    ensures playerPath == "" ==> r == Fragment.StrictRead(fragment)
  {
    if playerPath != "" then Fragment.Path(playerPath) else Fragment.StrictRead(fragment)
  }

  /** The message a response selects. */
  function ResultMessages(path: string, newName: string, response: Response): (ms: seq<Effect>)
    ensures |ms| >= 1 && forall i :: 0 <= i < |ms| ==> ms[i].Message?
    ensures response.Error? <==> |ms| == 2
    ensures response.Error? ==> ms[0] == ms[1] == Message(Failed)
  {
    match response
    case Ok => [Message("renamed:" + path + " to " + newName)]
    case Refused(body) => [Message("rename error: " + body)]
    case Error => [Message(Failed), Message(Failed)]
  }

  /** The effects of one run, in order, for the trimmed field value `name`. A
      fragment that does not decode makes the first line throw: the run
      rejects with no effect at all. */
  function Effects(current: Fragment.Read, name: string, rows: seq<Tree.Row>, response: Response): (r: seq<Effect>)
    ensures current.Throws? <==> r == []
    ensures r != [] ==> r[|r| - 1].Message?
  {
    match current
    case Throws => []
    case NoFragment => [Message(NoSelection)]
    case Path(p) =>
      if p == "" then [Message(NoSelection)]
      else if name == "" then [Message(NoName)]
      else Sent(p, name, Tree.NextSibling(rows, p), response)
  }

  /** The effects once validation has passed. */
  function Sent(p: string, name: string, nav: Tree.Nav, response: Response): (r: seq<Effect>)
    ensures |r| >= 3 && r[|r| - 1].Message?
    ensures r[0] == Advance(p, nav) && r[1] == Request(p, name)
  {
    [Advance(p, nav), Request(p, name)] + ResultMessages(p, name, response)
  }

  /** The fragment after a run: the one the advance stored, if it moved. */
  function AdvancedFragment(before: string, effects: seq<Effect>): string
  {
    if |effects| > 1 && effects[0].Advance? && effects[0].nav.Go? then effects[0].nav.fragment else before
  }

  predicate Requests(effects: seq<Effect>)
  {
    exists i :: 0 <= i < |effects| && effects[i].Request?
  }

  /** Without a current file, or with a blank name, nothing is sent and
      the selection does not move: the only effect is the message. */
  lemma {:induction false} ValidationStopsEarly(current: Fragment.Read, name: string, rows: seq<Tree.Row>, response: Response)
    requires !current.Throws?
    requires current.NoFragment? || current.path == "" || name == ""
    ensures Effects(current, name, rows, response) ==
      [Message(if current.NoFragment? || current.path == "" then NoSelection else NoName)]
  {
  }

  /** A request is sent exactly once, after the advance from the same path,
      with the trimmed name, which is never blank. */
  lemma {:induction false} AdvanceBeforeRequest(current: Fragment.Read, name: string, rows: seq<Tree.Row>, response: Response)
    requires Requests(Effects(current, name, rows, response))
    ensures var e := Effects(current, name, rows, response);
      && current.Path? && current.path != ""
      && e[0] == Advance(current.path, Tree.NextSibling(rows, current.path))
      && e[1] == Request(current.path, name)
      && name != ""
      && forall i :: 0 <= i < |e| && i != 1 ==> !e[i].Request?
  {
    var e := Effects(current, name, rows, response);
    var i :| 0 <= i < |e| && e[i].Request?;
  }

  /** The message after a request reports the renamed path and the new name,
      the server's refusal, or the failure. */
  lemma {:induction false} FinalMessage(p: string, name: string, rows: seq<Tree.Row>, response: Response)
    requires p != "" && name != ""
    ensures var e := Effects(Fragment.Path(p), name, rows, response);
      e[|e| - 1].text == match response
        case Ok => "renamed:" + p + " to " + name
        case Refused(body) => "rename error: " + body
        case Error => Failed
  {
  }

  /** The player's path wins over the fragment; without one, the fragment a
      selection stored names the same file. */
  lemma {:induction false} CurrentPathSources(playerPath: string, selected: string)
    requires selected != ""
    ensures CurrentPath("", Fragment.SetHashPath(selected)) == Fragment.Path(selected)
    ensures playerPath != "" ==> CurrentPath(playerPath, Fragment.SetHashPath(selected)) == Fragment.Path(playerPath)
  {
    Fragment.StrictRoundTrip(selected);
  }

  /** In a well-formed library the advance moves the selection off the file
      being renamed: the request names a file that is no longer selected. */
  lemma {:induction false} AdvanceLeavesRenamedFile(top: seq<Tree.Entry>, p: string)
    requires Tree.WellFormed(Tree.Folder(top))
    ensures var nav := Tree.NextSibling(Tree.RenderRoot(top), p);
      nav.Go? ==> nav.selected != p
  {
    var rows := Tree.RenderRoot(top);
    Tree.RenderedPathsDistinct(top);
    Tree.SameDirDistinct(Tree.FilePaths(rows), DirOf(p));
    var siblings := Tree.SiblingPaths(rows, p);
    var idx := Tree.IndexOf(siblings, p);
    if p != "" && 0 <= idx < |siblings| - 1 {
      assert siblings[idx] == p;
      assert siblings[idx + 1] != siblings[idx];
    }
  }

  /** The message line, the fragment and the log of effects. */
  class RenameUi {
    var message: string
    var fragment: string
    var log: seq<Effect>

    constructor (initialFragment: string)
      ensures message == "" && fragment == initialFragment && log == []
    {
      message := "";
      fragment := initialFragment;
      log := [];
    }

    /** One run of renameFlow; `settled` is false when the run throws. */
    method Run(playerPath: string, inputValue: string, rows: seq<Tree.Row>, response: Response)
      returns (settled: bool)
      modifies this
      ensures log == old(log) + Effects(CurrentPath(playerPath, old(fragment)), JsTrim(inputValue), rows, response)
      ensures settled <==> !CurrentPath(playerPath, old(fragment)).Throws?
      ensures log == old(log) ==> message == old(message)
      ensures log != old(log) ==> message == log[|log| - 1].text
      ensures fragment == AdvancedFragment(old(fragment), Effects(CurrentPath(playerPath, old(fragment)), JsTrim(inputValue), rows, response))
    {
      var current := CurrentPath(playerPath, fragment);
      var name := JsTrim(inputValue);
      settled := Apply(current, name, rows, response);
    }

    /** The run once the current path and the trimmed name are known. */
    method Apply(current: Fragment.Read, name: string, rows: seq<Tree.Row>, response: Response)
      returns (settled: bool)
      modifies this
      ensures log == old(log) + Effects(current, name, rows, response)
      ensures settled <==> !current.Throws?
      ensures log == old(log) ==> message == old(message)
      ensures log != old(log) ==> message == log[|log| - 1].text
      ensures fragment == AdvancedFragment(old(fragment), Effects(current, name, rows, response))
    {
      match current {
        case Throws =>
          return false;
        case NoFragment =>
          Show(NoSelection);
        case Path(p) =>
          if p == "" {
            Show(NoSelection);
          } else if name == "" {
            Show(NoName);
          } else {
            var nav := Tree.NextSibling(rows, p);
            assert Effects(current, name, rows, response) == Sent(p, name, nav, response);
            Send(p, name, nav, response);
          }
      }
      settled := true;
    }

    /** A validation failure: the message alone. */
    method Show(text: string)
      modifies this
      ensures log == old(log) + [Message(text)]
      ensures message == text && fragment == old(fragment)
    {
      message := text;
      log := log + [Message(text)];
    }

    /** The part after validation: advance, request, message. */
    method Send(p: string, name: string, nav: Tree.Nav, response: Response)
      modifies this
      ensures log == old(log) + Sent(p, name, nav, response)
      ensures message == log[|log| - 1].text
      ensures nav.Go? ==> fragment == nav.fragment
      ensures !nav.Go? ==> fragment == old(fragment)
    {
      log := log + [Advance(p, nav)];
      if nav.Go? {
        fragment := nav.fragment;
      }
      log := log + [Request(p, name)];
      match response {
        case Ok =>
          message := "renamed:" + p + " to " + name;
          log := log + [Message(message)];
        case Refused(body) =>
          message := "rename error: " + body;
          log := log + [Message(message)];
        case Error =>
          message := Failed;
          log := log + [Message(Failed)];
          message := Failed;
          log := log + [Message(Failed)];
      }
    }
  }
}

=== FILE: text.dfy ===
/** Character and string helpers shared by the backend and the UI models:
    decimal digits, '/'-separated segments, whitespace trimming and ASCII case. */
module Text {

  datatype Option<+T> = None | Some(value: T)

  predicate StartsWith(s: string, prefix: string)
  {
    |prefix| <= |s| && s[..|prefix|] == prefix
  }

  // ---------------------------------------------------------------
  // Decimal digits
  // ---------------------------------------------------------------

  predicate IsDigit(c: char)
  {
    '0' <= c <= '9'
  }

  predicate AllDigits(s: string)
  {
    forall i :: 0 <= i < |s| ==> IsDigit(s[i])
  }

  function DigitChar(d: nat): (c: char)
    requires d < 10
    ensures IsDigit(c) && (c as int) - ('0' as int) == d
  {
    ('0' as int + d) as char
  }

  /** The value of a string of decimal digits (the empty string reads as 0). */
  function DigitsValue(s: string): nat
    requires AllDigits(s)
  {
    if |s| == 0 then 0
    else DigitsValue(s[..|s| - 1]) * 10 + ((s[|s| - 1] as int) - ('0' as int))
  }

  /** Shortest decimal rendering of a natural number, as Go's %d and JavaScript's
      Number-to-string both print it for integers. */
  function DecimalString(n: nat): (s: string)
    ensures 1 <= |s| && AllDigits(s)
  {
    if n < 10 then [DigitChar(n)] else DecimalString(n / 10) + [DigitChar(n % 10)]
  }

  /** Reading a decimal rendering back gives the number. */
  lemma {:induction false} DecimalRoundTrip(n: nat)
    ensures DigitsValue(DecimalString(n)) == n
  {
    var s := DecimalString(n);
    if n >= 10 {
      DecimalRoundTrip(n / 10);
      assert s[..|s| - 1] == DecimalString(n / 10);
    }
  }

  lemma {:induction false} DecimalHasNoSlash(n: nat)
    ensures '/' !in DecimalString(n) && ',' !in DecimalString(n) && '-' !in DecimalString(n)
  {
    var s := DecimalString(n);
    forall i | 0 <= i < |s| ensures s[i] != '/' && s[i] != ',' && s[i] != '-' {
      assert IsDigit(s[i]);
    }
  }

  // ---------------------------------------------------------------
  // '/'-separated segments
  // ---------------------------------------------------------------

  /** Splitting on '/' keeping empty fields: JavaScript's split("/") and Go's
      strings.Split(s, "/"). */
  function Split(s: string): (r: seq<string>)
    ensures |r| >= 1
    ensures forall i :: 0 <= i < |r| ==> '/' !in r[i]
  {
    if |s| == 0 then [""]
    else if s[0] == '/' then [""] + Split(s[1..])
    else
      var rest := Split(s[1..]);
      [[s[0]] + rest[0]] + rest[1..]
  }

  /** The segments joined with '/'. */
  function Join(segs: seq<string>): string
  {
    if |segs| == 0 then ""
    else if |segs| == 1 then segs[0]
    else Join(segs[..|segs| - 1]) + "/" + segs[|segs| - 1]
  }

  /** A name that can stand between two separators. */
  predicate IsName(s: string)
  {
    s != "" && '/' !in s
  }

  predicate AllNames(segs: seq<string>)
  {
    forall i :: 0 <= i < |segs| ==> IsName(segs[i])
  }

  lemma {:induction false} SplitNoSlash(s: string)
    requires '/' !in s
    ensures Split(s) == [s]
  {
    if |s| > 0 {
      SplitNoSlash(s[1..]);
      assert [s[0]] + s[1..] == s;
    }
  }

  /** A separator splits the text into the fields of each side. */
  lemma {:induction false} SplitAround(a: string, b: string)
    ensures Split(a + "/" + b) == Split(a) + Split(b)
  {
    if |a| == 0 {
      assert a + "/" + b == "/" + b;
      assert ("/" + b)[1..] == b;
    } else {
      assert (a + "/" + b)[0] == a[0];
      assert (a + "/" + b)[1..] == a[1..] + "/" + b;
      SplitAround(a[1..], b);
    }
  }

  /** Joining names and splitting again gives the names back. */
  lemma {:induction false} SplitJoin(segs: seq<string>)
    requires |segs| >= 1 && forall i :: 0 <= i < |segs| ==> '/' !in segs[i]
    ensures Split(Join(segs)) == segs
  {
    var n := |segs|;
    if n == 1 {
      SplitNoSlash(segs[0]);
    } else {
      SplitJoin(segs[..n - 1]);
      SplitAround(Join(segs[..n - 1]), segs[n - 1]);
      SplitNoSlash(segs[n - 1]);
      assert segs[..n - 1] + [segs[n - 1]] == segs;
    }
  }

  lemma {:induction false} JoinNonEmpty(segs: seq<string>)
    requires |segs| >= 1 && AllNames(segs)
    ensures Join(segs) != ""
  {
    if |segs| > 1 {
      assert |Join(segs)| >= 1 + |segs[|segs| - 1]|;
    }
  }

  lemma {:induction false} JoinInjective(s: seq<string>, t: seq<string>)
    requires |s| >= 1 && |t| >= 1 && AllNames(s) && AllNames(t)
    requires Join(s) == Join(t)
    ensures s == t
  {
    SplitJoin(s);
    SplitJoin(t);
  }

  /** Index of the last '/', or -1: JavaScript's lastIndexOf("/"). */
  function LastSlash(s: string): (i: int)
    ensures -1 <= i < |s|
    ensures i >= 0 ==> s[i] == '/'
    ensures forall k :: i < k < |s| ==> s[k] != '/'
  {
    if |s| == 0 then -1
    else if s[|s| - 1] == '/' then |s| - 1
    else LastSlash(s[..|s| - 1])
  }

  /** The text before the last '/', or "" when there is none (tree.js, static/app.js). */
  function DirOf(p: string): (d: string)
    ensures |d| <= |p|
  {
    if LastSlash(p) >= 0 then p[..LastSlash(p)] else ""
  }

  /** The text after the last '/': `path.split("/").pop()`. */
  function BaseOf(p: string): (b: string)
    ensures '/' !in b
  {
    p[LastSlash(p) + 1..]
  }

  lemma {:induction false} LastSlashAt(s: string, j: nat)
    requires j < |s| && s[j] == '/'
    requires forall k :: j < k < |s| ==> s[k] != '/'
    ensures LastSlash(s) == j
  {
    if s[|s| - 1] != '/' {
      LastSlashAt(s[..|s| - 1], j);
    }
  }

  lemma {:induction false} LastSlashAround(a: string, b: string)
    requires '/' !in b
    ensures LastSlash(a + "/" + b) == |a|
  {
    var s := a + "/" + b;
    forall k | |a| < k < |s| ensures s[k] != '/' {
      assert s[k] == b[k - |a| - 1];
    }
    LastSlashAt(s, |a|);
  }

  /** The directory of a joined path is the join of all but its last name. */
  lemma {:induction false} DirOfJoin(segs: seq<string>)
    requires |segs| >= 1 && AllNames(segs)
    ensures DirOf(Join(segs)) == Join(segs[..|segs| - 1])
    ensures BaseOf(Join(segs)) == segs[|segs| - 1]
  {
    var n := |segs|;
    if n == 1 {
      assert Join(segs) == segs[0];
    } else {
      LastSlashAround(Join(segs[..n - 1]), segs[n - 1]);
      var s := Join(segs[..n - 1]) + "/" + segs[n - 1];
      assert s[|Join(segs[..n - 1])|] == '/';
      assert s[..|Join(segs[..n - 1])|] == Join(segs[..n - 1]);
    }
  }

  // ---------------------------------------------------------------
  // Whitespace and case
  // ---------------------------------------------------------------

  /** Go's unicode.IsSpace. */
  predicate GoSpace(c: char)
  {
    c == '\t' || c == '\n' || c == '\U{000B}' || c == '\U{000C}' || c == '\r' || c == ' '
    || c == '\U{0085}' || c == '\U{00A0}' || c == '\U{1680}'
    || ('\U{2000}' <= c <= '\U{200A}') || c == '\U{2028}' || c == '\U{2029}'
    || c == '\U{202F}' || c == '\U{205F}' || c == '\U{3000}'
  }

  /** ECMAScript WhiteSpace and LineTerminator, as String.prototype.trim strips them. */
  predicate JsSpace(c: char)
  {
    c == '\t' || c == '\n' || c == '\U{000B}' || c == '\U{000C}' || c == '\r' || c == ' '
    || c == '\U{00A0}' || c == '\U{1680}' || ('\U{2000}' <= c <= '\U{200A}')
    || c == '\U{2028}' || c == '\U{2029}' || c == '\U{202F}' || c == '\U{205F}'
    || c == '\U{3000}' || c == '\U{FEFF}'
  }

  /** Drops the leading characters that `space` accepts. */
  function TrimStart(s: string, space: char -> bool): (r: string)
    ensures |r| <= |s| && r == s[|s| - |r|..]
    ensures r != [] ==> !space(r[0])
    ensures forall k :: 0 <= k < |s| - |r| ==> space(s[k])
  {
    if |s| == 0 || !space(s[0]) then s else TrimStart(s[1..], space)
  }

  /** Drops the trailing characters that `space` accepts. */
  function TrimEnd(s: string, space: char -> bool): (r: string)
    ensures |r| <= |s| && r == s[..|r|]
    ensures r != [] ==> !space(r[|r| - 1])
    ensures forall k :: |r| <= k < |s| ==> space(s[k])
  {
    if |s| == 0 || !space(s[|s| - 1]) then s else TrimEnd(s[..|s| - 1], space)
  }

  /** Go's strings.TrimSpace and JavaScript's trim(), for the matching `space`. */
  function Trim(s: string, space: char -> bool): string
  {
    TrimEnd(TrimStart(s, space), space)
  }

  /** JavaScript's String.prototype.trim. */
  function JsTrim(s: string): string
  {
    Trim(s, JsSpace)
  }

  function LowerAscii(c: char): char
  {
    if 'A' <= c <= 'Z' then (c as int + 32) as char else c
  }

  /** Lower-casing of a key name. Only ASCII letters are folded: no other
      character lower-cases to a single ASCII letter the dispatch tables test. */
  function Lower(s: string): (r: string)
    ensures |r| == |s|
  {
    seq(|s|, i requires 0 <= i < |s| => LowerAscii(s[i]))
  }
}

=== FILE: tree.dfy ===
/** The library tree of the UI (static/js/tree.js, duplicated in static/app.js):
    the JSON tree /api/tree returns, its rendering into rows, the order of the
    leaf paths, folder ids, file-size labels and sibling navigation. */
module Tree {
  import opened Text
  import Uri

  // ---------------------------------------------------------------
  // The tree and its order
  // ---------------------------------------------------------------

  /** A JSON value of the tree: an object (a folder) or a number (a file size).
      The rendering tests `val !== null && typeof val === "object"`, so these are
      exactly its two branches. */
  datatype Node = Folder(entries: seq<Entry>) | File(size: nat)

  /** One key of an object with its value; a folder's entries are in the order
      `Object.keys(node).sort()` visits them. */
  datatype Entry = Entry(name: string, node: Node)

  /** The UTF-16 code units of a string: what JavaScript strings are made of. */
  function CodeUnits(s: string): (u: seq<int>)
    ensures |u| >= |s|
  {
    if s == [] then []
    else
      var v := s[0] as int;
      (if v < 0x1_0000 then [v] else [0xD800 + (v - 0x1_0000) / 0x400, 0xDC00 + (v - 0x1_0000) % 0x400])
      + CodeUnits(s[1..])
  }

  /** Strict lexicographic order; a proper prefix comes first. */
  predicate LexLess(a: seq<int>, b: seq<int>)
  {
    b != [] && (a == [] || a[0] < b[0] || (a[0] == b[0] && LexLess(a[1..], b[1..])))
  }

  /** The order of the default `sort()`: by UTF-16 code units. */
  predicate NameBefore(a: string, b: string)
  {
    LexLess(CodeUnits(a), CodeUnits(b))
  }

  lemma {:induction false} LexLessIrreflexive(a: seq<int>)
    ensures !LexLess(a, a)
  {
    if a != [] {
      LexLessIrreflexive(a[1..]);
    }
  }

  predicate SortedNames(es: seq<Entry>)
  {
    forall i, j :: 0 <= i < j < |es| ==> NameBefore(es[i].name, es[j].name)
  }

  /** Every key is a file or directory name and every object's keys are in sorted order. */
  predicate WellFormed(n: Node)
    decreases n
  {
    match n
    case File(_) => true
    case Folder(es) => SortedNames(es) && EntriesWellFormed(es)
  }

  predicate EntriesWellFormed(es: seq<Entry>)
    decreases es
  {
    es == [] || (IsName(es[0].name) && WellFormed(es[0].node) && EntriesWellFormed(es[1..]))
  }

  // ---------------------------------------------------------------
  // Leaves as name sequences (the reference for the rendering)
  // ---------------------------------------------------------------

  /** Each name sequence of ls with `name` in front. */
  function Under(name: string, ls: seq<seq<string>>): (r: seq<seq<string>>)
    ensures |r| == |ls|
    ensures forall i :: 0 <= i < |r| ==> r[i] == [name] + ls[i]
  {
    seq(|ls|, i requires 0 <= i < |ls| => [name] + ls[i])
  }

  /** The names from a node down to each of its files, depth first, entries in order. */
  function LeafNames(n: Node): seq<seq<string>>
    decreases n
  {
    match n
    case File(_) => []
    case Folder(es) => EntriesLeafNames(es)
  }

  function EntriesLeafNames(es: seq<Entry>): seq<seq<string>>
    decreases es
  {
    if es == [] then [] else EntryLeafNames(es[0]) + EntriesLeafNames(es[1..])
  }

  function EntryLeafNames(e: Entry): seq<seq<string>>
    decreases e
  {
    match e.node
    case File(_) => [[e.name]]
    case Folder(_) => Under(e.name, LeafNames(e.node))
  }

  /** The top-level objects of a tree with several keys: each section shows the
      leaves below its key, and a top-level number shows nothing. */
  function SectionLeafNames(top: seq<Entry>): seq<seq<string>>
  {
    if top == [] then [] else Under(top[0].name, LeafNames(top[0].node)) + SectionLeafNames(top[1..])
  }

  predicate NamePath(s: seq<string>)
  {
    |s| >= 1 && AllNames(s)
  }

  /** Strict lexicographic order on name sequences, by NameBefore. */
  predicate SegLess(s: seq<string>, t: seq<string>)
  {
    s != [] && t != [] && (NameBefore(s[0], t[0]) || (s[0] == t[0] && SegLess(s[1..], t[1..])))
  }

  predicate SortedSegs(ls: seq<seq<string>>)
  {
    forall i, j :: 0 <= i < j < |ls| ==> SegLess(ls[i], ls[j])
  }

  predicate Distinct<T(==)>(s: seq<T>)
  {
    forall i, j :: 0 <= i < j < |s| ==> s[i] != s[j]
  }

  // ---------------------------------------------------------------
  // Folder ids (makeId)
  // ---------------------------------------------------------------

  predicate AsciiAlnum(c: char)
  {
    ('a' <= c <= 'z') || ('A' <= c <= 'Z') || ('0' <= c <= '9')
  }

  /** `s.replace(/[^a-zA-Z0-9]/g, "-")`: the pattern has no `u` flag, so it works on
      UTF-16 code units and a character outside the Basic Multilingual Plane becomes "--". */
  function Sanitize(s: string): (r: string)
    ensures |r| == |CodeUnits(s)|
    ensures forall i :: 0 <= i < |r| ==> AsciiAlnum(r[i]) || r[i] == '-'
  {
    if s == [] then ""
    else
      (if AsciiAlnum(s[0]) then [s[0]] else if s[0] as int < 0x1_0000 then "-" else "--")
      + Sanitize(s[1..])
  }

  /** `basePath ? basePath + "/" + name : name`: the relative path of a child. */
  function ChildPath(base: string, name: string): string
  {
    if base == "" then name else base + "/" + name
  }

  function MakeId(base: string, name: string): (id: string)
    ensures |id| == 3 + |CodeUnits(ChildPath(base, name))| && id[..3] == "id-"
    ensures forall i :: 3 <= i < |id| ==> AsciiAlnum(id[i]) || id[i] == '-'
  {
    "id-" + Sanitize(ChildPath(base, name))
  }

  /** Sanitising keeps letters and digits and blanks everything else, so ids of
      different folders can coincide. */
  lemma {:induction false} MakeIdCollides()
    ensures "a b" != "a-b" && MakeId("", "a b") == MakeId("", "a-b")
  {
    assert ("a b")[1] != ("a-b")[1];
    assert Sanitize("a b") == "a-b";
    assert Sanitize("a-b") == "a-b";
  }

  /** A name made of ASCII letters and digits is its own sanitised form. */
  lemma {:induction false} SanitizeAlnum(s: string)
    requires forall i :: 0 <= i < |s| ==> AsciiAlnum(s[i])
    ensures Sanitize(s) == s
  {
    if s != [] {
      SanitizeAlnum(s[1..]);
      assert [s[0]] + s[1..] == s;
    }
  }

  // ---------------------------------------------------------------
  // File sizes (humanSize)
  // ---------------------------------------------------------------

  const UnitNames: seq<string> := ["B", "KB", "MB", "GB", "TB"]

  function Pow1024(i: nat): (p: nat)
    ensures p >= 1 && (i >= 1 ==> p >= 1024)
  {
    if i == 0 then 1 else 1024 * Pow1024(i - 1)
  }

  /** The unit humanSize picks: how many times the value stays at least 1024
      under repeated division by 1024, at most 4. */
  function UnitIndex(n: nat): (i: nat)
    ensures i <= 4
    ensures i == 0 || n >= Pow1024(i)
    ensures i == 4 || n < Pow1024(i + 1)
  {
    UnitFrom(n, 0)
  }

  function UnitFrom(n: nat, i: nat): (k: nat)
    requires i <= 4 && (i == 0 || n >= Pow1024(i))
    ensures i <= k <= 4 && (k == 0 || n >= Pow1024(k))
    ensures k == 4 || n < Pow1024(k + 1)
    decreases 4 - i
  {
    if i < 4 && n >= Pow1024(i + 1) then UnitFrom(n, i + 1) else i
  }

  /** The tenths shown for a size in unit i >= 1: the exact quotient n / 1024^i
      times ten, rounded half up. */
  function Tenths(n: nat, i: nat): nat
  {
    (10 * n + Pow1024(i) / 2) / Pow1024(i)
  }

  /** humanSize for a file size: bytes as a whole number with "B"; from 1024 on, one
      decimal and the unit UnitIndex picks. */
  function HumanSize(n: nat): (r: string)
    ensures n < 1024 ==> r == DecimalString(n) + " B"
    ensures n >= 1024 ==>
      |r| >= 6 && r[|r| - 5] == '.' && IsDigit(r[|r| - 4]) && r[|r| - 3..] == " " + UnitNames[UnitIndex(n)]
  {
    var i := UnitIndex(n);
    assert Pow1024(1) == 1024;
    assert n >= 1024 <==> i >= 1;
    var digits :=
      if i == 0 then DecimalString(n)
      else DecimalString(Tenths(n, i) / 10) + "." + [DigitChar(Tenths(n, i) % 10)];
    digits + " " + UnitNames[i]
  }

  // ---------------------------------------------------------------
  // Rendering (renderFolder and the root handling of loadTree)
  // ---------------------------------------------------------------

  /** A rendered row: a folder's collapsible section, or a `.file-item` carrying
      its `data-path` and its size label. */
  datatype Row = FolderRow(id: string) | FileRow(path: string, sizeText: string)

  /** The number of keys anywhere below a node, files and folders alike. */
  function Size(n: Node): nat
    decreases n
  {
    match n
    case File(_) => 0
    case Folder(es) => EntriesSize(es)
  }

  function EntriesSize(es: seq<Entry>): nat
    decreases es
  {
    if es == [] then 0 else EntrySize(es[0]) + EntriesSize(es[1..])
  }

  function EntrySize(e: Entry): nat
    decreases e
  {
    1 + Size(e.node)
  }

  /** renderFolder: one row for every key below the node, a section for a folder
      and a `.file-item` for a file. */
  function Render(n: Node, base: string): (r: seq<Row>)
    ensures |r| == Size(n)
    decreases n
  {
    match n
    case File(_) => []
    case Folder(es) => RenderEntries(es, base)
  }

  function RenderEntries(es: seq<Entry>, base: string): (r: seq<Row>)
    ensures |r| == EntriesSize(es)
    decreases es
  {
    if es == [] then []
    else RenderEntry(es[0], base) + RenderEntries(es[1..], base)
  }

  function RenderEntry(e: Entry, base: string): (r: seq<Row>)
    ensures |r| == EntrySize(e) && r[0] == (if e.node.File? then FileRow(ChildPath(base, e.name), HumanSize(e.node.size))
      else FolderRow(MakeId(base, e.name)))
    decreases e
  {
    match e.node
    case Folder(_) => [FolderRow(MakeId(base, e.name))] + Render(e.node, ChildPath(base, e.name))
    case File(size) => [FileRow(ChildPath(base, e.name), HumanSize(size))]
  }

  /** loadTree: with exactly one top-level key its value is rendered with an empty
      base; otherwise each key gets its own section and is the base of its value. */
  function RenderRoot(top: seq<Entry>): (r: seq<Row>)
    ensures |top| == 1 ==> |r| == Size(top[0].node)
    ensures |top| != 1 ==> |r| == EntriesSize(top)
  {
    if |top| == 1 then Render(top[0].node, "") else RenderSections(top)
  }

  /** One section per top-level key, file or folder, holding the key's rendering. */
  function RenderSections(top: seq<Entry>): (r: seq<Row>)
    ensures |r| == EntriesSize(top)
  {
    if top == [] then []
    else [FolderRow(MakeId("", top[0].name))] + Render(top[0].node, top[0].name) + RenderSections(top[1..])
  }

  /** getOrderedFilePaths: the `data-path` of every `.file-item`, in document
      order, dropping empty ones (`filter(Boolean)`). */
  function FilePaths(rows: seq<Row>): (r: seq<string>)
    ensures forall i :: 0 <= i < |r| ==> r[i] != ""
  {
    if rows == [] then []
    else (if rows[0].FileRow? && rows[0].path != "" then [rows[0].path] else []) + FilePaths(rows[1..])
  }

  /** Every listed path is the `data-path` of some `.file-item` row. */
  lemma {:induction false} FilePathsFromRows(rows: seq<Row>)
    ensures forall p :: p in FilePaths(rows) ==> exists k :: 0 <= k < |rows| && rows[k].FileRow? && rows[k].path == p
    decreases |rows|
  {
    if rows != [] {
      FilePathsFromRows(rows[1..]);
      var rest := FilePaths(rows[1..]);
      forall p | p in rest ensures exists k :: 0 <= k < |rows| && rows[k].FileRow? && rows[k].path == p {
        var k :| 0 <= k < |rows[1..]| && rows[1..][k].FileRow? && rows[1..][k].path == p;
        assert rows[k + 1] == rows[1..][k];
      }
    }
  }

  /** The relative paths of the given name sequences below `base`. */
  function PathsBelow(base: string, ls: seq<seq<string>>): (r: seq<string>)
    ensures |r| == |ls|
  {
    seq(|ls|, i requires 0 <= i < |ls| => ChildPath(base, Join(ls[i])))
  }

  // ---------------------------------------------------------------
  // What the rendering shows
  // ---------------------------------------------------------------

  lemma {:induction false} JoinCons(a: string, s: seq<string>)
    requires |s| >= 1
    ensures Join([a] + s) == a + "/" + Join(s)
    decreases |s|
  {
    var n := |s|;
    assert ([a] + s)[..n] == [a] + s[..n - 1];
    assert ([a] + s)[n] == s[n - 1];
    if n > 1 {
      JoinCons(a, s[..n - 1]);
      assert s[..n - 1][..n - 2] == s[..n - 2];
    }
  }

  lemma {:induction false} ChildOfChild(base: string, name: string, s: seq<string>)
    requires name != "" && |s| >= 1
    ensures ChildPath(ChildPath(base, name), Join(s)) == ChildPath(base, Join([name] + s))
  {
    JoinCons(name, s);
  }

  /** A member of Under(name, ls) is name in front of a member of ls. */
  lemma {:induction false} UnderMember(name: string, ls: seq<seq<string>>, s: seq<string>) returns (t: seq<string>)
    requires s in Under(name, ls)
    ensures t in ls && s == [name] + t
  {
    var k :| 0 <= k < |ls| && s == Under(name, ls)[k];
    t := ls[k];
  }

  lemma {:induction false} PathsBelowUnder(base: string, name: string, ls: seq<seq<string>>)
    requires name != "" && forall i :: 0 <= i < |ls| ==> |ls[i]| >= 1
    ensures PathsBelow(ChildPath(base, name), ls) == PathsBelow(base, Under(name, ls))
  {
    forall i | 0 <= i < |ls|
      ensures PathsBelow(ChildPath(base, name), ls)[i] == PathsBelow(base, Under(name, ls))[i]
    {
      ChildOfChild(base, name, ls[i]);
    }
  }

  lemma {:induction false} PathsBelowAppend(base: string, a: seq<seq<string>>, b: seq<seq<string>>)
    ensures PathsBelow(base, a + b) == PathsBelow(base, a) + PathsBelow(base, b)
  {
  }

  lemma {:induction false} FilePathsAppend(a: seq<Row>, b: seq<Row>)
    ensures FilePaths(a + b) == FilePaths(a) + FilePaths(b)
    decreases |a|
  {
    if a == [] {
      assert a + b == b;
    } else {
      assert (a + b)[1..] == a[1..] + b;
      FilePathsAppend(a[1..], b);
    }
  }

  /** Every leaf of a well-formed tree is reached through at least one name. */
  lemma {:induction false} LeafNamesArePaths(n: Node)
    requires WellFormed(n)
    ensures forall i :: 0 <= i < |LeafNames(n)| ==> NamePath(LeafNames(n)[i])
    decreases n
  {
    match n
    case File(_) =>
    case Folder(es) => EntriesLeafNamesArePaths(es);
  }

  lemma {:induction false} EntriesLeafNamesArePaths(es: seq<Entry>)
    requires EntriesWellFormed(es)
    ensures forall i :: 0 <= i < |EntriesLeafNames(es)| ==> NamePath(EntriesLeafNames(es)[i])
    decreases es
  {
    if es != [] {
      EntriesLeafNamesArePaths(es[1..]);
      assert EntriesLeafNames(es) == EntryLeafNames(es[0]) + EntriesLeafNames(es[1..]);
      match es[0].node
      case File(_) =>
      case Folder(_) => LeafNamesArePaths(es[0].node);
    }
  }

  /** renderFolder shows, as `.file-item` paths and in order, the path below
      `base` of every leaf of the node. */
  lemma {:induction false} RenderPaths(n: Node, base: string)
    requires WellFormed(n)
    ensures FilePaths(Render(n, base)) == PathsBelow(base, LeafNames(n))
    decreases n
  {
    match n
    case File(_) =>
    case Folder(es) => RenderEntriesPaths(es, base);
  }

  lemma {:induction false} RenderEntriesPaths(es: seq<Entry>, base: string)
    requires EntriesWellFormed(es)
    ensures FilePaths(RenderEntries(es, base)) == PathsBelow(base, EntriesLeafNames(es))
    decreases es
  {
    if es != [] {
      RenderEntriesPaths(es[1..], base);
      RenderEntryPaths(es[0], base);
      FilePathsAppend(RenderEntry(es[0], base), RenderEntries(es[1..], base));
      PathsBelowAppend(base, EntryLeafNames(es[0]), EntriesLeafNames(es[1..]));
    }
  }

  lemma {:induction false} RenderEntryPaths(e: Entry, base: string)
    requires IsName(e.name) && WellFormed(e.node)
    ensures FilePaths(RenderEntry(e, base)) == PathsBelow(base, EntryLeafNames(e))
    decreases e
  {
    match e.node
    case File(_) =>
      assert Join([e.name]) == e.name;
      assert FilePaths(RenderEntry(e, base)) == [ChildPath(base, e.name)];
    case Folder(_) =>
      var cb := ChildPath(base, e.name);
      FilePathsAppend([FolderRow(MakeId(base, e.name))], Render(e.node, cb));
      RenderPaths(e.node, cb);
      LeafNamesArePaths(e.node);
      PathsBelowUnder(base, e.name, LeafNames(e.node));
  }

  /** With exactly one top-level key the key itself is not part of any path. */
  lemma {:induction false} SingleRootPaths(top: seq<Entry>)
    requires |top| == 1 && WellFormed(top[0].node)
    ensures FilePaths(RenderRoot(top)) == PathsBelow("", LeafNames(top[0].node))
  {
    RenderPaths(top[0].node, "");
  }

  lemma {:induction false} SectionsPaths(top: seq<Entry>)
    requires EntriesWellFormed(top)
    ensures FilePaths(RenderSections(top)) == PathsBelow("", SectionLeafNames(top))
    decreases |top|
  {
    if top != [] {
      var e := top[0];
      SectionsPaths(top[1..]);
      FilePathsAppend([FolderRow(MakeId("", e.name))], Render(e.node, e.name));
      FilePathsAppend([FolderRow(MakeId("", e.name))] + Render(e.node, e.name), RenderSections(top[1..]));
      RenderPaths(e.node, e.name);
      LeafNamesArePaths(e.node);
      PathsBelowUnder("", e.name, LeafNames(e.node));
      PathsBelowAppend("", Under(e.name, LeafNames(e.node)), SectionLeafNames(top[1..]));
    }
  }

  lemma {:induction false} SectionLeafNamesStartWithKey(top: seq<Entry>)
    requires EntriesWellFormed(top)
    ensures forall s :: s in SectionLeafNames(top) ==>
      |s| >= 2 && AllNames(s) && exists k :: 0 <= k < |top| && s[0] == top[k].name
    decreases |top|
  {
    if top != [] {
      SectionLeafNamesStartWithKey(top[1..]);
      LeafNamesArePaths(top[0].node);
      var rest := SectionLeafNames(top[1..]);
      forall s | s in SectionLeafNames(top)
        ensures |s| >= 2 && AllNames(s) && exists k :: 0 <= k < |top| && s[0] == top[k].name
      {
        if s in rest {
          var k :| 0 <= k < |top[1..]| && s[0] == top[1..][k].name;
          assert s[0] == top[k + 1].name;
        } else {
          var ls := LeafNames(top[0].node);
          var i :| 0 <= i < |ls| && s == Under(top[0].name, ls)[i];
          assert NamePath(ls[i]);
          assert s == [top[0].name] + ls[i];
        }
      }
    }
  }

  lemma {:induction false} KeyedPath(s: seq<string>)
    requires |s| >= 2
    ensures ChildPath("", Join(s)) == s[0] + "/" + Join(s[1..])
  {
    JoinCons(s[0], s[1..]);
    assert [s[0]] + s[1..] == s;
  }

  /** With several top-level keys every path starts with its own key and a '/'. */
  lemma {:induction false} SectionRootPaths(top: seq<Entry>)
    requires |top| != 1 && EntriesWellFormed(top)
    ensures FilePaths(RenderRoot(top)) == PathsBelow("", SectionLeafNames(top))
    ensures forall p :: p in FilePaths(RenderRoot(top)) ==>
      exists k, rest :: 0 <= k < |top| && p == top[k].name + "/" + rest
  {
    SectionsPaths(top);
    SectionLeafNamesStartWithKey(top);
    var ls := SectionLeafNames(top);
    var paths := PathsBelow("", ls);
    assert FilePaths(RenderRoot(top)) == paths;
    forall p | p in paths
      ensures exists k, rest :: 0 <= k < |top| && p == top[k].name + "/" + rest
    {
      var i :| 0 <= i < |ls| && p == paths[i];
      var s := ls[i];
      assert s in ls;
      var k :| 0 <= k < |top| && s[0] == top[k].name;
      KeyedPath(s);
      assert p == top[k].name + "/" + Join(s[1..]);
    }
  }

  // ---------------------------------------------------------------
  // Order and uniqueness of the leaf paths
  // ---------------------------------------------------------------

  lemma {:induction false} SegLessIrreflexive(s: seq<string>)
    ensures !SegLess(s, s)
  {
    if s != [] {
      LexLessIrreflexive(CodeUnits(s[0]));
      SegLessIrreflexive(s[1..]);
    }
  }

  lemma {:induction false} SortedAppend(a: seq<seq<string>>, b: seq<seq<string>>)
    requires SortedSegs(a) && SortedSegs(b)
    requires forall i, j :: 0 <= i < |a| && 0 <= j < |b| ==> SegLess(a[i], b[j])
    ensures SortedSegs(a + b)
  {
    forall i, j | 0 <= i < j < |a + b| ensures SegLess((a + b)[i], (a + b)[j]) {
      if j < |a| {
        assert (a + b)[i] == a[i] && (a + b)[j] == a[j];
      } else if i < |a| {
        assert (a + b)[i] == a[i] && (a + b)[j] == b[j - |a|];
      } else {
        assert (a + b)[i] == b[i - |a|] && (a + b)[j] == b[j - |a|];
      }
    }
  }

  lemma {:induction false} UnderSorted(name: string, ls: seq<seq<string>>)
    requires SortedSegs(ls)
    ensures SortedSegs(Under(name, ls))
  {
    var u := Under(name, ls);
    forall i, j | 0 <= i < j < |u| ensures SegLess(u[i], u[j]) {
      assert u[i][1..] == ls[i] && u[j][1..] == ls[j];
    }
  }

  lemma {:induction false} EntryLeafNamesStartWithName(e: Entry)
    ensures forall t :: t in EntryLeafNames(e) ==> t != [] && t[0] == e.name
  {
  }

  lemma {:induction false} EntriesLeafNamesAfter(x: string, es: seq<Entry>)
    requires forall k :: 0 <= k < |es| ==> NameBefore(x, es[k].name)
    ensures forall t :: t in EntriesLeafNames(es) ==> t != [] && NameBefore(x, t[0])
    decreases |es|
  {
    if es != [] {
      EntriesLeafNamesAfter(x, es[1..]);
      EntryLeafNamesStartWithName(es[0]);
    }
  }

  lemma {:induction false} SectionLeafNamesAfter(x: string, top: seq<Entry>)
    requires forall k :: 0 <= k < |top| ==> NameBefore(x, top[k].name)
    ensures forall t :: t in SectionLeafNames(top) ==> t != [] && NameBefore(x, t[0])
    decreases |top|
  {
    if top != [] {
      SectionLeafNamesAfter(x, top[1..]);
    }
  }

  /** The leaves of a well-formed node come depth first with the names sorted at
      every level: files and folders interleave by name. */
  lemma {:induction false} LeafNamesSorted(n: Node)
    requires WellFormed(n)
    ensures SortedSegs(LeafNames(n))
    decreases n
  {
    match n
    case File(_) =>
    case Folder(es) => EntriesLeafNamesSorted(es);
  }

  lemma {:induction false} EntriesLeafNamesSorted(es: seq<Entry>)
    requires SortedNames(es) && EntriesWellFormed(es)
    ensures SortedSegs(EntriesLeafNames(es))
    decreases es
  {
    if es != [] {
      var e := es[0];
      assert SortedNames(es[1..]) by {
        forall i, j | 0 <= i < j < |es[1..]| ensures NameBefore(es[1..][i].name, es[1..][j].name) {
          assert es[1..][i] == es[i + 1] && es[1..][j] == es[j + 1];
        }
      }
      EntriesLeafNamesSorted(es[1..]);
      match e.node {
        case File(_) =>
        case Folder(_) =>
          LeafNamesSorted(e.node);
          UnderSorted(e.name, LeafNames(e.node));
      }
      assert forall k :: 0 <= k < |es[1..]| ==> NameBefore(e.name, es[1..][k].name) by {
        forall k | 0 <= k < |es[1..]| ensures NameBefore(e.name, es[1..][k].name) {
          assert es[1..][k] == es[k + 1];
        }
      }
      EntriesLeafNamesAfter(e.name, es[1..]);
      EntryLeafNamesStartWithName(e);
      var a := EntryLeafNames(e);
      var b := EntriesLeafNames(es[1..]);
      forall i, j | 0 <= i < |a| && 0 <= j < |b| ensures SegLess(a[i], b[j]) {
        assert a[i] in a && b[j] in b;
      }
      SortedAppend(a, b);
    }
  }

  lemma {:induction false} SectionLeafNamesSorted(top: seq<Entry>)
    requires SortedNames(top) && EntriesWellFormed(top)
    ensures SortedSegs(SectionLeafNames(top))
    decreases |top|
  {
    if top != [] {
      var e := top[0];
      assert SortedNames(top[1..]) by {
        forall i, j | 0 <= i < j < |top[1..]| ensures NameBefore(top[1..][i].name, top[1..][j].name) {
          assert top[1..][i] == top[i + 1] && top[1..][j] == top[j + 1];
        }
      }
      SectionLeafNamesSorted(top[1..]);
      LeafNamesSorted(e.node);
      UnderSorted(e.name, LeafNames(e.node));
      assert forall k :: 0 <= k < |top[1..]| ==> NameBefore(e.name, top[1..][k].name) by {
        forall k | 0 <= k < |top[1..]| ensures NameBefore(e.name, top[1..][k].name) {
          assert top[1..][k] == top[k + 1];
        }
      }
      SectionLeafNamesAfter(e.name, top[1..]);
      var a := Under(e.name, LeafNames(e.node));
      var b := SectionLeafNames(top[1..]);
      forall i, j | 0 <= i < |a| && 0 <= j < |b| ensures SegLess(a[i], b[j]) {
        assert b[j] in b;
      }
      SortedAppend(a, b);
    }
  }

  lemma {:induction false} SortedDistinct(ls: seq<seq<string>>)
    requires SortedSegs(ls)
    ensures Distinct(ls)
  {
    forall i, j | 0 <= i < j < |ls| ensures ls[i] != ls[j] {
      SegLessIrreflexive(ls[i]);
    }
  }

  lemma {:induction false} PathsDistinct(ls: seq<seq<string>>)
    requires Distinct(ls) && forall i :: 0 <= i < |ls| ==> NamePath(ls[i])
    ensures Distinct(PathsBelow("", ls))
  {
    forall i, j | 0 <= i < j < |ls| ensures PathsBelow("", ls)[i] != PathsBelow("", ls)[j] {
      if Join(ls[i]) == Join(ls[j]) {
        JoinInjective(ls[i], ls[j]);
      }
    }
  }

  /** No two rendered files carry the same path. */
  lemma {:induction false} RenderedPathsDistinct(top: seq<Entry>)
    requires WellFormed(Folder(top))
    ensures Distinct(FilePaths(RenderRoot(top)))
  {
    if |top| == 1 {
      SingleRootPaths(top);
      LeafNamesSorted(top[0].node);
      SortedDistinct(LeafNames(top[0].node));
      LeafNamesArePaths(top[0].node);
      PathsDistinct(LeafNames(top[0].node));
    } else {
      SectionRootPaths(top);
      SectionLeafNamesSorted(top);
      SortedDistinct(SectionLeafNames(top));
      SectionLeafNamesStartWithKey(top);
      var ls := SectionLeafNames(top);
      assert forall i :: 0 <= i < |ls| ==> NamePath(ls[i]) by {
        forall i | 0 <= i < |ls| ensures NamePath(ls[i]) {
          assert ls[i] in ls;
        }
      }
      PathsDistinct(ls);
    }
  }

  // ---------------------------------------------------------------
  // Siblings and navigation
  // ---------------------------------------------------------------

  /** The ordered paths whose directory is `dir`, in order (the filter of getSiblingPaths). */
  function SameDir(paths: seq<string>, dir: string): (r: seq<string>)
    ensures |r| <= |paths|
  {
    if paths == [] then []
    else (if DirOf(paths[0]) == dir then [paths[0]] else []) + SameDir(paths[1..], dir)
  }

  /** getSiblingPaths: nothing for an empty path, otherwise the ordered file paths
      in the same directory as `p`. */
  function SiblingPaths(rows: seq<Row>, p: string): (r: seq<string>)
    ensures p == "" ==> r == []
    ensures forall x :: x in r ==> x in FilePaths(rows) && x != "" && DirOf(x) == DirOf(p)
  {
    if p == "" then []
    else
      SameDirMembers(FilePaths(rows), DirOf(p));
      SameDir(FilePaths(rows), DirOf(p))
  }

  lemma {:induction false} SameDirMembers(paths: seq<string>, dir: string)
    ensures forall x :: x in SameDir(paths, dir) <==> x in paths && DirOf(x) == dir
    decreases |paths|
  {
    if paths != [] {
      SameDirMembers(paths[1..], dir);
      assert paths == [paths[0]] + paths[1..];
    }
  }

  lemma {:induction false} SameDirDistinct(paths: seq<string>, dir: string)
    requires Distinct(paths)
    ensures Distinct(SameDir(paths, dir))
    decreases |paths|
  {
    if paths != [] {
      SameDirDistinct(paths[1..], dir);
      SameDirMembers(paths[1..], dir);
      var r := SameDir(paths, dir);
      var rest := SameDir(paths[1..], dir);
      assert paths[0] !in paths[1..];
      if DirOf(paths[0]) == dir {
        forall i, j | 0 <= i < j < |r| ensures r[i] != r[j] {
          if i == 0 {
            assert r[j] == rest[j - 1] && rest[j - 1] in rest;
          } else {
            assert r[i] == rest[i - 1] && r[j] == rest[j - 1];
          }
        }
      }
    }
  }

  /** getSiblingPaths(p) holds exactly the rendered paths in p's directory. */
  lemma {:induction false} SiblingPathsMembers(rows: seq<Row>, p: string, x: string)
    ensures x in SiblingPaths(rows, p) <==> p != "" && x in FilePaths(rows) && DirOf(x) == DirOf(p)
  {
    SameDirMembers(FilePaths(rows), DirOf(p));
  }

  /** `indexOf`: the first position of x, or -1. */
  function IndexOf(s: seq<string>, x: string): (i: int)
    ensures -1 <= i < |s|
    ensures i == -1 <==> x !in s
    ensures i >= 0 ==> s[i] == x && x !in s[..i]
  {
    if s == [] then -1
    else if s[0] == x then 0
    else
      var j := IndexOf(s[1..], x);
      assert j >= 0 ==> s[..j + 1] == [s[0]] + s[1..][..j];
      if j == -1 then -1 else j + 1
  }

  lemma {:induction false} IndexOfDistinct(s: seq<string>, k: nat)
    requires Distinct(s) && k < |s|
    ensures IndexOf(s, s[k]) == k
  {
    assert s[k] in s;
    var i := IndexOf(s, s[k]);
    assert forall j :: 0 <= j < i ==> s[..i][j] == s[j];
  }

  /** The outcome of goToNextSibling / goToPrevSibling: `false` with no effect, or
      `true` after setting the fragment to the encoded path and emitting a
      file-selected event carrying it. */
  datatype Nav = Stay | Go(fragment: string, selected: string)

  /** goToNextSibling (static/js/tree.js). */
  function NextSibling(rows: seq<Row>, p: string): (r: Nav)
    ensures r.Go? ==> r.fragment == Uri.Encode(r.selected)
  {
    var siblings := SiblingPaths(rows, p);
    var idx := IndexOf(siblings, p);
    if idx == -1 then Stay
    else if idx < |siblings| - 1 then
      Go(Uri.Encode(siblings[idx + 1]), siblings[idx + 1])
    else Stay
  }

  /** goToPrevSibling (static/js/tree.js). */
  function PrevSibling(rows: seq<Row>, p: string): (r: Nav)
    ensures r.Go? ==> r.fragment == Uri.Encode(r.selected)
  {
    var siblings := SiblingPaths(rows, p);
    var idx := IndexOf(siblings, p);
    if idx > 0 then
      Go(Uri.Encode(siblings[idx - 1]), siblings[idx - 1])
    else Stay
  }

  /** Both moves go from a listed file to another listed file of the same folder. */
  lemma {:induction false} SiblingMovesStayInFolder(rows: seq<Row>, p: string)
    ensures var r := NextSibling(rows, p);
      r.Go? ==> p in FilePaths(rows) && r.selected in FilePaths(rows) && DirOf(r.selected) == DirOf(p)
    ensures var r := PrevSibling(rows, p);
      r.Go? ==> p in FilePaths(rows) && r.selected in FilePaths(rows) && DirOf(r.selected) == DirOf(p)
  {
    var siblings := SiblingPaths(rows, p);
    var idx := IndexOf(siblings, p);
    SameDirMembers(FilePaths(rows), DirOf(p));
    if 0 <= idx < |siblings| - 1 {
      assert siblings[idx + 1] in siblings;
    }
    if 0 < idx < |siblings| {
      assert siblings[idx - 1] in siblings;
    }
  }

  lemma {:induction false} SameSiblings(rows: seq<Row>, p: string, q: string)
    requires p != "" && q != "" && DirOf(p) == DirOf(q)
    ensures SiblingPaths(rows, p) == SiblingPaths(rows, q)
  {
  }

  /** Every sibling is a non-empty path in p's directory. */
  lemma {:induction false} SiblingAt(rows: seq<Row>, p: string, k: nat)
    requires k < |SiblingPaths(rows, p)|
    ensures var x := SiblingPaths(rows, p)[k]; x != "" && DirOf(x) == DirOf(p)
  {
    var x := SiblingPaths(rows, p)[k];
    SiblingPathsMembers(rows, p, x);
  }

  /** With distinct paths, stepping to the next sibling and back returns to p. */
  lemma {:induction false} NextThenPrev(rows: seq<Row>, p: string)
    requires Distinct(FilePaths(rows)) && NextSibling(rows, p).Go?
    ensures PrevSibling(rows, NextSibling(rows, p).selected) == Go(Uri.Encode(p), p)
  {
    var siblings := SiblingPaths(rows, p);
    var idx := IndexOf(siblings, p);
    var q := NextSibling(rows, p).selected;
    assert q == siblings[idx + 1];
    SiblingAt(rows, p, idx + 1);
    SameSiblings(rows, p, q);
    SameDirDistinct(FilePaths(rows), DirOf(p));
    IndexOfDistinct(siblings, idx + 1);
  }

  /** With distinct paths, stepping to the previous sibling and forward returns to p. */
  lemma {:induction false} PrevThenNext(rows: seq<Row>, p: string)
    requires Distinct(FilePaths(rows)) && PrevSibling(rows, p).Go?
    ensures NextSibling(rows, PrevSibling(rows, p).selected) == Go(Uri.Encode(p), p)
  {
    var siblings := SiblingPaths(rows, p);
    var idx := IndexOf(siblings, p);
    var q := PrevSibling(rows, p).selected;
    assert q == siblings[idx - 1];
    SiblingAt(rows, p, idx - 1);
    SameSiblings(rows, p, q);
    SameDirDistinct(FilePaths(rows), DirOf(p));
    IndexOfDistinct(siblings, idx - 1);
  }

  /** A rendered file is among its own siblings, so navigation from it stays put
      only at the ends of its directory. */
  lemma {:induction false} NextStaysOnlyAtEnd(rows: seq<Row>, p: string)
    requires Distinct(FilePaths(rows))
    ensures NextSibling(rows, p).Stay? <==>
      p !in FilePaths(rows)
      || (SiblingPaths(rows, p) != [] && SiblingPaths(rows, p)[|SiblingPaths(rows, p)| - 1] == p)
  {
    var siblings := SiblingPaths(rows, p);
    SiblingPathsMembers(rows, p, p);
    if p in FilePaths(rows) {
      SameDirDistinct(FilePaths(rows), DirOf(p));
      IndexOfDistinct(siblings, |siblings| - 1);
    }
  }

  lemma {:induction false} PrevStaysOnlyAtStart(rows: seq<Row>, p: string)
    requires Distinct(FilePaths(rows))
    ensures PrevSibling(rows, p).Stay? <==>
      p !in FilePaths(rows) || (SiblingPaths(rows, p) != [] && SiblingPaths(rows, p)[0] == p)
  {
    var siblings := SiblingPaths(rows, p);
    SiblingPathsMembers(rows, p, p);
    if p in FilePaths(rows) {
      SameDirDistinct(FilePaths(rows), DirOf(p));
      IndexOfDistinct(siblings, 0);
    }
  }

  // ---------------------------------------------------------------
  // Folder ids opened by expandToPath
  // ---------------------------------------------------------------

  /** The `base` of expandToPath after i segments, starting from `start`:
      `base = base ? base + "/" + segment : segment`. */
  function BaseAt(start: string, segs: seq<string>, i: nat): string
    requires i <= |segs|
  {
    if i == 0 then start else ChildPath(BaseAt(start, segs, i - 1), segs[i - 1])
  }

  /** The ids of the collapsible sections expandToPath opens: one per segment
      but the last, each the sanitised path so far. */
  function ExpandIds(relPath: string): (ids: seq<string>)
    ensures relPath != "" ==> |ids| == |Split(relPath)| - 1
  {
    if relPath == "" then []
    else
      var segs := Split(relPath);
      seq(|segs| - 1, i requires 0 <= i < |segs| - 1 => "id-" + Sanitize(BaseAt("", segs, i + 1)))
  }

  lemma {:induction false} BaseAtJoin(segs: seq<string>, i: nat)
    requires AllNames(segs) && i <= |segs|
    ensures BaseAt("", segs, i) == Join(segs[..i])
  {
    if i > 0 {
      BaseAtJoin(segs, i - 1);
      assert segs[..i][..i - 1] == segs[..i - 1];
      if i > 1 {
        JoinNonEmpty(segs[..i - 1]);
      }
    }
  }

  /** expandToPath opens exactly the proper prefixes of a path made of names,
      shortest first. */
  lemma {:induction false} ExpandVisitsPrefixes(segs: seq<string>)
    requires NamePath(segs)
    ensures |ExpandIds(Join(segs))| == |segs| - 1
    ensures forall i :: 0 <= i < |segs| - 1 ==> ExpandIds(Join(segs))[i] == "id-" + Sanitize(Join(segs[..i + 1]))
  {
    JoinNonEmpty(segs);
    SplitJoin(segs);
    forall i | 0 <= i < |segs| - 1
      ensures ExpandIds(Join(segs))[i] == "id-" + Sanitize(Join(segs[..i + 1]))
    {
      BaseAtJoin(segs, i + 1);
    }
  }

  lemma {:induction false} BaseAtShift(start: string, name: string, t: seq<string>, i: nat)
    requires 1 <= i <= |t| + 1
    ensures BaseAt(start, [name] + t, i) == BaseAt(ChildPath(start, name), t, i - 1)
  {
    if i > 1 {
      BaseAtShift(start, name, t, i - 1);
      assert ([name] + t)[i - 1] == t[i - 2];
    }
  }

  /** Each folder on the way to a leaf has been rendered with the id expandToPath
      computes for it. */
  lemma {:induction false} RenderHasFolders(n: Node, base: string, s: seq<string>, i: nat)
    requires WellFormed(n) && s in LeafNames(n) && i < |s| - 1
    ensures FolderRow(MakeId(BaseAt(base, s, i), s[i])) in Render(n, base)
    decreases n
  {
    match n
    case Folder(es) => EntriesHaveFolders(es, base, s, i);
  }

  lemma {:induction false} EntriesHaveFolders(es: seq<Entry>, base: string, s: seq<string>, i: nat)
    requires EntriesWellFormed(es) && s in EntriesLeafNames(es) && i < |s| - 1
    ensures FolderRow(MakeId(BaseAt(base, s, i), s[i])) in RenderEntries(es, base)
    decreases es
  {
    if s in EntryLeafNames(es[0]) {
      EntryHasFolders(es[0], base, s, i);
    } else {
      EntriesHaveFolders(es[1..], base, s, i);
    }
  }

  lemma {:induction false} EntryHasFolders(e: Entry, base: string, s: seq<string>, i: nat)
    requires WellFormed(e.node) && s in EntryLeafNames(e) && i < |s| - 1
    ensures FolderRow(MakeId(BaseAt(base, s, i), s[i])) in RenderEntry(e, base)
    decreases e
  {
    match e.node
    case Folder(_) =>
      var t := UnderMember(e.name, LeafNames(e.node), s);
      if i > 0 {
        BaseAtShift(base, e.name, t, i);
        assert s[i] == t[i - 1];
        RenderHasFolders(e.node, ChildPath(base, e.name), t, i - 1);
      }
  }

  lemma {:induction false} SectionHasFolders(e: Entry, t: seq<string>, i: nat)
    requires WellFormed(e.node) && t in LeafNames(e.node) && i < |t|
    ensures FolderRow(MakeId(BaseAt("", [e.name] + t, i), ([e.name] + t)[i]))
      in [FolderRow(MakeId("", e.name))] + Render(e.node, e.name)
  {
    var s := [e.name] + t;
    var head := [FolderRow(MakeId("", e.name))];
    if i == 0 {
      assert BaseAt("", s, 0) == "" && s[0] == e.name;
      assert head[0] == FolderRow(MakeId(BaseAt("", s, i), s[i]));
    } else {
      BaseAtShift("", e.name, t, i);
      assert ChildPath("", e.name) == e.name;
      assert s[i] == t[i - 1];
      RenderHasFolders(e.node, e.name, t, i - 1);
    }
  }

  lemma {:induction false} SectionsHaveFolders(top: seq<Entry>, s: seq<string>, i: nat)
    requires EntriesWellFormed(top) && s in SectionLeafNames(top) && i < |s| - 1
    ensures FolderRow(MakeId(BaseAt("", s, i), s[i])) in RenderSections(top)
    decreases |top|
  {
    var e := top[0];
    var ls := LeafNames(e.node);
    var head := [FolderRow(MakeId("", e.name))] + Render(e.node, e.name);
    assert RenderSections(top) == head + RenderSections(top[1..]);
    assert SectionLeafNames(top) == Under(e.name, ls) + SectionLeafNames(top[1..]);
    if s in Under(e.name, ls) {
      var t := UnderMember(e.name, ls, s);
      SectionHasFolders(e, t, i);
    } else {
      SectionsHaveFolders(top[1..], s, i);
    }
  }

  lemma {:induction false} ExpandIdsCount(s: seq<string>)
    requires NamePath(s)
    ensures |ExpandIds(Join(s))| == |s| - 1
  {
    JoinNonEmpty(s);
    SplitJoin(s);
  }

  lemma {:induction false} ExpandIdIsMakeId(s: seq<string>, i: nat)
    requires NamePath(s) && i < |s| - 1
    ensures |ExpandIds(Join(s))| == |s| - 1
    ensures ExpandIds(Join(s))[i] == MakeId(BaseAt("", s, i), s[i])
  {
    JoinNonEmpty(s);
    SplitJoin(s);
    var ids := ExpandIds(Join(s));
    assert ids[i] == "id-" + Sanitize(BaseAt("", s, i + 1));
  }

  /** A rendered file's path joins the names on the way to one of its leaves. */
  lemma {:induction false} RenderedFileLeaf(top: seq<Entry>, p: string) returns (s: seq<string>)
    requires WellFormed(Folder(top)) && p in FilePaths(RenderRoot(top))
    ensures NamePath(s) && p == Join(s)
    ensures |top| == 1 ==> s in LeafNames(top[0].node)
    ensures |top| != 1 ==> s in SectionLeafNames(top)
  {
    if |top| == 1 {
      s := SingleRootLeaf(top, p);
    } else {
      s := SectionLeaf(top, p);
    }
  }

  lemma {:induction false} SingleRootLeaf(top: seq<Entry>, p: string) returns (s: seq<string>)
    requires |top| == 1 && WellFormed(top[0].node) && p in FilePaths(RenderRoot(top))
    ensures NamePath(s) && p == Join(s) && s in LeafNames(top[0].node)
  {
    var ls := LeafNames(top[0].node);
    SingleRootPaths(top);
    LeafNamesArePaths(top[0].node);
    var k :| 0 <= k < |ls| && p == PathsBelow("", ls)[k];
    s := ls[k];
  }

  lemma {:induction false} SectionLeaf(top: seq<Entry>, p: string) returns (s: seq<string>)
    requires |top| != 1 && EntriesWellFormed(top) && p in FilePaths(RenderRoot(top))
    ensures NamePath(s) && p == Join(s) && s in SectionLeafNames(top)
  {
    var ls := SectionLeafNames(top);
    SectionRootPaths(top);
    SectionLeafNamesStartWithKey(top);
    var k :| 0 <= k < |ls| && p == PathsBelow("", ls)[k];
    s := ls[k];
    assert s in ls;
  }

  /** Every id expandToPath computes for a rendered file names a folder section
      the rendering created. */
  lemma {:induction false} ExpandIdsRendered(top: seq<Entry>, p: string)
    requires WellFormed(Folder(top)) && p in FilePaths(RenderRoot(top))
    ensures forall id :: id in ExpandIds(p) ==> FolderRow(id) in RenderRoot(top)
  {
    var s := RenderedFileLeaf(top, p);
    ExpandIdsCount(s);
    forall id | id in ExpandIds(p) ensures FolderRow(id) in RenderRoot(top) {
      var i :| 0 <= i < |ExpandIds(p)| && id == ExpandIds(p)[i];
      ExpandIdIsMakeId(s, i);
      if |top| == 1 {
        RenderHasFolders(top[0].node, "", s, i);
      } else {
        SectionsHaveFolders(top, s, i);
      }
    }
  }

  // ---------------------------------------------------------------
  // humanSize: the loop, and what the label means
  // ---------------------------------------------------------------

  /** Number.prototype.toFixed with 0 or 1 decimals for a non-negative value below
      10^21: the nearest multiple of 10^-digits, the larger one on a tie. */
  function ToFixed(x: real, digits: nat): (r: string)
    requires x >= 0.0 && digits <= 1
    ensures digits == 0 ==> AllDigits(r) && Nearest(DigitsValue(r), x)
    ensures digits == 1 ==>
      |r| >= 3 && r[|r| - 2] == '.' && AllDigits(WithoutPoint(r)) && Nearest(DigitsValue(WithoutPoint(r)), 10.0 * x)
  {
    if digits == 0 then
      var k: nat := (x + 0.5).Floor;
      DecimalRoundTrip(k);
      DecimalString(k)
    else
      var m: nat := (x * 10.0 + 0.5).Floor;
      var whole := DecimalString(m / 10);
      var r := whole + "." + [DigitChar(m % 10)];
      assert r[..|r| - 2] == whole;
      assert WithoutPoint(r) == whole + [DigitChar(m % 10)];
      assert WithoutPoint(r)[..|WithoutPoint(r)| - 1] == whole;
      DecimalRoundTrip(m / 10);
      r
  }

  /** `k` is x rounded to the nearest integer, halves upward. */
  predicate Nearest(k: nat, x: real)
  {
    (k as real) - 0.5 <= x < (k as real) + 0.5
  }

  /** A one-decimal rendering with its point taken out. */
  function WithoutPoint(r: string): string
    requires |r| >= 2
  {
    r[..|r| - 2] + [r[|r| - 1]]
  }

  lemma {:induction false} PowStep(i: nat, j: nat)
    ensures i < j ==> Pow1024(i + 1) <= Pow1024(j)
    decreases j
  {
    if i + 1 < j {
      PowStep(i, j - 1);
    }
  }

  /** The unit is determined by the bounds UnitIndex states. */
  lemma {:induction false} UnitIndexUnique(n: nat, i: nat)
    requires i <= 4 && (i == 0 || n >= Pow1024(i)) && (i == 4 || n < Pow1024(i + 1))
    ensures UnitIndex(n) == i
  {
    var k := UnitIndex(n);
    PowStep(k, i);
    PowStep(i, k);
  }

  lemma {:induction false} FloorOfQuotient(a: nat, b: nat)
    requires b > 0
    ensures (a as real / b as real).Floor == a / b
  {
    var q := a / b;
    var r := a % b;
    assert a == q * b + r;
    assert (a as real) / (b as real) == (q as real) + (r as real) / (b as real);
    assert 0.0 <= (r as real) / (b as real) < 1.0;
  }

  lemma {:induction false} DivIntro(a: real, c: real, y: real)
    requires c != 0.0 && y * c == a
    ensures y == a / c
  {
  }

  lemma {:induction false} CancelLe(a: real, b: real, d: real)
    requires d > 0.0 && a * d <= b * d
    ensures a <= b
  {
    assert a * d - b * d == (a - b) * d;
  }

  lemma {:induction false} CancelLt(a: real, b: real, d: real)
    requires d > 0.0 && a * d < b * d
    ensures a < b
  {
    assert a * d - b * d == (a - b) * d;
  }

  /** One step of the loop keeps `num * 1024^i == n`, and its test `num >= 1024`
      is the test `n >= 1024^(i+1)`. */
  lemma {:induction false} ScaleStep(num: real, p: nat, n: nat)
    requires p >= 1 && num * (p as real) == n as real
    ensures (num / 1024.0) * ((1024 * p) as real) == n as real
    ensures num >= 1024.0 <==> n >= 1024 * p
  {
    assert (1024 * p) as real == 1024.0 * (p as real);
    DivideScale(num, p as real, n as real);
    ThresholdScale(num, p as real, n as real);
  }

  lemma {:induction false} DivideScale(num: real, w: real, x: real)
    requires num * w == x
    ensures (num / 1024.0) * (1024.0 * w) == x
  {
    var q := num / 1024.0;
    assert num == 1024.0 * q;
  }

  lemma {:induction false} ThresholdScale(num: real, w: real, x: real)
    requires w > 0.0 && num * w == x
    ensures num >= 1024.0 <==> x >= 1024.0 * w
  {
    if num >= 1024.0 {
      MulLe(1024.0, num, w);
    } else {
      MulLt(num, 1024.0, w);
    }
  }

  lemma {:induction false} MulLe(a: real, b: real, w: real)
    requires w > 0.0 && a <= b
    ensures a * w <= b * w
  {
    assert b * w - a * w == (b - a) * w;
  }

  lemma {:induction false} MulLt(a: real, b: real, w: real)
    requires w > 0.0 && a < b
    ensures a * w < b * w
  {
    assert b * w - a * w == (b - a) * w;
  }

  lemma {:induction false} HalfUp(n: nat, d: nat, num: real)
    requires d >= 2 && d % 2 == 0 && num * (d as real) == n as real
    ensures num * 10.0 + 0.5 == (10 * n + d / 2) as real / d as real
  {
    var h := d / 2;
    assert (h as real) * 2.0 == d as real;
    var lhs := num * 10.0 + 0.5;
    assert lhs * (d as real) == (10 * n + h) as real;
    DivIntro((10 * n + h) as real, d as real, lhs);
  }

  lemma {:induction false} FixedOfWhole(n: nat)
    ensures ToFixed(n as real, 0) == DecimalString(n)
  {
    var x := n as real + 0.5;
    assert x * 2.0 == (2 * n + 1) as real;
    DivIntro((2 * n + 1) as real, 2.0, x);
    FloorOfQuotient(2 * n + 1, 2);
    assert (2 * n + 1) / 2 == n;
    assert x.Floor == n;
  }

  lemma {:induction false} FixedOfQuotient(n: nat, i: nat, num: real)
    requires 1 <= i && num * (Pow1024(i) as real) == n as real
    ensures num >= 0.0
    ensures ToFixed(num, 1) == DecimalString(Tenths(n, i) / 10) + "." + [DigitChar(Tenths(n, i) % 10)]
  {
    var d := Pow1024(i);
    Pow1024Even(i);
    CancelLe(0.0, num, d as real);
    HalfUp(n, d, num);
    FloorOfQuotient(10 * n + d / 2, d);
  }

  /** humanSize's loop (static/js/tree.js, static/app.js): divide while the value
      is at least 1024 and a larger unit exists, then print with toFixed. */
  method HumanSizeLoop(n: nat) returns (r: string)
    ensures r == HumanSize(n)
  {
    var i: nat := 0;
    var num: real := n as real;
    while num >= 1024.0 && i < |UnitNames| - 1
      invariant i <= 4 && (i == 0 || n >= Pow1024(i))
      invariant num * (Pow1024(i) as real) == n as real
      decreases 4 - i
    {
      LoopStep(num, i, n);
      num := num / 1024.0;
      i := i + 1;
    }
    LoopExit(num, i, n);
    r := ToFixed(num, if i == 0 then 0 else 1) + " " + UnitNames[i];
  }

  /** One pass of the loop body keeps `num * 1024^i == n` and `n >= 1024^i`. */
  lemma {:induction false} LoopStep(num: real, i: nat, n: nat)
    requires i < 4 && num >= 1024.0 && num * (Pow1024(i) as real) == n as real
    ensures (num / 1024.0) * (Pow1024(i + 1) as real) == n as real && n >= Pow1024(i + 1)
  {
    ScaleStep(num, Pow1024(i), n);
  }

  /** When the loop stops, i is the unit humanSize picks and printing num with
      toFixed gives humanSize's label. */
  lemma {:induction false} LoopExit(num: real, i: nat, n: nat)
    requires i <= 4 && (i == 0 || n >= Pow1024(i))
    requires num * (Pow1024(i) as real) == n as real
    requires !(num >= 1024.0 && i < 4)
    ensures num >= 0.0
    ensures ToFixed(num, if i == 0 then 0 else 1) + " " + UnitNames[i] == HumanSize(n)
  {
    ScaleStep(num, Pow1024(i), n);
    UnitIndexUnique(n, i);
    if i == 0 {
      assert num == n as real;
      FixedOfWhole(n);
      BytesLabel(n);
    } else {
      FixedOfQuotient(n, i, num);
      ScaledLabel(n, i);
    }
  }

  lemma {:induction false} BytesLabel(n: nat)
    requires UnitIndex(n) == 0
    ensures HumanSize(n) == DecimalString(n) + " " + UnitNames[0]
  {
  }

  lemma {:induction false} ScaledLabel(n: nat, i: nat)
    requires 1 <= i && UnitIndex(n) == i
    ensures HumanSize(n) == DecimalString(Tenths(n, i) / 10) + "." + [DigitChar(Tenths(n, i) % 10)] + " " + UnitNames[i]
  {
  }

  lemma {:induction false} TenthsBounds(n: nat, d: nat, m: nat, p: nat)
    requires d >= 2 && d % 2 == 0 && m == (10 * n + d / 2) / d && p == m * d
    ensures 2 * p <= 20 * n + d < 2 * p + 2 * d
  {
    var a := 10 * n + d / 2;
    assert p <= a < p + d;
  }

  lemma {:induction false} RealBounds(n: real, d: real, m: real, p: real)
    requires d > 0.0 && p == m * d && 2.0 * p <= 20.0 * n + d < 2.0 * p + 2.0 * d
    ensures m / 10.0 - 0.05 <= n / d < m / 10.0 + 0.05
  {
    var x := n / d;
    assert x * d == n;
    assert (2.0 * m - 1.0) * d == 2.0 * p - d;
    assert (20.0 * x) * d == 20.0 * n;
    assert (2.0 * m + 1.0) * d == 2.0 * p + d;
    CancelLe(2.0 * m - 1.0, 20.0 * x, d);
    CancelLt(20.0 * x, 2.0 * m + 1.0, d);
  }

  /** Converting a product of naturals to a real multiplies the conversions. */
  lemma {:induction false} CastMul(a: nat, b: nat)
    ensures (a * b) as real == (a as real) * (b as real)
    decreases b
  {
    if b > 0 {
      CastMul(a, b - 1);
      assert a * b == a * (b - 1) + a;
      assert (a as real) * (b as real) == (a as real) * ((b - 1) as real) + (a as real);
    }
  }

  /** The label's number is the size in its unit rounded half up to one decimal:
      within half a tenth of the exact quotient, never below it on a tie. */
  lemma {:induction false} TenthsRounding(n: nat, i: nat)
    requires 1 <= i
    ensures var x := n as real / Pow1024(i) as real;
      var m := Tenths(n, i) as real / 10.0;
      m - 0.05 <= x < m + 0.05
  {
    Pow1024Even(i);
    HalfUpBounds(n, Pow1024(i), Tenths(n, i));
  }

  lemma {:induction false} Pow1024Even(i: nat)
    requires i >= 1
    ensures Pow1024(i) >= 2 && Pow1024(i) % 2 == 0
  {
    var k := Pow1024(i - 1);
    assert Pow1024(i) == 2 * (512 * k);
  }

  /** Rounding n / d half up to tenths lands within half a tenth of it. */
  lemma {:induction false} HalfUpBounds(n: nat, d: nat, m: nat)
    requires d >= 2 && d % 2 == 0 && m == (10 * n + d / 2) / d
    ensures (m as real) / 10.0 - 0.05 <= (n as real) / (d as real) < (m as real) / 10.0 + 0.05
  {
    var p := m * d;
    TenthsBounds(n, d, m, p);
    CastMul(m, d);
    RealBounds(n as real, d as real, m as real, p as real);
  }

  lemma {:induction false} HumanSizeBytes()
    ensures HumanSize(0) == "0 B" && HumanSize(1023) == "1023 B"
  {
    UnitIndexUnique(0, 0);
    UnitIndexUnique(1023, 0);
    assert DecimalString(1023) == "1023";
  }

  lemma {:induction false} HumanSizeKilobytes()
    ensures HumanSize(1536) == "1.5 KB"
  {
    UnitIndexUnique(1536, 1);
    assert Tenths(1536, 1) == 15;
  }

  /** The unit is chosen before rounding: one byte short of a mebibyte prints as
      1024.0 KB, a mebibyte as 1.0 MB. */
  lemma {:induction false} HumanSizeThreshold()
    ensures HumanSize(1048575) == "1024.0 KB" && HumanSize(1048576) == "1.0 MB"
  {
    HumanSizeLastKilobytes();
    HumanSizeFirstMegabyte();
  }

  lemma {:induction false} HumanSizeLastKilobytes()
    ensures HumanSize(1048575) == "1024.0 KB"
  {
    UnitIndexUnique(1048575, 1);
    assert Tenths(1048575, 1) == 10240;
    assert DecimalString(1024) == "1024";
  }

  lemma {:induction false} HumanSizeFirstMegabyte()
    ensures HumanSize(1048576) == "1.0 MB"
  {
    UnitIndexUnique(1048576, 2);
    assert Tenths(1048576, 2) == 10;
  }
}

=== FILE: treeview.dfy ===
/** The rendered library panel of static/js/tree.js as mutable state: the rows
    loadTree creates and the single row carrying the `file-item-selected` mark,
    which expandToPath moves through switchFileItemSelected. */
module TreeView {
  import opened Text
  import opened Tree
  import Uri

  /** `querySelector(".file-item-selected")`: the first marked row in document order. */
  function FirstMarked(marked: seq<bool>): (r: Option<nat>)
    ensures r.Some? ==> r.value < |marked| && marked[r.value]
    ensures r.Some? ==> forall k :: 0 <= k < r.value ==> !marked[k]
    ensures r.None? ==> forall k :: 0 <= k < |marked| ==> !marked[k]
  {
    if marked == [] then None
    else if marked[0] then Some(0)
    else
      match FirstMarked(marked[1..])
      case None => None
      case Some(k) => Some(k + 1)
  }

  /** The `.file-item` whose `data-path` is `path`, first in document order. */
  function FindRow(rows: seq<Row>, path: string): (r: Option<nat>)
    ensures r.Some? ==> r.value < |rows| && rows[r.value].FileRow? && rows[r.value].path == path
    ensures r.Some? ==> forall k :: 0 <= k < r.value ==> !(rows[k].FileRow? && rows[k].path == path)
    ensures r.None? ==> forall k :: 0 <= k < |rows| ==> !(rows[k].FileRow? && rows[k].path == path)
  {
    if rows == [] then None
    else if rows[0].FileRow? && rows[0].path == path then Some(0)
    else
      match FindRow(rows[1..], path)
      case None => None
      case Some(k) => Some(k + 1)
  }

  predicate AtMostOneMarked(marked: seq<bool>)
  {
    forall i, j :: 0 <= i < j < |marked| ==> !(marked[i] && marked[j])
  }

  /** The marks with the given row's mark removed. */
  function Unmark(marked: seq<bool>, row: Option<nat>): (r: seq<bool>)
    ensures |r| == |marked|
    ensures forall k :: 0 <= k < |r| ==> (r[k] <==> marked[k] && row != Some(k))
  {
    if row.Some? && row.value < |marked| then marked[row.value := false] else marked
  }

  /** Removing the first mark of a sequence with at most one mark clears them all. */
  lemma {:induction false} UnmarkFirstClears(marked: seq<bool>)
    requires AtMostOneMarked(marked)
    ensures forall k :: 0 <= k < |marked| ==> !Unmark(marked, FirstMarked(marked))[k]
  {
    var first := FirstMarked(marked);
    forall k | 0 <= k < |marked| ensures !Unmark(marked, first)[k] {
      if first.Some? && k < first.value {
        assert !marked[k];
      } else if first.Some? && k > first.value {
        assert !(marked[first.value] && marked[k]);
      }
    }
  }

  /** The loop of expandToPath: for each segment but the last, extend `base` by
      it and compute the id of the section to open. */
  method FolderIds(relPath: string) returns (ids: seq<string>)
    ensures ids == ExpandIds(relPath)
  {
    if relPath == "" {
      return [];
    }
    var segments := Split(relPath);
    var base := "";
    ids := [];
    var i: nat := 0;
    while i < |segments| - 1
      invariant i <= |segments| - 1
      invariant base == BaseAt("", segments, i)
      invariant |ids| == i
      invariant forall k :: 0 <= k < i ==> ids[k] == "id-" + Sanitize(BaseAt("", segments, k + 1))
    {
      base := if base != "" then base + "/" + segments[i] else segments[i];
      ids := ids + ["id-" + Sanitize(base)];
      i := i + 1;
    }
  }

  class Panel {
    /** The rows of the last rendering, in document order. */
    var rows: seq<Row>
    /** Which rows carry `file-item-selected`. */
    var marked: seq<bool>

    ghost predicate Valid()
      reads this
    {
      |marked| == |rows|
    }

    constructor ()
      ensures Valid() && rows == [] && marked == []
    {
      rows := [];
      marked := [];
    }

    /** The rendering part of loadTree: the tree from /api/tree has sorted keys
        at every level, the rows are replaced, no two file rows carry the same
        path, and none is marked.
        The fragment test that follows decodes without a fallback, so a malformed
        fragment makes loadTree reject (`ok` is false) after rendering. */
    method Load(top: seq<Entry>, fragment: string) returns (ok: bool)
      requires WellFormed(Folder(top))
      modifies this
      ensures Valid() && rows == RenderRoot(top)
      ensures Distinct(FilePaths(rows))
      ensures forall k :: 0 <= k < |marked| ==> !marked[k]
      ensures ok <==> fragment == "" || Uri.Decode(fragment).Some?
    {
      rows := RenderRoot(top);
      RenderedPathsDistinct(top);
      marked := seq(|rows|, _ => false);
      ok := fragment == "" || Uri.Decode(fragment).Some?;
    }

    /** switchFileItemSelected: the first marked row loses its mark, then the
        target gains it. A missing target (`null`) throws at `target.classList`
        after the old mark is gone; `ok` is false then. */
    method SwitchSelected(target: Option<nat>) returns (ok: bool)
      requires Valid() && (target.Some? ==> target.value < |rows|)
      modifies this
      ensures Valid() && rows == old(rows)
      ensures ok == target.Some?
      ensures !ok ==> marked == Unmark(old(marked), FirstMarked(old(marked)))
      ensures ok ==> marked == Unmark(old(marked), FirstMarked(old(marked)))[target.value := true]
      ensures ok && AtMostOneMarked(old(marked)) ==>
        forall k :: 0 <= k < |marked| ==> (marked[k] <==> k == target.value)
    {
      var previous := FirstMarked(marked);
      if previous.Some? {
        marked := marked[previous.value := false];
      }
      if target.None? {
        return false;
      }
      if AtMostOneMarked(old(marked)) {
        UnmarkFirstClears(old(marked));
      }
      marked := marked[target.value := true];
      ok := true;
    }

    /** expandToPath: the ids of the folder sections opened on the way to the
        file, then the selection moved to the file's row. */
    method ExpandToPath(relPath: string) returns (ids: seq<string>, ok: bool)
      requires Valid()
      modifies this
      ensures Valid() && rows == old(rows)
      ensures ids == ExpandIds(relPath)
      ensures relPath == "" ==> ok && marked == old(marked)
      ensures relPath != "" ==> ok == FindRow(rows, relPath).Some?
      ensures relPath != "" && !ok ==> marked == Unmark(old(marked), FirstMarked(old(marked)))
      ensures relPath != "" && ok && AtMostOneMarked(old(marked)) ==>
        forall k :: 0 <= k < |marked| ==>
          (marked[k] <==> rows[k].FileRow? && rows[k].path == relPath && k == FindRow(rows, relPath).value)
    {
      ids := FolderIds(relPath);
      if relPath == "" {
        return ids, true;
      }
      var target := FindRow(rows, relPath);
      ok := SwitchSelected(target);
    }
  }
}

=== FILE: uri.dfy ===
/** ECMAScript's encodeURIComponent and decodeURIComponent (the percent-encoding of
    section 2.1 of RFC 3986 over UTF-8), which the UI uses for the URL fragment and
    for the stream URL. Characters are Unicode scalar values, so the URIError that
    encodeURIComponent raises for a lone surrogate cannot arise here. */
module Uri {
  import opened Text

  type Byte = b: int | 0 <= b < 256

  /** The characters encodeURIComponent leaves alone: letters, digits and - _ . ! ~ * ' ( ). */
  predicate Unreserved(c: char)
  {
    ('a' <= c <= 'z') || ('A' <= c <= 'Z') || ('0' <= c <= '9')
    || c == '-' || c == '_' || c == '.' || c == '!' || c == '~' || c == '*'
    || c == '\'' || c == '(' || c == ')'
  }

  /** UTF-8 encoding of one scalar value. */
  function Utf8(c: char): (bs: seq<Byte>)
    ensures 1 <= |bs| <= 4
  {
    var v := c as int;
    if v < 0x80 then [v]
    else if v < 0x800 then [0xC0 + v / 64, 0x80 + v % 64]
    else if v < 0x1_0000 then [0xE0 + v / 4096, 0x80 + (v / 64) % 64, 0x80 + v % 64]
    else [0xF0 + v / 262144, 0x80 + (v / 4096) % 64, 0x80 + (v / 64) % 64, 0x80 + v % 64]
  }

  function HexDigit(d: nat): (c: char)
    requires d < 16
  {
    if d < 10 then ('0' as int + d) as char else ('A' as int + d - 10) as char
  }

  /** A hexadecimal digit in either case, as decodeURIComponent accepts it. */
  function HexValue(c: char): Option<nat>
  {
    if '0' <= c <= '9' then Some(c as int - '0' as int)
    else if 'A' <= c <= 'F' then Some(c as int - 'A' as int + 10)
    else if 'a' <= c <= 'f' then Some(c as int - 'a' as int + 10)
    else None
  }

  /** One octet as "%HH" with upper-case digits. */
  function Escape(b: Byte): string
  {
    ['%', HexDigit(b / 16), HexDigit(b % 16)]
  }

  function EscapeAll(bs: seq<Byte>): (s: string)
    ensures |s| == 3 * |bs|
  {
    if |bs| == 0 then "" else Escape(bs[0]) + EscapeAll(bs[1..])
  }

  function EncodeChar(c: char): (r: string)
    ensures 1 <= |r| <= 12
  {
    if Unreserved(c) then [c] else EscapeAll(Utf8(c))
  }

  /** encodeURIComponent: every character becomes itself or one to four escapes. */
  function Encode(s: string): (r: string)
    ensures |s| <= |r| <= 12 * |s|
  {
    if |s| == 0 then "" else EncodeChar(s[0]) + Encode(s[1..])
  }

  // ---------------------------------------------------------------
  // Decoding
  // ---------------------------------------------------------------

  /** The octet written "%HH" at the start of s, if there is one. */
  function Octet(s: string): (r: Option<Byte>)
    ensures r.Some? ==> |s| >= 3
  {
    if |s| < 3 || s[0] != '%' then None
    else match (HexValue(s[1]), HexValue(s[2]))
      case (Some(h), Some(l)) => if h < 16 && l < 16 then Some(h * 16 + l) else None
      case _ => None
  }

  /** Number of leading one bits of an octet (5 stands for "more than four"). */
  function LeadingOnes(b: Byte): nat
  {
    if b < 0x80 then 0 else if b < 0xC0 then 1 else if b < 0xE0 then 2
    else if b < 0xF0 then 3 else if b < 0xF8 then 4 else 5
  }

  predicate IsContinuation(b: Byte)
  {
    0x80 <= b < 0xC0
  }

  /** Reads `count` escaped continuation octets from the start of s. */
  function Continuations(s: string, count: nat): (r: Option<seq<Byte>>)
    ensures r.Some? ==> |r.value| == count && |s| >= 3 * count
    ensures r.Some? ==> forall i :: 0 <= i < count ==> IsContinuation(r.value[i])
  {
    if count == 0 then Some([])
    else match Octet(s)
      case None => None
      case Some(b) =>
        if !IsContinuation(b) then None
        else match Continuations(s[3..], count - 1)
          case None => None
          case Some(more) => Some([b] + more)
  }

  /** The scalar value a lead octet and its continuation octets spell. */
  function CodePoint(lead: Byte, more: seq<Byte>): int
    requires |more| <= 3 && forall i :: 0 <= i < |more| ==> IsContinuation(more[i])
  {
    var m := seq(|more|, i requires 0 <= i < |more| => more[i] as int - 0x80);
    if |more| == 1 then (lead as int - 0xC0) * 64 + m[0]
    else if |more| == 2 then (lead as int - 0xE0) * 4096 + m[0] * 64 + m[1]
    else if |more| == 3 then (lead as int - 0xF0) * 262144 + m[0] * 4096 + m[1] * 64 + m[2]
    else lead as int
  }

  /** Whether an n-octet sequence spelling v is valid UTF-8: not overlong, not a
      surrogate, not above U+10FFFF. */
  predicate ValidScalar(n: nat, v: int)
  {
    (n == 2 && 0x80 <= v < 0x800)
    || (n == 3 && 0x800 <= v < 0x1_0000 && !(0xD800 <= v < 0xE000))
    || (n == 4 && 0x1_0000 <= v < 0x11_0000)
  }

  function Prepend(c: char, r: Option<string>): Option<string>
  {
    match r
    case None => None
    case Some(t) => Some([c] + t)
  }

  /** decodeURIComponent: None stands for the URIError it throws. Decoding never
      lengthens a string. */
  function Decode(s: string): (r: Option<string>)
    ensures r.Some? ==> |r.value| <= |s|
    decreases |s|
  {
    if |s| == 0 then Some("")
    else if s[0] != '%' then
      Prepend(s[0], Decode(s[1..]))
    else match Octet(s)
      case None => None
      case Some(b) =>
        if b < 0x80 then Prepend(b as char, Decode(s[3..]))
        else
          var n := LeadingOnes(b);
          if n == 1 || n > 4 || |s| < 3 * n then None
          else match Continuations(s[3..], n - 1)
            case None => None
            case Some(more) =>
              var v := CodePoint(b, more);
              if !ValidScalar(n, v) then None
              else Prepend(v as char, Decode(s[3 * n..]))
  }

  // ---------------------------------------------------------------
  // Round trip
  // ---------------------------------------------------------------

  lemma {:induction false} HexRoundTrip(d: nat)
    requires d < 16
    ensures HexValue(HexDigit(d)) == Some(d)
  {
  }

  lemma {:induction false} OctetOfEscape(b: Byte, t: string)
    ensures Octet(Escape(b) + t) == Some(b)
    ensures (Escape(b) + t)[3..] == t
  {
    HexRoundTrip(b / 16);
    HexRoundTrip(b % 16);
  }

  lemma {:induction false} ContinuationsOfEscapes(bs: seq<Byte>, t: string)
    requires forall i :: 0 <= i < |bs| ==> IsContinuation(bs[i])
    ensures Continuations(EscapeAll(bs) + t, |bs|) == Some(bs)
  {
    if |bs| > 0 {
      var s := EscapeAll(bs) + t;
      assert s == Escape(bs[0]) + (EscapeAll(bs[1..]) + t);
      OctetOfEscape(bs[0], EscapeAll(bs[1..]) + t);
      ContinuationsOfEscapes(bs[1..], t);
      assert [bs[0]] + bs[1..] == bs;
    }
  }

  /** The UTF-8 octets of a character decode to it: right lead octet, continuation
      octets, value and validity. */
  lemma {:induction false} Utf8Facts(c: char)
    ensures var bs := Utf8(c);
      && (|bs| == 1 <==> c as int < 0x80)
      && (|bs| > 1 ==> LeadingOnes(bs[0]) == |bs|)
      && (forall i :: 1 <= i < |bs| ==> IsContinuation(bs[i]))
      && (|bs| > 1 ==> ValidScalar(|bs|, CodePoint(bs[0], bs[1..])) && CodePoint(bs[0], bs[1..]) == c as int)
  {
    var v := c as int;
    var bs := Utf8(c);
    if 0x800 <= v < 0x1_0000 {
      assert v / 4096 == (v / 64) / 64;
      assert (v / 64) / 64 * 64 + (v / 64) % 64 == v / 64;
      assert (v / 4096) * 4096 + ((v / 64) % 64) * 64 == (v / 64) * 64;
    } else if v >= 0x1_0000 {
      assert v / 4096 == (v / 64) / 64;
      assert v / 262144 == (v / 4096) / 64;
      assert (v / 4096) / 64 * 64 + (v / 4096) % 64 == v / 4096;
      assert (v / 64) / 64 * 64 + (v / 64) % 64 == v / 64;
      assert (v / 262144) * 262144 + ((v / 4096) % 64) * 4096 == (v / 4096) * 4096;
      assert (v / 4096) * 4096 + ((v / 64) % 64) * 64 == (v / 64) * 64;
    }
  }

  /** A character other than '%' is copied as it stands. */
  lemma {:induction false} DecodeCopies(c: char, t: string)
    requires c != '%'
    ensures Decode([c] + t) == Prepend(c, Decode(t))
  {
    var s := [c] + t;
    assert s[0] == c && s[1..] == t;
  }

  lemma {:induction false} EncodeCharThenDecode(c: char, t: string)
    ensures Decode(EncodeChar(c) + t) == Prepend(c, Decode(t))
  {
    if Unreserved(c) {
      assert EncodeChar(c) == [c];
      DecodeCopies(c, t);
    } else {
      EscapedCharThenDecode(c, t);
    }
  }

  /** The escaped case: the first escape starts the character's UTF-8 sequence and
      the continuation escapes that follow complete it. */
  lemma {:induction false} EscapedCharThenDecode(c: char, t: string)
    requires !Unreserved(c)
    ensures Decode(EscapeAll(Utf8(c)) + t) == Prepend(c, Decode(t))
  {
    var bs := Utf8(c);
    Utf8Facts(c);
    var s := EscapeAll(bs) + t;
    assert s == Escape(bs[0]) + (EscapeAll(bs[1..]) + t);
    OctetOfEscape(bs[0], EscapeAll(bs[1..]) + t);
    if |bs| == 1 {
      assert (bs[0] as char) == c;
    } else {
      ContinuationsOfEscapes(bs[1..], t);
      assert s[3..] == EscapeAll(bs[1..]) + t;
      assert s[3 * |bs|..] == t;
      assert CodePoint(bs[0], bs[1..]) as char == c;
    }
  }

  /** decodeURIComponent undoes encodeURIComponent. */
  lemma {:induction false} DecodeEncode(s: string)
    ensures Decode(Encode(s)) == Some(s)
  {
    if |s| > 0 {
      DecodeEncode(s[1..]);
      EncodeCharThenDecode(s[0], Encode(s[1..]));
      assert [s[0]] + s[1..] == s;
    }
  }

  /** Every character encodeURIComponent writes is unreserved, '%' or a hex digit. */
  predicate EncodedChar(c: char)
  {
    Unreserved(c) || c == '%'
  }

  lemma {:induction false} EscapesAreEncodedChars(bs: seq<Byte>)
    ensures forall i :: 0 <= i < |EscapeAll(bs)| ==> EncodedChar(EscapeAll(bs)[i])
  {
    if |bs| > 0 {
      EscapesAreEncodedChars(bs[1..]);
      assert EscapeAll(bs) == Escape(bs[0]) + EscapeAll(bs[1..]);
    }
  }

  lemma {:induction false} EncodeCharset(s: string)
    ensures forall i :: 0 <= i < |Encode(s)| ==> EncodedChar(Encode(s)[i])
  {
    if |s| > 0 {
      EncodeCharset(s[1..]);
      if !Unreserved(s[0]) {
        EscapesAreEncodedChars(Utf8(s[0]));
      }
    }
  }

  /** '=' is always escaped, so an encoded path never reads as carrying a `path=` prefix. */
  lemma {:induction false} NoEqualsInEncoding(s: string)
    ensures '=' !in Encode(s) && '/' !in Encode(s)
  {
    EncodeCharset(s);
  }
}
